=== FILE: README.md ===
# GitHub repository viewer — a verified model of its core rules

This Dafny project models the pure logic of a browser-based GitHub repository viewer
and proves properties of it. It has no I/O of its own. The viewer:

- loads a repository from its URL;
- shows the file tree, folders first;
- opens files with a syntax-highlighted view;
- finds files with a fuzzy path search;
- switches between recently opened files with Ctrl+Tab;
- resolves relative imports for go-to-definition;
- explains selected code in a popup;
- chats about the repository with a language model.

The modules follow the program's structure:

| module | file | models |
|---|---|---|
| `Common` | common.dfy | ASCII case mapping, `indexOf`/`lastIndexOf`, `split`/`join`, `trim`, `filter`, and the directory/file-name split of a path |
| `Sorting` | sorting.dfy | `Array.prototype.sort` with a consistent comparator: a stable sort by a total preorder |
| `Types` | types.ts shapes | tree nodes, GitHub entries, repository info, chat messages, the explanation setting |
| `FuzzySearch` | components/FileSearch.tsx | `fuzzyMatch` and its score, `performFuzzySearch`, the highlighted path, arrow-key selection |
| `Workspace` | App.tsx | `flattenTree`, the visited-file stack, the Ctrl+Tab navigator, the partial code context |
| `Storage` | services/localStorageService.ts | search history (move to front, at most ten), the explanation setting, over a key-to-string store |
| `GitHub` | services/githubService.ts | `parseGitHubUrl` (leftmost regex match) and `buildFileTree` |
| `PathResolution` | services/pathService.ts | `resolveImportPath`: URL merge, dot-segment removal (section 5.2.4 of RFC 3986), ordered suffix lookup |
| `Editor` | components/EditorDisplay.tsx | language from extension, `<`/`>` escaping, line count, word expansion on click, the selection gate |
| `FileTreeView` | components/FileTree.tsx | folder-first ordering at every level, open/closed folders, selection |
| `HistoryNavigator` | components/FileHistoryNavigator.tsx | navigator rows: file name, directory, highlight |
| `ExplanationPopup` | components/ExplanationPopup.tsx | popup placement and code-fence extraction |
| `Chat` | components/ChatPanel.tsx | the context-file set, message list transitions while sending and streaming, context text |

Choices that apply throughout:

- Strings are sequences of characters.
- Case mapping is ASCII only, so lower-casing preserves length.
- The name collation (`localeCompare`) is a parameter: any total preorder on strings.
- `JSON.parse`/`JSON.stringify` are a parameter. Only their round trip on string arrays is assumed.
- Browser storage is a map from keys to strings.
- File fetching, the language-model session and streaming are parameters too: what a fetch returned, whether a session exists, and the list of chunk texts.

Behaviours of the code a reader might not expect:

- An empty query matches every path with score 1 and no indices (components/FileSearch.tsx:14). The search itself returns no results for an empty query.
- Greedy left-to-right matching never misses an alignment: a path matches exactly when the lower-cased query is a subsequence of the lower-cased path (`FuzzySearch.MatchIffSubsequence`).
- The path's own case affects the score. The "camelCase" bonus applies to any path character equal to its upper-case form, digits and punctuation included. So two paths that differ only in case can score differently.

## Model

| member | source | states |
|---|---|---|
| `FuzzySearch.MatchPoints` | components/FileSearch.tsx:26-30 | one matched character earns between 100 and 330 points |
| `FuzzySearch.WalkInvariant` | components/FileSearch.tsx:16-38 | the matching loop keeps its indices an embedding of the query consumed so far and its score their summed points |
| `FuzzySearch.FuzzyMatch` | components/FileSearch.tsx:10-45 | empty query gives score 1 and no indices; a result's indices embed the lower-cased query in the lower-cased path (one per query character, strictly increasing, in range, characters equal); its score is the bonus sum minus the path length plus the file-name bonus; the indices are the leftmost embedding: no query character could have matched earlier than its index |
| `FuzzySearch.LeftmostUnique` | components/FileSearch.tsx:16-38 | two leftmost embeddings of the same query in the same path are equal, so the greedy indices are determined by query and path |
| `FuzzySearch.MatchIsLeftmostEmbedding` | components/FileSearch.tsx:10-45 | conversely, for a non-empty query, the leftmost embedding is the match's index list and its score is the score of those indices |
| `FuzzySearch.MatchIffSubsequence` | components/FileSearch.tsx:16-38 | a match exists if and only if the lower-cased query is a subsequence of the lower-cased path: the greedy walk is complete |
| `FuzzySearch.QueryCaseIrrelevant` | components/FileSearch.tsx:11-12 | two queries equal up to case give identical results |
| `FuzzySearch.PointsBounds` | components/FileSearch.tsx:26-30 | the accumulated points of n matches lie between 100n and 330n |
| `FuzzySearch.ScoreBounds` | components/FileSearch.tsx:40-43 | a non-empty query's score lies between 100·\|q\|−\|p\| and 330·\|q\|−\|p\|+50 |
| `FuzzySearch.Candidates` | components/FileSearch.tsx:50-51 | exactly the matching paths survive the filter, each with its own match |
| `FuzzySearch.Candidate` | components/FileSearch.tsx:50-51 | one path gives one result, carrying its own match, exactly when it matches, and none otherwise |
| `FuzzySearch.CandidatesAppend` | components/FileSearch.tsx:50-51 | the candidates of two lists concatenated are the candidates of the first followed by those of the second: input order and multiplicity are kept |
| `FuzzySearch.CandidatesOne` | components/FileSearch.tsx:50-51 | the candidates of a one-path list are that path's own candidate |
| `FuzzySearch.ScoreAtLeastIsPreorder` | components/FileSearch.tsx:52 | the descending-score comparator is a total preorder, so the sort is well defined |
| `FuzzySearch.Ranked` | components/FileSearch.tsx:52 | the ranked list is a permutation of the candidates with non-increasing scores |
| `FuzzySearch.SliceEnd` | components/FileSearch.tsx:53 | `slice(0, n)` keeps min(n, length) items for n ≥ 0 |
| `FuzzySearch.PerformFuzzySearch` | components/FileSearch.tsx:48-55 | an empty query yields no results |
| `FuzzySearch.Search` | components/FileSearch.tsx:48 | with the default limit at most 20 results |
| `FuzzySearch.SearchResults` | components/FileSearch.tsx:48-55 | every result is a matching input path with its own match, scores never increase, and the length is min(maxResults, number of matches) |
| `FuzzySearch.SearchKeepsTheBest` | components/FileSearch.tsx:52-53 | a matching path left out scores no better than every kept result |
| `FuzzySearch.SearchStable` | components/FileSearch.tsx:52 | results with equal scores keep their input order |
| `FuzzySearch.Mark` | components/FileSearch.tsx:63-73 | one glyph per character, the glyphs spell the text, and glyph i is emphasised exactly when i plus the offset is a match index |
| `FuzzySearch.Highlight` | components/FileSearch.tsx:57-79 | directory and file name concatenate to the path, the file name has no '/', the directory ends in '/' or is empty, and offset i is emphasised exactly when i is a match index |
| `FuzzySearch.ArrowsWrap` | components/FileSearch.tsx:116-121 | arrow keys keep the selection in range, wrap at both ends, and undo each other |
| `FuzzySearch.Type` | components/FileSearch.tsx:107-109 | a new query resets the selection to the first result |
| `FuzzySearch.TypeThenEnter` | components/FileSearch.tsx:107-127 | typing a query and pressing Enter opens the best-ranked result's path, or nothing when the query has no results; the reset selection is in range whenever there are results |
| `FuzzySearch.Press` | components/FileSearch.tsx:112-127 | Enter opens the selected result's path and only an existing result; other keys than the arrows leave the box unchanged |
| `FuzzySearch.PressKeepsSelection` | components/FileSearch.tsx:116-121 | any key keeps an in-range selection in range |
| `Sorting.Sort` | services/githubService.ts:19 | the sorted list is a permutation of the input and ordered by the comparator |
| `Sorting.SortStable` | components/FileSearch.tsx:52 | elements the comparator cannot tell apart keep their input order |
| `Sorting.InsertSorted` | components/FileSearch.tsx:52 | inserting into a sorted list keeps it sorted |
| `Workspace.FlattenIsBlobPreOrder` | App.tsx:50-62 | the flattened list is exactly the blob paths of a pre-order walk of the forest |
| `Workspace.FlattenNodeIsBlobPreOrder` | App.tsx:52-59 | the same for one node and its descendants |
| `Workspace.PushVisited` | App.tsx:121-128 | the stack ends with the path, holds it once, keeps the other entries' order (dropping only the oldest), stays within 15, and stays duplicate-free; with 15 other entries exactly the oldest one is dropped, otherwise none |
| `Workspace.SelectFile` | App.tsx:113-129 | without a repository, or for the already selected path, nothing changes; otherwise the path becomes selected and is pushed on the stack |
| `Workspace.LoadRepo` | App.tsx:290-305 | an invalid URL changes nothing; a valid one empties the stack and the selection and sets the repository to the parsed owner and name |
| `Workspace.TransitionsKeepConsistent` | App.tsx:113-129 | selecting and loading keep the stack duplicate-free, within 15, and topped by the selected file |
| `Workspace.NavigatorFiles` | App.tsx:420-423 | the navigator lists the most recent files first, at most ten |
| `Workspace.CtrlTabInRange` | App.tsx:235-252 | with two or more visited files, Ctrl+Tab leaves the navigator open on an index below min(stack length, 10), so it names a listed file |
| `Workspace.CycleWraps` | App.tsx:243-252 | cycling wraps at both ends and the two directions undo each other |
| `Workspace.CtrlRelease` | App.tsx:257-269 | releasing Ctrl closes the navigator, keeping its index, and does nothing when it was closed; an open navigator on a listed, non-empty file other than the selected one selects that file as a click does; otherwise the application state is unchanged |
| `Workspace.Blur` | App.tsx:273-277 | losing focus closes the navigator and keeps its index |
| `Workspace.TabSwitchesToPrevious` | App.tsx:235-268 | one Ctrl+Tab and release switch to the previously opened file |
| `Workspace.FindLine` | App.tsx:345-346 | the first line containing the selected text, or -1 when none does |
| `Workspace.Window` | App.tsx:348-349 | the window holds the line and reaches exactly 3 lines back and 3 forward, cut only by the ends of the file |
| `Workspace.CodeContext` | App.tsx:343-352 | the full setting, or a selection found on no line, sends the whole file |
| `Workspace.SnippetIsLineWindow` | App.tsx:344-351 | otherwise the snippet is the lines of the window around the first matching line, between two banners, and they split back into the same lines |
| `Storage.GetSearchHistory` | services/localStorageService.ts:9-22 | an absent, empty, unparsable or non-array value reads as no history; a stored array reads back exactly as parsed |
| `Storage.MoveToFront` | services/localStorageService.ts:27-33 | the URL comes first, exactly once, followed by the other entries in their order, truncated to 10 in all |
| `Storage.AddSearchHistoryItem` | services/localStorageService.ts:24-38 | an empty URL changes nothing; otherwise only the history key is written |
| `Storage.ClearSearchHistory` | services/localStorageService.ts:40-46 | the history key is gone and every other key is kept |
| `Storage.AddThenGet` | services/localStorageService.ts:24-34 | after an add the history reads back as the moved-to-front list |
| `Storage.AddBoundsHistory` | services/localStorageService.ts:29-33 | after an add the history holds at most 10 entries, starting with the URL, which occurs once |
| `Storage.ClearThenGet` | services/localStorageService.ts:40-46 | after clearing, the history reads as empty |
| `Storage.GetExplanationContext` | services/localStorageService.ts:51-61 | a setting is returned exactly when "full" or "partial" is stored |
| `Storage.SetExplanationContext` | services/localStorageService.ts:63-69 | the setting's text is stored and nothing else changes |
| `Storage.SetThenGetContext` | services/localStorageService.ts:53-65 | a setting reads back as set, and the history is untouched |
| `GitHub.Segment` | services/githubService.ts:7 | `[^/]+` takes the longest run of non-'/' characters |
| `GitHub.MatchAt` | services/githubService.ts:7 | a match at a position is found exactly when the regular expression matches there |
| `GitHub.MatchUnique` | services/githubService.ts:7 | at one position the two groups are determined |
| `GitHub.StripGit` | services/githubService.ts:9 | one trailing ".git" is removed, nothing else |
| `GitHub.StripGitOnce` | services/githubService.ts:9 | "x.git.git" becomes "x.git", ".git" becomes "", "x.gitx" stays |
| `GitHub.FirstMatch` | services/githubService.ts:7 | the leftmost position at which the expression matches |
| `GitHub.ParseGitHubUrl` | services/githubService.ts:6-12 | null exactly when "github.com/" followed by two non-empty '/'-free segments occurs nowhere; the owner is non-empty and '/'-free; the repo is a matched second group with ".git" stripped |
| `GitHub.ParseUsesLeftmostMatch` | services/githubService.ts:7-9 | the leftmost occurrence decides owner and repo |
| `GitHub.AddStep` | services/githubService.ts:25-45 | one path part adds at most one node; a new node has its part as name, the file's type when last and 'tree' otherwise, and no children yet; it is a root or appended under its parent; under a blob parent it is silently not attached |
| `GitHub.AddParts` | services/githubService.ts:25-46 | a file's parts add exactly its path prefixes as nodes |
| `GitHub.AddFile` | services/githubService.ts:21-46 | one file adds exactly its path prefixes |
| `GitHub.AllPrefixesMember` | services/githubService.ts:22-28 | a prefix belongs to the collected set exactly when some file has it |
| `GitHub.AllPrefixesPermutation` | services/githubService.ts:19 | the sort before building changes which prefixes exist not at all |
| `GitHub.AddFiles` | services/githubService.ts:21-47 | the node map holds exactly the prefixes of all files |
| `GitHub.ByPathIsPreorder` | services/githubService.ts:19 | ordering files by path is a total preorder |
| `GitHub.Node` | services/githubService.ts:28-41 | every materialised node has its map entry's path, name and type, and each child's path is its parent's path, '/', and the child's name |
| `GitHub.Nodes` | services/githubService.ts:39-43 | a list of keys becomes a list of well-formed nodes in the same order |
| `GitHub.Empty` | services/githubService.ts:15-16 | building starts with no nodes and no roots |
| `GitHub.BuildFileTree` | services/githubService.ts:14-50 | every root's path equals its name and has no '/', and every node below is well formed |
| `GitHub.Built` | services/githubService.ts:19-47 | the node map after all files is well formed |
| `GitHub.BuildCreatesOneNodePerPrefix` | services/githubService.ts:30-37 | one node per distinct path prefix of the listed files, and no other |
| `Common.DirName` | services/pathService.ts:20 | the text before the last '/', or "" without one |
| `Common.BaseName` | components/FileHistoryNavigator.tsx:27 | the text after the last '/', with no '/' |
| `Common.DirNameBaseName` | components/FileHistoryNavigator.tsx:27-28 | with a '/', directory + '/' + name is the path; without, the directory is "" and the name is the path |
| `Common.JoinSplit` | services/githubService.ts:22 | joining the pieces of `split(sep)` with the separator gives back the text |
| `Common.SplitOfJoin` | App.tsx:345-357 | splitting a join of separator-free pieces gives back the pieces |
| `Common.SplitPiecesFree` | services/githubService.ts:22 | no piece of `split(sep)` holds the separator |
| `Common.SplitLength` | components/EditorDisplay.tsx:72 | `split(sep)` has one more piece than the text has separators |
| `Common.SplitLastPiece` | components/EditorDisplay.tsx:14 | the last piece of `split(sep)` is the text after the last separator, or the whole text without one |
| `Common.Trim` | components/EditorDisplay.tsx:76 | JavaScript `trim`: empty exactly for all-whitespace text, otherwise the slice between the first and last non-whitespace characters |
| `PathResolution.RemoveDotsFrom` | services/pathService.ts:24 | dot-segment removal leaves no "." or ".." segment and introduces no '/' |
| `PathResolution.DotFreeUnchanged` | services/pathService.ts:24 | segments without dots pass through unchanged |
| `PathResolution.RemoveDotsIdempotent` | services/pathService.ts:24 | removing dot segments twice is the same as once |
| `PathResolution.ParentCancels` | services/pathService.ts:24 | "x/.." cancels |
| `PathResolution.ParentAtRootClamped` | services/pathService.ts:24 | ".." at the root is dropped |
| `PathResolution.ResolvedIsDotFree` | services/pathService.ts:24 | the joined result again splits into dot-free segments |
| `PathResolution.ResolvedPathAsWritten` | services/pathService.ts:20-24 | the resolved path as the code computes it is dot-free |
| `PathResolution.ResolvedPath` | services/pathService.ts:20-24 | the corrected resolution is dot-free and agrees with the code whenever the file has a directory |
| `PathResolution.RootImportAsWritten` | services/pathService.ts:20-24 | as written, "./f" from a root-level file resolves to "/f" |
| `PathResolution.RootImportResolves` | services/pathService.ts:20-24 | corrected, "./f" from a root-level file resolves to "f" |
| `PathResolution.FirstExisting` | services/pathService.ts:30-42 | the first suffix, in list order, whose path exists |
| `PathResolution.Lookup` | services/pathService.ts:14-44 | not starting with '.' gives null; a result exists among the files, is the resolved path plus the first of the 10 suffixes that exists; null only when none exists |
| `PathResolution.ResolveImportPathAsWritten` | services/pathService.ts:9-45 | as written: null for non-relative imports; any result is an existing file |
| `PathResolution.ResolveImportPath` | services/pathService.ts:9-45 | corrected: null for non-relative imports; any result is an existing file |
| `PathResolution.DirectBeatsIndex` | services/pathService.ts:29-42 | an existing direct file wins over any `/index.*` file |
| `PathResolution.RootSiblingImport` | services/pathService.ts:20-34 | for any plain name f, "./f" from a root-level file finds "f.ts" when corrected (given "f.ts" is listed) and nothing as written |
| `Editor.ExtensionAfterLastDot` | components/EditorDisplay.tsx:14 | the extension is the lower-cased text after the last '.', or the whole lower-cased path without one |
| `Editor.LanguageFromPath` | components/EditorDisplay.tsx:12-42 | null or "" gives ""; an empty extension gives "plaintext"; a listed alias maps as listed; anything else is returned unchanged |
| `Editor.ExtensionOfDotted` | components/EditorDisplay.tsx:14 | "base.ext" has extension lower(ext) |
| `Editor.LanguageOfListedExtension` | components/EditorDisplay.tsx:18-41 | a listed extension maps to its alias |
| `Editor.LanguageOfUnlistedExtension` | components/EditorDisplay.tsx:41 | an unlisted extension is its own language |
| `Editor.LanguageOfTrailingDot` | components/EditorDisplay.tsx:15 | a path ending in '.' is plaintext |
| `Editor.LanguageWithoutDot` | components/EditorDisplay.tsx:14-41 | a path without '.' is looked up whole |
| `Editor.LanguageFromPathAsWritten` | components/EditorDisplay.tsx:18-41 | as written, the extensions "constructor" and "__proto__" reach inherited object members; every own-property answer agrees with the corrected function |
| `Editor.InheritedExtension` | components/EditorDisplay.tsx:41 | "x.constructor" yields the inherited constructor as written and "constructor" corrected |
| `Editor.LanguageEmptyOnlyWithoutPath` | components/EditorDisplay.tsx:13-15 | the language is "" exactly when there is no path |
| `Editor.ReplaceAll` | components/EditorDisplay.tsx:69 | text without c is unchanged; a single c becomes the replacement and any other single character stays; replacing every c by text without c leaves no c, and adds no new character |
| `Editor.ReplaceAllAppend` | components/EditorDisplay.tsx:69 | replacing in two texts joined is replacing in each and joining: with the one-character case, each character is handled on its own |
| `Editor.ReplaceAllLength` | components/EditorDisplay.tsx:69 | every occurrence is replaced by the whole replacement: the length changes by the number of occurrences times the replacement's length minus one |
| `Editor.Escape` | components/EditorDisplay.tsx:69 | the escaped text holds no '<' and no '>' |
| `Editor.EscapeIsOnePass` | components/EditorDisplay.tsx:69 | the two replacements act character by character |
| `Editor.EscapeIdentity` | components/EditorDisplay.tsx:69 | text without angle brackets is unchanged |
| `Editor.LineCount` | components/EditorDisplay.tsx:72 | 0 without content, else the number of newlines plus one |
| `Editor.ExpandWord` | components/EditorDisplay.tsx:106-117 | start ≤ offset ≤ end, every character between is a word character, and the run is maximal on both sides |
| `Editor.ClickToken` | components/EditorDisplay.tsx:84-123 | without Ctrl/Meta nothing; a token is a non-empty word-character run of the text covering the offset and bounded on both sides by a non-word character or an end of the text, a whole word; none only when the offset touches no word character |
| `Editor.SelectionGate` | components/EditorDisplay.tsx:76-80 | a selection fires exactly when its trimmed length is 1 to 99, passing the trimmed text |
| `FileTreeView.FolderFirstIsPreorder` | components/FileTree.tsx:61-64 | the folder-first comparator is a total preorder whenever the collation is |
| `FileTreeView.SortLevel` | components/FileTree.tsx:61-64 | a permutation in which every folder precedes every file and nodes of one kind are in name order |
| `FileTreeView.SortLevelStable` | components/FileTree.tsx:93-96 | nodes the comparator ties keep their order |
| `FileTreeView.SortNode` | components/FileTree.tsx:59-72 | a node keeps its name, path and type; its children are the same nodes, each as often, rearranged; every level below it is ordered |
| `FileTreeView.SortEach` | components/FileTree.tsx:61-72 | every node keeps its label, is itself sorted below, and has ordered subtrees |
| `FileTreeView.SortForest` | components/FileTree.tsx:93-104 | the shown level is a rearrangement of the input's nodes, each sorted below, with the same names, paths and types each as often; together with `SortNode` this holds at every level, and every level is ordered |
| `FileTreeView.NodeRows` | components/FileTree.tsx:48-76 | a node's own line comes first; a file or closed folder shows one line; lines below it are deeper |
| `FileTreeView.ForestRows` | components/FileTree.tsx:96-104 | at least one line per node, none shallower than the level |
| `FileTreeView.FileTree` | components/FileTree.tsx:86-107 | the empty-repository notice exactly for an empty tree |
| `FileTreeView.ClosedForestShowsTopLevel` | components/FileTree.tsx:59 | with every folder closed exactly the top-level nodes are shown: children only under an open folder |
| `FileTreeView.SelectedRowIsSelectedPath` | components/FileTree.tsx:34 | a line is highlighted exactly when its path is the selected path |
| `FileTreeView.RowsAreRowOf` | components/FileTree.tsx:34 | every line's highlight and folder icon match its own path |
| `FileTreeView.Toggle` | components/FileTree.tsx:31-59 | a folder flips its own flag and selects nothing; opening changes no other flag; closing also closes every folder below it, whose rendered nodes unmount, and changes no other flag; a file is selected and no flag changes |
| `FileTreeView.ToggleTwice` | components/FileTree.tsx:31-59 | closing and reopening a folder leaves it open, every folder below it closed, and every other flag as it was; opening and closing a closed folder with nothing open below it restores every flag |
| `FileTreeView.ForestRowsClosedBelow` | components/FileTree.tsx:59 | folders under a prefix with no open path below it show one line each, whatever else is open |
| `FileTreeView.ReopenShowsChildrenClosed` | components/FileTree.tsx:31-59 | after closing and reopening a folder, its lines are its own, open, and one closed line per child |
| `HistoryNavigator.Render` | components/FileHistoryNavigator.tsx:15-45 | nothing when closed, otherwise one row per file in order |
| `HistoryNavigator.ExactlyOneHighlighted` | components/FileHistoryNavigator.tsx:25-26 | exactly the row at the selected index is highlighted when that index is in range, none otherwise |
| `HistoryNavigator.RowShowsPath` | components/FileHistoryNavigator.tsx:27-28 | directory + '/' + file name is the path when it has a '/'; otherwise no directory and the whole path as name; no '/' in the name |
| `HistoryNavigator.FirstTabHighlightsPrevious` | components/FileHistoryNavigator.tsx:26 | the first Ctrl+Tab highlights exactly one row, the previously opened file |
| `ExplanationPopup.PopupAnchor` | components/ExplanationPopup.tsx:36-41 | the popup's top is 15 pixels below the click and its centre is at the click's x |
| `ExplanationPopup.WordRun` | components/ExplanationPopup.tsx:45 | `\w+` takes the longest run of word characters |
| `ExplanationPopup.TagAt` | components/ExplanationPopup.tsx:45 | the one place a tag line `\w+\n` can end, if any |
| `ExplanationPopup.FenceFrom` | components/ExplanationPopup.tsx:45 | the first fence at or after a position |
| `ExplanationPopup.LazyBody` | components/ExplanationPopup.tsx:45 | the lazy body ends at the first fence that leaves it at least one character |
| `ExplanationPopup.MatchAt` | components/ExplanationPopup.tsx:45-46 | at an opening fence, a match exists exactly when the expression can match there; the tag line is preferred when it leads to a match |
| `ExplanationPopup.FindBlock` | components/ExplanationPopup.tsx:45-46 | the leftmost fence that starts a match, with a body of at least one character ending at the nearest closing fence; none only when nothing matches |
| `ExplanationPopup.FormatExample` | components/ExplanationPopup.tsx:44-55 | the example is shown unchanged as a paragraph exactly when no fenced block matches; otherwise as code, trimmed |
| `ExplanationPopup.NoFenceIsParagraph` | components/ExplanationPopup.tsx:53-54 | text without a fence is shown unchanged |
| `ExplanationPopup.TaggedBlockAtStart` | components/ExplanationPopup.tsx:45-50 | a leading tagged block shows exactly its trimmed body, whatever follows |
| `Chat.AddContext` | components/ChatPanel.tsx:174-175 | the set gains the path; re-adding a present path changes nothing; the existing order is kept; no duplicates arise |
| `Chat.RemoveContext` | components/ChatPanel.tsx:166-172 | exactly that path is removed and nothing else |
| `Chat.RemoveUndoesAdd` | components/ChatPanel.tsx:166-175 | removing a freshly added path restores the set, order included |
| `Chat.RemoveKeepsOthersInOrder` | components/ChatPanel.tsx:166-171 | removing keeps the other files in their order |
| `Chat.FollowSelection` | components/ChatPanel.tsx:38-46 | the viewed file joins the context, as `AddContext` adds it, exactly when its path is a non-empty string; a file already present, or no file, leaves the set unchanged; the members afterwards are the old ones and the viewed file |
| `Chat.FollowSelectionIdempotent` | components/ChatPanel.tsx:38-46 | following the same selection twice is the same as once |
| `Chat.Send` | components/ChatPanel.tsx:121-130 | blank input, a pending answer or no session leave everything unchanged; otherwise exactly the untrimmed question and an empty answer are appended, the input cleared, loading set |
| `Chat.SendWhileLoading` | components/ChatPanel.tsx:123 | a second send while loading does nothing |
| `Chat.ReplaceLast` | components/ChatPanel.tsx:138-141 | only the last message changes |
| `Chat.Concat` | components/ChatPanel.tsx:135-137 | the accumulated answer of no chunks is "" and of one chunk is that chunk |
| `Chat.ConcatAppend` | components/ChatPanel.tsx:135-137 | accumulation respects arrival order: the answer of two runs of chunks is the first run's answer followed by the second's |
| `Chat.AfterChunks` | components/ChatPanel.tsx:136-143 | after the chunks, only the last message differs, and it is the model's concatenated answer |
| `Chat.StreamAnswer` | components/ChatPanel.tsx:132-143 | the streaming loop accumulates all chunks and leaves every earlier message alone |
| `Chat.ErrorText` | components/ChatPanel.tsx:147 | the failure text starts with "Sorry, I encountered an error. " |
| `Chat.Fail` | components/ChatPanel.tsx:145-152 | on failure only the last message changes, to a model message with that prefix |
| `Chat.ExchangeAppendsQuestionAndAnswer` | components/ChatPanel.tsx:125-143 | when nothing else updates the message list meanwhile, a completed exchange appends exactly the question and the whole answer |
| `Chat.FailedExchange` | components/ChatPanel.tsx:145-152 | when nothing else updates the message list meanwhile, a failed exchange appends exactly the question and the failure text, whatever arrived first |
| `Chat.Finish` | components/ChatPanel.tsx:153-155 | loading ends and nothing else changes |
| `Chat.FinishReenablesSend` | components/ChatPanel.tsx:121-155 | when nothing else updates the message list or the loading flag meanwhile: while an answer streams a new question cannot be sent; once finished it can, and the exchange that follows keeps the earlier question and the whole answer in front of it |
| `Chat.FileBlock` | components/ChatPanel.tsx:84-87 | a loaded file is its START marker, its content unchanged, and its END marker, each naming the file, and the content reads back from between the markers; a failed one is a could-not-load line |
| `Chat.Blocks` | components/ChatPanel.tsx:84-89 | one block per context file, in the set's order |
| `Chat.ContextTextAppend` | components/ChatPanel.tsx:89-90 | the context text is the blocks joined by a blank line: one more file appends "\n\n" and its block |

## Left out

- Network I/O is not modelled: fetching the repository tree and file contents, including base64 decoding. The contents a fetch returns are a parameter.
- The language-model client is not modelled: the explanation and summary services, and chat session creation with its start-up messages. These are calls into a foreign API. Whether a session exists is a flag, and a streamed answer is its list of chunk texts.
- Updates that interleave with a streaming answer are not modelled. Changing the context set mid-answer, by opening another file or adding one, re-runs session creation (components/ChatPanel.tsx:51-114). That run empties the message list, posts its start-up message and toggles the loading flag. Later chunks then overwrite that message, and the answer's `finally` can clear the loading flag during set-up. `Chat.ExchangeAppendsQuestionAndAnswer`, `Chat.FailedExchange` and `Chat.FinishReenablesSend` compose one exchange's steps on their own, so they describe an exchange that runs to the end with no such interleaving.
- Markdown rendering, HTML sanitising and syntax highlighting are opaque libraries. Only the `<`/`>` fallback escape is modelled.
- DOM wiring is not modelled: event listeners, focus, timers, caret-from-point, scrolling, pixel arithmetic with `parseFloat`, and the popup's click-outside handling.
- Browser storage exceptions caught by `try`/`catch` are not modelled. Storage is a total map.
- `JSON.parse` returning an array of non-strings is not modelled: parsed arrays are arrays of strings.
- `localeCompare` is not modelled. Both sorts take any total preorder on names.
- Unicode case mapping is not modelled. Case mapping is ASCII only, which preserves length.
- WHATWG URL percent-encoding, backslashes, queries and fragments are not modelled, neither in the import path nor in the importing file's directory, which becomes the base URL. A '#', a '?', a '%' or a backslash there, or a Windows drive-letter segment such as "C:", is treated as an ordinary path character. Only the path merge and dot-segment removal are.
- JavaScript strings are sequences of UTF-16 code units; the model's strings are sequences of characters. For paths, queries and file contents with characters outside the Basic Multilingual Plane, `length`, indices and offsets differ: the fuzzy score's length term, the match indices, the selection gate's under-100 limit, the clicked offset and every `indexOf` position. For text within the Basic Multilingual Plane the two agree.
- The go-to-definition regular-expression search over all files is not modelled. It builds a pattern from an unescaped token and is best-effort.
- The search-history dropdown and the summary popup are not modelled. They only render.
- The explanation popup's loading, error and content sections are not modelled. They only render.
- FileTreeView.SortForest: `children.sort` in the source sorts the node arrays in place at render time. The model sorts a copy once. Sorting is stable and deterministic, so the shown order is the same.
- ExplanationPopup.FormatExample: its own contract says only that the code is some trimmed slice. Which slice is stated by `ExplanationPopup.FindBlock`, whose result it shows.
- GitHub.BuildFileTree: its contract states well-formedness of the returned roots. Node creation per prefix is stated separately, of `GitHub.Built`, by `GitHub.BuildCreatesOneNodePerPrefix`.
- HistoryNavigator.Render: its contract lists the rows. What they show and which one is highlighted is stated by `HistoryNavigator.RowShowsPath` and `HistoryNavigator.ExactlyOneHighlighted`.

## Findings

| source | as written | input that shows it | evidently intended | confidence | as-written member | corrected member |
|---|---|---|---|---|---|---|
| services/pathService.ts:20-24 | for a file at the repository root the directory is "", so the base URL is `file:////`. Its path "//" keeps an empty segment, and the resolved path starts with '/'. It never names a repository file | importPath "./utils", currentFilePath "App.tsx", files containing "utils.ts" | the sibling "utils.ts" is found, as for files in any folder | not executed | PathResolution.ResolveImportPathAsWritten | PathResolution.ResolveImportPath |
| components/EditorDisplay.tsx:18-41 | `langMap[extension]` reads through the object's prototype. The lower-cased extensions "constructor" and "__proto__" find inherited members (a function, an object), not a string | path "a.constructor" | an extension that is not a listed alias is returned unchanged: "constructor" | not executed | Editor.LanguageFromPathAsWritten | Editor.LanguageFromPath |

=== FILE: chat.dfy ===
/** The chat panel's own bookkeeping: the set of context files, the message list as
    a question is sent and its answer streams in or fails, and the context text
    built from the files for the model's instructions.

    The chat session itself, and the fetching of file contents, are foreign calls:
    whether a session exists is a flag, what a fetch returns is a parameter, and the
    streamed answer is the list of its chunks' texts. */
module Chat {
  import opened Common
  import opened Types

  // ---------------------------------------------------------------------------
  // Context files
  // ---------------------------------------------------------------------------

  /** A JavaScript `Set<string>`: its elements in insertion order, each once. */
  type ContextFiles = seq<string>

  /** `new Set(prev).add(path)`: an element already present stays where it is; a new
      one goes last. */
  function AddContext(ctx: ContextFiles, path: string): (r: ContextFiles)
    ensures forall p :: p in r <==> p in ctx || p == path
    ensures path in ctx ==> r == ctx
    ensures |ctx| <= |r| && r[..|ctx|] == ctx
    ensures NoDuplicates(ctx) ==> NoDuplicates(r)
  {
    if path in ctx then ctx else ctx + [path]
  }

  /** `removeContextFile`: `newSet.delete(path)`. */
  function RemoveContext(ctx: ContextFiles, path: string): (r: ContextFiles)
    ensures forall p :: p in r <==> p in ctx && p != path
    ensures NoDuplicates(ctx) ==> NoDuplicates(r)
  {
    RemoveAllNoDuplicates(ctx, path);
    RemoveAll(ctx, path)
  }

  /** Removing a file that was just added restores the set exactly, order included. */
  lemma {:induction false} RemoveUndoesAdd(ctx: ContextFiles, path: string)
    requires path !in ctx
    ensures RemoveContext(AddContext(ctx, path), path) == ctx
  {
    RemoveAllAppend(ctx, [path], path);
    RemoveAllAbsent(ctx, path);
    assert RemoveAll([path], path) == [];
  }

  /** Removing keeps the other files in their order. */
  lemma {:induction false} RemoveKeepsOthersInOrder(a: ContextFiles, path: string, b: ContextFiles)
    requires NoDuplicates(a + [path] + b)
    ensures RemoveContext(a + [path] + b, path) == a + b
  {
    OnlyOnce(a, path, b);
    var ap := a + [path];
    RemoveAllAppend(ap, b, path);
    RemoveAllAppend(a, [path], path);
    RemoveAllAbsent(a, path);
    RemoveAllAbsent(b, path);
    assert RemoveAll([path], path) == [];
    assert RemoveAll(ap, path) == a;
    assert RemoveAll(ap + b, path) == a + b;
  }

  lemma OnlyOnce(a: ContextFiles, path: string, b: ContextFiles)
    requires NoDuplicates(a + [path] + b)
    ensures path !in a && path !in b
  {
    var ctx := a + [path] + b;
    assert ctx[|a|] == path;
    forall k | 0 <= k < |a| ensures a[k] != path {
      assert ctx[k] == a[k];
    }
    forall k | 0 <= k < |b| ensures b[k] != path {
      assert ctx[|a| + 1 + k] == b[k];
    }
  }

  /** The effect that follows the viewed file: a selected path is added, but only
      when it is a non-empty string (JavaScript truthiness). */
  function FollowSelection(ctx: ContextFiles, selected: Option<string>): (r: ContextFiles)
    ensures selected.Some? && selected.value != "" ==> r == AddContext(ctx, selected.value)
    ensures selected.Some? && selected.value != "" ==> selected.value in r
    ensures selected.None? || selected.value == "" ==> r == ctx
    ensures selected.Some? && selected.value in ctx ==> r == ctx
    ensures forall p :: p in r <==> p in ctx || (selected.Some? && selected.value != "" && p == selected.value)
  {
    if selected.Some? && selected.value != "" then AddContext(ctx, selected.value) else ctx
  }

  /** Following the same selection again changes nothing. */
  lemma FollowSelectionIdempotent(ctx: ContextFiles, selected: Option<string>)
    ensures FollowSelection(FollowSelection(ctx, selected), selected) == FollowSelection(ctx, selected)
  {
  }

  // ---------------------------------------------------------------------------
  // Sending a question
  // ---------------------------------------------------------------------------

  /** The parts of the panel's state that sending touches. */
  datatype ChatState = ChatState(messages: seq<Message>, input: string, isLoading: bool, hasSession: bool)

  /** `handleSend`'s guard: nothing happens for a blank input, while an answer is
      loading, or without a session. */
  predicate CanSend(st: ChatState) {
    Trim(st.input) != "" && !st.isLoading && st.hasSession
  }

  /** `handleSend` up to the request: the question (as typed, untrimmed) and an empty
      answer placeholder are appended, the input is cleared, loading starts. */
  function Send(st: ChatState): (r: ChatState)
    ensures !CanSend(st) ==> r == st
    ensures CanSend(st) ==>
      r.messages == st.messages + [Message(User, st.input), Message(Model, "")]
      && r.input == "" && r.isLoading && r.hasSession
  {
    if !CanSend(st) then st
    else st.(messages := st.messages + [Message(User, st.input), Message(Model, "")], input := "", isLoading := true)
  }

  /** A second send while the first answer is loading does nothing. */
  lemma SendWhileLoading(st: ChatState)
    requires CanSend(st)
    ensures Send(Send(st).(input := st.input)) == Send(st).(input := st.input)
  {
  }

  /** `newMessages[newMessages.length - 1] = m`. On an empty list JavaScript would
      set a property named "-1", which no rendering reads; the list is unchanged. */
  function ReplaceLast(msgs: seq<Message>, m: Message): (r: seq<Message>)
    ensures |r| == |msgs|
    ensures |msgs| > 0 ==> r[..|r| - 1] == msgs[..|msgs| - 1] && r[|r| - 1] == m
    ensures |msgs| == 0 ==> r == msgs
  {
    if |msgs| == 0 then msgs else msgs[..|msgs| - 1] + [m]
  }

  /** `fullText += chunk.text` over the chunks received so far. */
  function Concat(chunks: seq<string>): (s: string)
    ensures |chunks| == 0 ==> s == ""
    ensures |chunks| == 1 ==> s == chunks[0]
  {
    if |chunks| == 0 then "" else Concat(chunks[..|chunks| - 1]) + chunks[|chunks| - 1]
  }

  /** The answer accumulates chunk by chunk: two runs of chunks give the text of the
      first followed by the text of the second. */
  lemma {:induction false} ConcatAppend(a: seq<string>, b: seq<string>)
    ensures Concat(a + b) == Concat(a) + Concat(b)
    decreases |b|
  {
    if |b| == 0 {
      assert a + b == a;
    } else {
      var b' := b[..|b| - 1];
      assert (a + b)[..|a + b| - 1] == a + b';
      ConcatAppend(a, b');
      assert Concat(a + b) == Concat(a + b') + b[|b| - 1];
    }
  }

  /** The message list after each streamed chunk has been applied in turn: each
      chunk replaces the last message with the answer so far. */
  function AfterChunks(msgs: seq<Message>, chunks: seq<string>): (r: seq<Message>)
    ensures |r| == |msgs|
    ensures |msgs| > 0 ==> r[..|r| - 1] == msgs[..|msgs| - 1]
    ensures |msgs| > 0 && |chunks| > 0 ==> r[|r| - 1] == Message(Model, Concat(chunks))
    ensures |chunks| == 0 ==> r == msgs
  {
    if |chunks| == 0 then msgs
    else ReplaceLast(AfterChunks(msgs, chunks[..|chunks| - 1]), Message(Model, Concat(chunks)))
  }

  /** The streaming loop of `handleSend`, one chunk at a time. */
  method StreamAnswer(msgs: seq<Message>, chunks: seq<string>) returns (out: seq<Message>, fullText: string)
    ensures fullText == Concat(chunks)
    ensures out == AfterChunks(msgs, chunks)
    ensures |out| == |msgs|
    ensures |msgs| > 0 ==> out[..|out| - 1] == msgs[..|msgs| - 1]
  {
    out, fullText := msgs, "";
    var n := 0;
    while n < |chunks|
      invariant 0 <= n <= |chunks|
      invariant fullText == Concat(chunks[..n])
      invariant out == AfterChunks(msgs, chunks[..n])
    {
      fullText := fullText + chunks[n];
      assert chunks[..n + 1][..n] == chunks[..n];
      out := ReplaceLast(out, Message(Model, fullText));
      n := n + 1;
    }
    assert chunks[..n] == chunks;
  }

  /** The prefix of the text shown when the request fails. */
  const ErrorPrefix := "Sorry, I encountered an error. "

  /** The failure text: the error's message, or a generic request to retry. */
  function ErrorText(errorMessage: Option<string>): (t: string)
    ensures |ErrorPrefix| <= |t| && t[..|ErrorPrefix|] == ErrorPrefix
  {
    ErrorPrefix + (if errorMessage.Some? then errorMessage.value else "Please try again.")
  }

  /** The `catch` branch: only the last message changes, to the failure text. */
  function Fail(msgs: seq<Message>, errorMessage: Option<string>): (r: seq<Message>)
    ensures |r| == |msgs|
    ensures |msgs| > 0 ==> r[..|r| - 1] == msgs[..|msgs| - 1] && r[|r| - 1].role == Model
    ensures |msgs| > 0 ==> StartsWith(r[|r| - 1].text, ErrorPrefix)
  {
    ReplaceLast(msgs, Message(Model, ErrorText(errorMessage)))
  }

  /** A completed exchange leaves the earlier messages, the question, and the whole
      answer, and nothing else. */
  lemma {:induction false} ExchangeAppendsQuestionAndAnswer(st: ChatState, chunks: seq<string>)
    requires CanSend(st)
    ensures AfterChunks(Send(st).messages, chunks)
      == st.messages + [Message(User, st.input), Message(Model, Concat(chunks))]
  {
    var sent := Send(st).messages;
    var r := AfterChunks(sent, chunks);
    assert sent[..|sent| - 1] == st.messages + [Message(User, st.input)];
    if |chunks| == 0 {
      assert Concat(chunks) == "";
    } else {
      assert r == r[..|r| - 1] + [r[|r| - 1]];
    }
  }

  /** A failed exchange, however many chunks arrived first, ends with the question
      and the failure text. */
  lemma {:induction false} FailedExchange(st: ChatState, chunks: seq<string>, errorMessage: Option<string>)
    requires CanSend(st)
    ensures Fail(AfterChunks(Send(st).messages, chunks), errorMessage)
      == st.messages + [Message(User, st.input), Message(Model, ErrorText(errorMessage))]
  {
    var sent := Send(st).messages;
    var mid := AfterChunks(sent, chunks);
    var r := Fail(mid, errorMessage);
    assert mid[..|mid| - 1] == st.messages + [Message(User, st.input)];
    assert r == r[..|r| - 1] + [r[|r| - 1]];
  }

  /** The `finally` branch. */
  function Finish(st: ChatState): (r: ChatState)
    ensures !r.isLoading && r.messages == st.messages && r.input == st.input && r.hasSession == st.hasSession
  {
    st.(isLoading := false)
  }

  /** While an answer streams, a new question typed into the box cannot be sent; once
      the exchange finishes it can, and the finished exchange is kept. */
  lemma FinishReenablesSend(st: ChatState, chunks: seq<string>, next: string)
    requires CanSend(st) && Trim(next) != ""
    ensures var sent := Send(st);
      var during := sent.(messages := AfterChunks(sent.messages, chunks), input := next);
      !CanSend(during) && CanSend(Finish(during))
      && Send(Finish(during)).messages[..|st.messages| + 2]
         == st.messages + [Message(User, st.input), Message(Model, Concat(chunks))]
  {
    ExchangeAppendsQuestionAndAnswer(st, chunks);
  }

  // ---------------------------------------------------------------------------
  // Context text
  // ---------------------------------------------------------------------------

  /** The line that opens a loaded file's block, newline included. */
  function StartMarker(path: string): string {
    "--- START OF FILE: " + path + " ---\n"
  }

  /** The line that closes a loaded file's block, preceded by its newline. */
  function EndMarker(path: string): string {
    "\n--- END OF FILE: " + path + " ---"
  }

  /** One file's part of the context: its content between START and END markers, or
      a could-not-load line when the fetch failed. The content reads back unchanged
      from between the two markers. */
  function FileBlock(path: string, content: Option<string>): (b: string)
    ensures content.Some? ==>
      StartsWith(b, StartMarker(path)) && EndsWith(b, EndMarker(path))
    ensures content.Some? ==>
      var h := StartMarker(path);
      |b| == |h| + |content.value| + |EndMarker(path)| && b[|h|..|h| + |content.value|] == content.value
    ensures content.None? ==> b == "--- Could not load file: " + path + " ---"
  {
    match content
    case Some(c) =>
      var h, f := StartMarker(path), EndMarker(path);
      var b := h + c + f;
      assert b[..|h|] == h;
      assert b[|h|..|h| + |c|] == c;
      assert b[|b| - |f|..] == f;
      b
    case None => "--- Could not load file: " + path + " ---"
  }

  /** The blocks of the context files, in the set's order. */
  function Blocks(files: ContextFiles, fetch: string -> Option<string>): (r: seq<string>)
    ensures |r| == |files|
    ensures forall k :: 0 <= k < |files| ==> r[k] == FileBlock(files[k], fetch(files[k]))
  {
    seq(|files|, k requires 0 <= k < |files| => FileBlock(files[k], fetch(files[k])))
  }

  /** `contents.join('\n\n')`. */
  function ContextText(files: ContextFiles, fetch: string -> Option<string>): string {
    Join(Blocks(files, fetch), "\n\n")
  }

  /** The context text grows block by block: one file gives exactly its block, and
      each further file appends a blank line and its block. */
  lemma {:induction false} ContextTextAppend(files: ContextFiles, f: string, fetch: string -> Option<string>)
    ensures |files| == 0 ==> ContextText(files + [f], fetch) == FileBlock(f, fetch(f))
    ensures |files| > 0 ==>
      ContextText(files + [f], fetch) == ContextText(files, fetch) + "\n\n" + FileBlock(f, fetch(f))
  {
    var bs := Blocks(files, fetch);
    assert Blocks(files + [f], fetch) == bs + [FileBlock(f, fetch(f))];
    JoinAppend(bs, FileBlock(f, fetch(f)), "\n\n");
  }

  /** Joining with one more part appends the separator and the part. */
  lemma {:induction false} JoinAppend(parts: seq<string>, x: string, sep: string)
    ensures |parts| == 0 ==> Join(parts + [x], sep) == x
    ensures |parts| > 0 ==> Join(parts + [x], sep) == Join(parts, sep) + sep + x
    decreases |parts|
  {
    if |parts| == 1 {
      assert (parts + [x])[1..] == [x];
    } else if |parts| > 1 {
      JoinAppend(parts[1..], x, sep);
      assert (parts + [x])[1..] == parts[1..] + [x];
    }
  }
}

=== FILE: common.dfy ===
/** Small string and sequence vocabulary shared by every module of the model.

    Characters are Dafny `char`s; case mapping is the ASCII part of
    JavaScript's `toLowerCase`/`toUpperCase`, which keeps lengths equal. */
module Common {

  /** A value that may be missing: JavaScript's `T | null` and `T | undefined`. */
  datatype Option<+T> = None | Some(value: T)

  // ---------------------------------------------------------------------------
  // Case mapping (ASCII)
  // ---------------------------------------------------------------------------

  function Lower(c: char): char {
    if 'A' <= c <= 'Z' then (c as int + 32) as char else c
  }

  function Upper(c: char): char {
    if 'a' <= c <= 'z' then (c as int - 32) as char else c
  }

  function LowerStr(s: string): (r: string)
    ensures |r| == |s|
    ensures forall i :: 0 <= i < |s| ==> r[i] == Lower(s[i])
  {
    seq(|s|, i requires 0 <= i < |s| => Lower(s[i]))
  }

  /** Text without upper-case letters is its own lower case. */
  lemma LowerStrNoUpper(s: string)
    requires forall i :: 0 <= i < |s| ==> !('A' <= s[i] <= 'Z')
    ensures LowerStr(s) == s
  {
  }

  /** Lower-casing twice is lower-casing once. */
  lemma LowerStrIdempotent(s: string)
    ensures LowerStr(LowerStr(s)) == LowerStr(s)
  {
  }

  // ---------------------------------------------------------------------------
  // Searching for a character
  // ---------------------------------------------------------------------------

  /** `s.indexOf(c)`: the first position of `c`, or -1. */
  function IndexOf(s: string, c: char): (r: int)
    ensures -1 <= r < |s|
    ensures r >= 0 ==> s[r] == c
    ensures forall j :: 0 <= j < |s| && (r < 0 || j < r) ==> s[j] != c
  {
    if |s| == 0 then -1
    else if s[0] == c then 0
    else var k := IndexOf(s[1..], c); if k < 0 then -1 else k + 1
  }

  /** `s.lastIndexOf(c)`: the last position of `c`, or -1. */
  function LastIndexOf(s: string, c: char): (r: int)
    ensures -1 <= r < |s|
    ensures r >= 0 ==> s[r] == c
    ensures forall j :: r < j < |s| ==> s[j] != c
  {
    if |s| == 0 then -1
    else if s[|s| - 1] == c then |s| - 1
    else LastIndexOf(s[..|s| - 1], c)
  }

  /** Number of occurrences of `x` in `s`. */
  function Count<T(==)>(s: seq<T>, x: T): nat
  {
    if |s| == 0 then 0 else (if s[0] == x then 1 else 0) + Count(s[1..], x)
  }

  lemma {:induction false} CountAppend<T>(a: seq<T>, b: seq<T>, x: T)
    ensures Count(a + b, x) == Count(a, x) + Count(b, x)
  {
    if |a| == 0 {
      assert a + b == b;
    } else {
      assert (a + b)[1..] == a[1..] + b;
      CountAppend(a[1..], b, x);
    }
  }

  lemma {:induction false} CountAbsent<T>(s: seq<T>, x: T)
    requires x !in s
    ensures Count(s, x) == 0
  {
    if |s| > 0 {
      CountAbsent(s[1..], x);
    }
  }

  function StartsWith(s: string, prefix: string): bool {
    |prefix| <= |s| && s[..|prefix|] == prefix
  }

  function EndsWith(s: string, suffix: string): bool {
    |suffix| <= |s| && s[|s| - |suffix|..] == suffix
  }

  /** `t` occurs in `s` starting at position `i`. */
  predicate OccursAt(s: string, t: string, i: int)
  {
    0 <= i && i + |t| <= |s| && s[i..i + |t|] == t
  }

  /** `s.includes(t)`: `t` occurs somewhere in `s`. */
  function Contains(s: string, t: string): (r: bool)
    ensures r <==> exists i :: OccursAt(s, t, i)
    decreases |s|
  {
    if StartsWith(s, t) then
      assert OccursAt(s, t, 0);
      true
    else if |s| == 0 then
      assert forall i :: OccursAt(s, t, i) ==> i == 0;
      false
    else
      var r := Contains(s[1..], t);
      assert forall i :: OccursAt(s[1..], t, i) <==> OccursAt(s, t, i + 1);
      assert forall i :: OccursAt(s, t, i) ==> i == 0 || OccursAt(s[1..], t, i - 1);
      r
  }

  // ---------------------------------------------------------------------------
  // split / join on a one-character separator
  // ---------------------------------------------------------------------------

  /** `s.split(sep)` for a one-character separator: never empty. Each character either
      ends the current piece (a separator) or extends it. */
  function Split(s: string, sep: char): (parts: seq<string>)
    ensures |parts| >= 1
    decreases |s|
  {
    if |s| == 0 then [""]
    else
      var rest := Split(s[1..], sep);
      if s[0] == sep then [""] + rest
      else [[s[0]] + rest[0]] + rest[1..]
  }

  /** `parts.join(sep)`. */
  function Join(parts: seq<string>, sep: string): string
  {
    if |parts| == 0 then ""
    else if |parts| == 1 then parts[0]
    else parts[0] + sep + Join(parts[1..], sep)
  }

  /** Joining a list that starts with `x`. */
  lemma JoinCons(x: string, t: seq<string>, sep: string)
    ensures Join([x] + t, sep) == if |t| == 0 then x else x + sep + Join(t, sep)
  {
    if |t| > 0 {
      assert ([x] + t)[1..] == t;
    }
  }

  /** Joining the pieces of a split with the same separator gives the string back. */
  lemma {:induction false} JoinSplit(s: string, sep: char)
    ensures Join(Split(s, sep), [sep]) == s
    decreases |s|
  {
    if |s| > 0 {
      var t := s[1..];
      var rest := Split(t, sep);
      JoinSplit(t, sep);
      assert s == [s[0]] + t;
      if s[0] == sep {
        assert Join(Split(s, sep), [sep]) == [sep] + t by {
          assert Split(s, sep) == [""] + rest;
          JoinCons("", rest, [sep]);
        }
      } else {
        var first, tail := rest[0], rest[1..];
        assert Join(Split(s, sep), [sep]) == [s[0]] + t by {
          assert rest == [first] + tail;
          assert Split(s, sep) == [[s[0]] + first] + tail;
          JoinCons(first, tail, [sep]);
          JoinCons([s[0]] + first, tail, [sep]);
          if |tail| > 0 {
            var j := Join(tail, [sep]);
            assert [s[0]] + first + [sep] + j == [s[0]] + (first + [sep] + j);
          }
        }
      }
    }
  }

  /** No piece of a split contains the separator. */
  lemma {:induction false} SplitPiecesFree(s: string, sep: char)
    ensures forall k :: 0 <= k < |Split(s, sep)| ==> sep !in Split(s, sep)[k]
    decreases |s|
  {
    if |s| > 0 {
      SplitPiecesFree(s[1..], sep);
      var rest := Split(s[1..], sep);
      if s[0] != sep {
        assert sep !in [s[0]] + rest[0];
      }
    }
  }

  /** A split of text starting with a separator starts with an empty piece. */
  lemma SplitAtSeparator(s: string, sep: char)
    requires |s| > 0 && s[0] == sep
    ensures Split(s, sep) == [""] + Split(s[1..], sep)
  {
  }

  /** A split of text starting with another character extends the first piece. */
  lemma SplitAtOther(s: string, sep: char)
    requires |s| > 0 && s[0] != sep
    ensures var rest := Split(s[1..], sep);
      Split(s, sep) == [[s[0]] + rest[0]] + rest[1..]
  {
  }

  /** A string without the separator splits into itself. */
  lemma {:induction false} SplitNoSeparator(s: string, sep: char)
    requires sep !in s
    ensures Split(s, sep) == [s]
    decreases |s|
  {
    if |s| > 0 {
      assert sep !in s[1..];
      SplitNoSeparator(s[1..], sep);
      assert s == [s[0]] + s[1..];
    }
  }

  /** Splitting peels off a separator-free first piece. */
  lemma {:induction false} SplitFirst(a: string, b: string, sep: char)
    requires sep !in a
    ensures Split(a + [sep] + b, sep) == [a] + Split(b, sep)
    decreases |a|
  {
    var s := a + [sep] + b;
    if |a| == 0 {
      assert s == [sep] + b;
      SplitAtSeparator(s, sep);
      assert s[1..] == b;
    } else {
      assert s[1..] == a[1..] + [sep] + b;
      assert sep !in a[1..];
      SplitFirst(a[1..], b, sep);
      SplitAtOther(s, sep);
      assert [a[0]] + a[1..] == a;
    }
  }

  /** Splitting a join of separator-free pieces gives the pieces back. */
  lemma {:induction false} SplitOfJoin(parts: seq<string>, sep: char)
    requires |parts| >= 1
    requires forall k :: 0 <= k < |parts| ==> sep !in parts[k]
    ensures Split(Join(parts, [sep]), sep) == parts
    decreases |parts|
  {
    var p := parts[0];
    if |parts| == 1 {
      SplitNoSeparator(p, sep);
    } else {
      var tail := parts[1..];
      SplitOfJoin(tail, sep);
      assert parts == [p] + tail;
      JoinCons(p, tail, [sep]);
      SplitFirst(p, Join(tail, [sep]), sep);
    }
  }

  /** A split has one more piece than the string has separators. */
  lemma {:induction false} SplitLength(s: string, sep: char)
    ensures |Split(s, sep)| == Count(s, sep) + 1
    decreases |s|
  {
    if |s| > 0 {
      SplitLength(s[1..], sep);
    }
  }

  /** Any position satisfying `lastIndexOf`'s description is `lastIndexOf`. */
  lemma LastIndexOfUnique(s: string, c: char, r: int)
    requires -1 <= r < |s|
    requires r >= 0 ==> s[r] == c
    requires forall j :: r < j < |s| ==> s[j] != c
    ensures r == LastIndexOf(s, c)
  {
  }

  /** A join of two or more pieces ends with the separator and the last piece. */
  lemma {:induction false} JoinLast(parts: seq<string>, sep: string)
    requires |parts| >= 2
    ensures Join(parts, sep) == Join(parts[..|parts| - 1], sep) + sep + parts[|parts| - 1]
    decreases |parts|
  {
    var n := |parts|;
    if n > 2 {
      var tail := parts[1..];
      JoinLast(tail, sep);
      assert tail[..n - 2] == parts[..n - 1][1..];
      assert tail[n - 2] == parts[n - 1];
    }
  }

  /** The last piece of a split is the text after the last separator. */
  lemma {:induction false} SplitLastPiece(s: string, sep: char)
    ensures Split(s, sep)[|Split(s, sep)| - 1] == s[LastIndexOf(s, sep) + 1..]
  {
    var parts := Split(s, sep);
    var n := |parts|;
    var p := parts[n - 1];
    JoinSplit(s, sep);
    SplitPiecesFree(s, sep);
    assert sep !in p;
    if n == 1 {
      assert s == p;
      LastIndexOfUnique(s, sep, -1);
    } else {
      JoinLast(parts, [sep]);
      var front := Join(parts[..n - 1], [sep]);
      assert s == front + [sep] + p;
      var r := |front|;
      assert s[r] == sep;
      forall j | r < j < |s| ensures s[j] != sep {
        assert s[j] == p[j - r - 1];
      }
      LastIndexOfUnique(s, sep, r);
      assert s[r + 1..] == p;
    }
  }

  // ---------------------------------------------------------------------------
  // Sequences
  // ---------------------------------------------------------------------------

  /** A slice is the concatenation of its two halves. */
  lemma SliceSplit<T>(s: seq<T>, a: nat, b: nat, c: nat)
    requires a <= b <= c <= |s|
    ensures s[a..c] == s[a..b] + s[b..c]
  {
    assert forall k :: 0 <= k < c - a ==> s[a..c][k] == (s[a..b] + s[b..c])[k];
  }

  /** `s.filter(y => y !== x)`. */
  function RemoveAll<T(==)>(s: seq<T>, x: T): (r: seq<T>)
    ensures x !in r
    ensures forall i :: 0 <= i < |r| ==> r[i] in s
    ensures forall i :: 0 <= i < |s| && s[i] != x ==> s[i] in r
    ensures |r| <= |s|
  {
    if |s| == 0 then []
    else (if s[0] == x then [] else [s[0]]) + RemoveAll(s[1..], x)
  }

  /** No element occurs twice. */
  predicate NoDuplicates<T(==)>(s: seq<T>) {
    forall i, j :: 0 <= i < j < |s| ==> s[i] != s[j]
  }

  lemma {:induction false} RemoveAllNoDuplicates<T>(s: seq<T>, x: T)
    ensures NoDuplicates(s) ==> NoDuplicates(RemoveAll(s, x))
  {
    if |s| > 0 && NoDuplicates(s) {
      RemoveAllNoDuplicates(s[1..], x);
      var rest := RemoveAll(s[1..], x);
      assert s[0] !in s[1..];
      assert s[0] !in rest;
    }
  }

  lemma {:induction false} RemoveAllAbsent<T>(s: seq<T>, x: T)
    requires x !in s
    ensures RemoveAll(s, x) == s
  {
    if |s| > 0 {
      RemoveAllAbsent(s[1..], x);
    }
  }

  /** Removing from a concatenation removes from each part. */
  lemma {:induction false} RemoveAllAppend<T>(a: seq<T>, b: seq<T>, x: T)
    ensures RemoveAll(a + b, x) == RemoveAll(a, x) + RemoveAll(b, x)
  {
    if |a| > 0 {
      var head: seq<T> := if a[0] == x then [] else [a[0]];
      var ra, rb := RemoveAll(a[1..], x), RemoveAll(b, x);
      assert (a + b)[0] == a[0];
      assert (a + b)[1..] == a[1..] + b;
      assert RemoveAll(a, x) == head + ra;
      assert RemoveAll(a + b, x) == head + RemoveAll(a[1..] + b, x);
      RemoveAllAppend(a[1..], b, x);
      assert head + (ra + rb) == (head + ra) + rb;
    } else {
      assert a + b == b;
    }
  }

  /** `[...s].reverse()`. */
  function Reverse<T>(s: seq<T>): (r: seq<T>)
    ensures |r| == |s|
  {
    if |s| == 0 then [] else Reverse(s[1..]) + [s[0]]
  }

  lemma {:induction false} ReverseIndex<T>(s: seq<T>)
    ensures forall k :: 0 <= k < |s| ==> Reverse(s)[k] == s[|s| - 1 - k]
  {
    if |s| > 0 {
      ReverseIndex(s[1..]);
    }
  }

  /** `Math.min(a, b)`. */
  function Min(a: int, b: int): int { if a <= b then a else b }

  /** `Math.max(a, b)`. */
  function Max(a: int, b: int): int { if a >= b then a else b }

  // ---------------------------------------------------------------------------
  // trim
  // ---------------------------------------------------------------------------

  /** The characters `String.prototype.trim` removes: ECMAScript WhiteSpace and LineTerminator. */
  predicate IsWhitespace(c: char)
  {
    var k := c as int;
    k == 0x09 || k == 0x0A || k == 0x0B || k == 0x0C || k == 0x0D || k == 0x20
    || k == 0xA0 || k == 0x1680 || (0x2000 <= k <= 0x200A) || k == 0x2028 || k == 0x2029
    || k == 0x202F || k == 0x205F || k == 0x3000 || k == 0xFEFF
  }

  /** Number of leading whitespace characters. */
  function LeadingSpace(s: string): (n: nat)
    ensures n <= |s|
    ensures forall i :: 0 <= i < n ==> IsWhitespace(s[i])
    ensures n < |s| ==> !IsWhitespace(s[n])
  {
    if |s| == 0 || !IsWhitespace(s[0]) then 0 else 1 + LeadingSpace(s[1..])
  }

  /** Position just after the last non-whitespace character, 0 when there is none. */
  function ContentEnd(s: string): (n: nat)
    ensures n <= |s|
    ensures forall i :: n <= i < |s| ==> IsWhitespace(s[i])
    ensures n > 0 ==> !IsWhitespace(s[n - 1])
  {
    if |s| == 0 || !IsWhitespace(s[|s| - 1]) then |s| else ContentEnd(s[..|s| - 1])
  }

  /** `s.trim()`. */
  function Trim(s: string): (r: string)
    ensures |r| == 0 <==> forall i :: 0 <= i < |s| ==> IsWhitespace(s[i])
    ensures |r| > 0 ==> !IsWhitespace(r[0]) && !IsWhitespace(r[|r| - 1])
    ensures LeadingSpace(s) + |r| <= |s| && r == s[LeadingSpace(s)..LeadingSpace(s) + |r|]
    ensures forall i :: LeadingSpace(s) + |r| <= i < |s| ==> IsWhitespace(s[i])
  {
    var a := LeadingSpace(s);
    var b := ContentEnd(s);
    if b <= a then "" else s[a..b]
  }

  /** Trimming leaves a string that starts and ends with non-whitespace unchanged. */
  lemma TrimUnchanged(s: string)
    requires |s| == 0 || (!IsWhitespace(s[0]) && !IsWhitespace(s[|s| - 1]))
    ensures Trim(s) == s
  {
    if |s| > 0 {
      assert LeadingSpace(s) == 0;
      var r := Trim(s);
      assert |r| > 0 by { assert !IsWhitespace(s[0]); }
    }
  }

  /** The regular-expression class `\w`: an ASCII letter, digit or underscore. */
  predicate IsWordChar(c: char) {
    ('A' <= c <= 'Z') || ('a' <= c <= 'z') || ('0' <= c <= '9') || c == '_'
  }

  // ---------------------------------------------------------------------------
  // Splitting a path at its last '/'
  // ---------------------------------------------------------------------------

  /** `path.substring(0, path.lastIndexOf('/'))`: the text before the last '/', or ""
      when there is none (`substring` clamps the -1 to 0). */
  function DirName(path: string): (dir: string)
    ensures '/' !in path ==> dir == ""
    ensures '/' in path ==> |dir| < |path| && path == dir + "/" + path[|dir| + 1..] && '/' !in path[|dir| + 1..]
  {
    var i := LastIndexOf(path, '/');
    if i < 0 then
      assert '/' !in path by { assert forall j :: 0 <= j < |path| ==> path[j] != '/'; }
      ""
    else
      assert path == path[..i] + "/" + path[i + 1..];
      path[..i]
  }

  /** Nothing after the last occurrence of `c` is `c`. */
  lemma AfterLastIndexOf(s: string, c: char)
    ensures c !in s[LastIndexOf(s, c) + 1..]
  {
    var i := LastIndexOf(s, c);
    var t := s[i + 1..];
    forall j | 0 <= j < |t| ensures t[j] != c {
      assert t[j] == s[i + 1 + j];
    }
  }

  /** `path.substring(path.lastIndexOf('/') + 1)`: the text after the last '/', or the
      whole path when there is none. */
  function BaseName(path: string): (name: string)
    ensures |name| <= |path| && name == path[|path| - |name|..]
    ensures '/' !in name
    ensures |name| < |path| ==> path[|path| - |name| - 1] == '/'
  {
    AfterLastIndexOf(path, '/');
    path[LastIndexOf(path, '/') + 1..]
  }

  /** The two halves put back together give the path: with a '/', the directory, the
      '/' and the file name; without one, the file name is the whole path. */
  lemma {:induction false} DirNameBaseName(path: string)
    ensures '/' in path ==> DirName(path) + "/" + BaseName(path) == path
    ensures '/' !in path ==> DirName(path) == "" && BaseName(path) == path
  {
    var n := BaseName(path);
    var i := LastIndexOf(path, '/');
    if '/' in path {
      assert i >= 0;
      assert DirName(path) == path[..i];
      assert path == path[..i] + "/" + path[i + 1..];
    } else {
      assert i < 0;
    }
  }
}

=== FILE: editor.dfy ===
/** The pure rules of the code view: choosing a highlighting language from the file
    name, the escaping fallback when no highlighter applies, the line count, the word
    under a Ctrl/Cmd-click, and when a text selection asks for an explanation. */
module Editor {
  import opened Common

  // ---------------------------------------------------------------------------
  // getLanguageFromPath
  // ---------------------------------------------------------------------------

  /** The alias table of `getLanguageFromPath`. */
  const LangMap: map<string, string> := map[
    "js" := "javascript", "jsx" := "javascript", "ts" := "typescript", "tsx" := "typescript",
    "py" := "python", "rb" := "ruby", "java" := "java", "cs" := "csharp", "cpp" := "cpp",
    "c" := "c", "go" := "go", "php" := "php", "html" := "html", "css" := "css",
    "scss" := "scss", "json" := "json", "md" := "markdown", "yml" := "yaml",
    "yaml" := "yaml", "sh" := "bash", "sql" := "sql"]

  /** `path.split('.').pop().toLowerCase()`. */
  function Extension(path: string): string
  {
    var parts := Split(path, '.');
    LowerStr(parts[|parts| - 1])
  }

  /** The extension is the lower-cased text after the last '.', or the whole path when
      it has no '.'. */
  lemma ExtensionAfterLastDot(path: string)
    ensures Extension(path) == LowerStr(path[LastIndexOf(path, '.') + 1..])
    ensures '.' !in path ==> Extension(path) == LowerStr(path)
  {
    SplitLastPiece(path, '.');
    if '.' !in path {
      assert LastIndexOf(path, '.') == -1;
      assert path[0..] == path;
    }
  }

  /** `getLanguageFromPath`: "" without a path, "plaintext" for an empty extension, the
      alias of a listed extension, and any other extension as it is. */
  function LanguageFromPath(path: Option<string>): (lang: string)
    ensures path.None? || path == Some("") ==> lang == ""
    ensures path.Some? && path.value != "" ==>
      var ext := Extension(path.value);
      && (ext == "" ==> lang == "plaintext")
      && (ext in LangMap ==> lang == LangMap[ext])
      && (ext != "" && ext !in LangMap ==> lang == ext)
  {
    match path
    case None => ""
    case Some(p) =>
      if p == "" then ""
      else
        var ext := Extension(p);
        if ext == "" then "plaintext"
        else if ext in LangMap then LangMap[ext]
        else ext
  }

  /** The extension of `base.ext` is the lower-cased `ext`, whatever `base` holds. */
  lemma ExtensionOfDotted(base: string, ext: string)
    requires '.' !in ext
    ensures Extension(base + "." + ext) == LowerStr(ext)
  {
    var p := base + "." + ext;
    assert p[|base|] == '.';
    forall j | |base| < j < |p| ensures p[j] != '.' {
      assert p[j] == ext[j - |base| - 1];
    }
    LastIndexOfUnique(p, '.', |base|);
    assert p[|base| + 1..] == ext;
    ExtensionAfterLastDot(p);
  }

  /** A listed extension, in any letter case, selects its alias. */
  lemma LanguageOfListedExtension(base: string, ext: string)
    requires '.' !in ext && LowerStr(ext) in LangMap
    ensures LanguageFromPath(Some(base + "." + ext)) == LangMap[LowerStr(ext)]
  {
    ExtensionOfDotted(base, ext);
  }

  /** An unlisted extension is its own language name, lower-cased. */
  lemma LanguageOfUnlistedExtension(base: string, ext: string)
    requires '.' !in ext && ext != "" && LowerStr(ext) !in LangMap
    ensures LanguageFromPath(Some(base + "." + ext)) == LowerStr(ext)
  {
    ExtensionOfDotted(base, ext);
  }

  /** A path ending in '.' is plain text. */
  lemma LanguageOfTrailingDot(base: string)
    ensures LanguageFromPath(Some(base + ".")) == "plaintext"
  {
    ExtensionOfDotted(base, "");
    assert base + "." + "" == base + ".";
  }

  /** A path with no '.' is taken whole as its extension. */
  lemma LanguageWithoutDot(path: string)
    requires '.' !in path && path != ""
    ensures LowerStr(path) in LangMap ==> LanguageFromPath(Some(path)) == LangMap[LowerStr(path)]
    ensures LowerStr(path) !in LangMap ==> LanguageFromPath(Some(path)) == LowerStr(path)
  {
    ExtensionAfterLastDot(path);
  }

  /** What indexing the alias object yields: an own entry, or a member every object
      inherits (`constructor`, `__proto__`), which is truthy and is returned as it is. */
  datatype LookupValue = Own(name: string) | Inherited(member: string)

  /** The all-lower-case names an object literal inherits from `Object.prototype`. */
  const InheritedNames: set<string> := {"constructor", "__proto__"}

  /** `getLanguageFromPath` as written: `langMap[extension] || extension` consults the
      prototype chain too. */
  function LanguageFromPathAsWritten(path: Option<string>): (v: LookupValue)
    ensures path.Some? && path.value != "" && Extension(path.value) in InheritedNames ==> v.Inherited?
    ensures v.Own? ==> v.name == LanguageFromPath(path)
  {
    match path
    case None => Own("")
    case Some(p) =>
      if p == "" then Own("")
      else
        var ext := Extension(p);
        if ext == "" then Own("plaintext")
        else if ext in LangMap then Own(LangMap[ext])
        else if ext in InheritedNames then Inherited(ext)
        else Own(ext)
  }

  /** A file named "x.constructor" gets a function, not a language name, as written. */
  lemma InheritedExtension(base: string)
    ensures LanguageFromPathAsWritten(Some(base + ".constructor")) == Inherited("constructor")
    ensures LanguageFromPath(Some(base + ".constructor")) == "constructor"
  {
    assert base + ".constructor" == base + "." + "constructor";
    ExtensionOfDotted(base, "constructor");
    LowerStrNoUpper("constructor");
    assert "constructor" !in LangMap;
    assert "constructor" in InheritedNames;
  }

  /** The language is "" only without a path, and otherwise never empty. */
  lemma LanguageEmptyOnlyWithoutPath(path: Option<string>)
    ensures LanguageFromPath(path) == "" <==> path.None? || path == Some("")
  {
    forall k | k in LangMap ensures LangMap[k] != "" { }
  }

  // ---------------------------------------------------------------------------
  // The escaping fallback
  // ---------------------------------------------------------------------------

  /** `s.replace(/c/g, repl)`. */
  function ReplaceAll(s: string, c: char, repl: string): (r: string)
    ensures c !in s ==> r == s
    ensures |s| == 1 ==> r == (if s[0] == c then repl else s)
    ensures c !in repl ==> c !in r
    ensures forall d :: d !in s && d !in repl ==> d !in r
  {
    if |s| == 0 then ""
    else
      (if s[0] == c then repl else [s[0]]) + ReplaceAll(s[1..], c, repl)
  }

  lemma MulSucc(n: int, k: int)
    ensures (n + 1) * k == n * k + k
  {
  }

  /** Every occurrence of `c` becomes `repl` and every other character stays: the length
      grows by `|repl| - 1` per occurrence. */
  lemma {:induction false} ReplaceAllLength(s: string, c: char, repl: string)
    ensures |ReplaceAll(s, c, repl)| == |s| + Count(s, c) * (|repl| - 1)
  {
    if |s| > 0 {
      ReplaceAllLength(s[1..], c, repl);
      var k := |repl| - 1;
      var n := Count(s[1..], c);
      var rest := ReplaceAll(s[1..], c, repl);
      assert |rest| == |s| - 1 + n * k;
      if s[0] == c {
        assert Count(s, c) == n + 1;
        assert ReplaceAll(s, c, repl) == repl + rest;
        MulSucc(n, k);
      } else {
        assert Count(s, c) == n;
        assert ReplaceAll(s, c, repl) == [s[0]] + rest;
      }
    }
  }

  /** Replacement acts on each part of the text separately; with the one-character case
      this determines the result character by character. */
  lemma {:induction false} ReplaceAllAppend(a: string, b: string, c: char, repl: string)
    ensures ReplaceAll(a + b, c, repl) == ReplaceAll(a, c, repl) + ReplaceAll(b, c, repl)
  {
    if |a| == 0 {
      assert a + b == b;
    } else {
      assert (a + b)[1..] == a[1..] + b;
      ReplaceAllAppend(a[1..], b, c, repl);
    }
  }

  /** The fallback markup: `content.replace(/</g, "&lt;").replace(/>/g, "&gt;")`. */
  function Escape(s: string): (r: string)
    ensures '<' !in r && '>' !in r
  {
    ReplaceAll(ReplaceAll(s, '<', "&lt;"), '>', "&gt;")
  }

  /** The entity for one character. */
  function EscapeChar(c: char): string {
    if c == '<' then "&lt;" else if c == '>' then "&gt;" else [c]
  }

  /** The two passes act as one character-by-character substitution. */
  lemma {:induction false} EscapeIsOnePass(s: string)
    ensures |s| > 0 ==> Escape(s) == EscapeChar(s[0]) + Escape(s[1..])
  {
    if |s| > 0 {
      var first := if s[0] == '<' then "&lt;" else [s[0]];
      assert ReplaceAll(s, '<', "&lt;") == first + ReplaceAll(s[1..], '<', "&lt;");
      ReplaceAllAppend(first, ReplaceAll(s[1..], '<', "&lt;"), '>', "&gt;");
      if s[0] == '<' {
        assert ReplaceAll("&lt;", '>', "&gt;") == "&lt;";
      } else if s[0] == '>' {
        assert ReplaceAll([s[0]], '>', "&gt;") == "&gt;";
      } else {
        assert ReplaceAll([s[0]], '>', "&gt;") == [s[0]];
      }
    }
  }

  /** Text without angle brackets is shown unchanged. */
  lemma {:induction false} EscapeIdentity(s: string)
    requires '<' !in s && '>' !in s
    ensures Escape(s) == s
  {
    if |s| > 0 {
      EscapeIsOnePass(s);
      EscapeIdentity(s[1..]);
    }
  }

  // ---------------------------------------------------------------------------
  // Line count, word under the cursor, selection gate
  // ---------------------------------------------------------------------------

  /** `content?.split('\n').length || 0`. */
  function LineCount(content: Option<string>): (n: nat)
    ensures content.None? ==> n == 0
    ensures content.Some? ==> n == Count(content.value, '\n') + 1
  {
    match content
    case None => 0
    case Some(s) => SplitLength(s, '\n'); |Split(s, '\n')|
  }

  /** The maximal run of word characters around `offset` (the two loops of `handleCodeClick`). */
  method ExpandWord(text: string, offset: nat) returns (start: nat, end: nat)
    requires offset <= |text|
    ensures start <= offset <= end <= |text|
    ensures forall i :: start <= i < end ==> IsWordChar(text[i])
    ensures start == 0 || !IsWordChar(text[start - 1])
    ensures end == |text| || !IsWordChar(text[end])
  {
    start := offset;
    while start > 0 && IsWordChar(text[start - 1])
      invariant 0 <= start <= offset
      invariant forall i :: start <= i < offset ==> IsWordChar(text[i])
    {
      start := start - 1;
    }
    end := offset;
    while end < |text| && IsWordChar(text[end])
      invariant offset <= end <= |text|
      invariant forall i :: start <= i < end ==> IsWordChar(text[i])
    {
      end := end + 1;
    }
  }

  /** `word` occurs at `s` and cannot be extended: no word character touches either end. */
  predicate WholeWordAt(text: string, word: string, s: int) {
    && OccursAt(text, word, s)
    && (s == 0 || !IsWordChar(text[s - 1]))
    && (s + |word| == |text| || !IsWordChar(text[s + |word|]))
  }

  /** A Ctrl/Cmd-click: the word under the cursor, when there is one. */
  method ClickToken(text: string, offset: nat, modifier: bool) returns (token: Option<string>)
    requires offset <= |text|
    ensures !modifier ==> token.None?
    ensures token.Some? ==> |token.value| > 0
    ensures token.Some? ==> forall i :: 0 <= i < |token.value| ==> IsWordChar(token.value[i])
    ensures token.Some? ==> exists s :: WholeWordAt(text, token.value, s) && s <= offset <= s + |token.value|
    ensures modifier && token.None? ==>
      (offset == |text| || !IsWordChar(text[offset])) && (offset == 0 || !IsWordChar(text[offset - 1]))
  {
    if !modifier {
      return None;
    }
    var start, end := ExpandWord(text, offset);
    var word := text[start..end];
    assert forall i :: 0 <= i < |word| ==> IsWordChar(word[i]) && !IsWhitespace(word[i]);
    TrimUnchanged(word);
    if |word| == 0 {
      token := None;
    } else {
      assert OccursAt(text, word, start);
      assert WholeWordAt(text, word, start);
      token := Some(word);
    }
  }

  const MaxSelectionLength := 100

  /** `handleMouseUp`: the trimmed selection is reported when it is 1 to 99 characters long. */
  function SelectionGate(selected: string): (r: Option<string>)
    ensures r.Some? <==> 0 < |Trim(selected)| < MaxSelectionLength
    ensures r.Some? ==> r.value == Trim(selected) && !IsWhitespace(r.value[0])
  {
    var t := Trim(selected);
    if 0 < |t| < MaxSelectionLength then Some(t) else None
  }
}

=== FILE: explanation_popup.dfy ===
/** The explanation popup: where it is placed, and how the "Example Usage" text is
    shown — the code inside its first fenced block, trimmed, or the text unchanged
    as a paragraph when it has no such block.

    The fence is found with ```` /```(?:\w+\n)?([\s\S]+?)```/ ````, an unanchored
    search: the leftmost opening fence that can start a match wins; at that fence a
    language tag line (`\w+\n`) is tried first, and the body is the shortest
    non-empty run of characters followed by a closing fence. */
module ExplanationPopup {
  import opened Common

  // ---------------------------------------------------------------------------
  // Placement
  // ---------------------------------------------------------------------------

  /** The fixed-position anchor of the popup in pixels; the popup is shifted left by
      half its own width (`translateX(-50%)`), so `left` is its horizontal centre. */
  datatype Anchor = Anchor(top: int, left: int)

  /** The gap between the clicked point and the top of the popup. */
  const VerticalOffset := 15

  /** The popup hangs 15 pixels below the click, centred on it horizontally. */
  function PopupAnchor(x: int, y: int): (a: Anchor)
    ensures a.top - y == VerticalOffset && a.top > y
    ensures a.left == x
  {
    Anchor(y + VerticalOffset, x)
  }

  // ---------------------------------------------------------------------------
  // What a match is
  // ---------------------------------------------------------------------------

  const Fence := "```"

  /** `\w+\n` occupies `s[p..b]`: at least one word character, then a newline just
      before `b`. */
  predicate IsTag(s: string, p: int, b: int) {
    0 <= p && p + 1 < b <= |s| && s[b - 1] == '\n'
    && forall k :: p <= k < b - 1 ==> IsWordChar(s[k])
  }

  /** The regular expression matches with its opening fence at `i`, its captured
      body `s[b..e]` and its closing fence at `e`. */
  predicate Matches(s: string, i: int, b: int, e: int) {
    OccursAt(s, Fence, i) && (b == i + 3 || IsTag(s, i + 3, b)) && b < e && OccursAt(s, Fence, e)
  }

  // ---------------------------------------------------------------------------
  // Finding it
  // ---------------------------------------------------------------------------

  /** The number of word characters starting at `p`. */
  function WordRun(s: string, p: nat): (k: nat)
    requires p <= |s|
    ensures p + k <= |s|
    ensures forall j :: p <= j < p + k ==> IsWordChar(s[j])
    ensures p + k == |s| || !IsWordChar(s[p + k])
    decreases |s| - p
  {
    if p == |s| || !IsWordChar(s[p]) then 0 else 1 + WordRun(s, p + 1)
  }

  /** Where the body starts if a tag line begins at `p`. Greedy `\w+` takes the
      whole run of word characters, after which only a newline will do. */
  function TagAt(s: string, p: nat): (r: Option<nat>)
    requires p <= |s|
    ensures r.Some? ==> IsTag(s, p, r.value)
    ensures forall b :: IsTag(s, p, b) ==> r == Some(b)
  {
    var k := WordRun(s, p);
    if k >= 1 && p + k < |s| && s[p + k] == '\n' then
      TagIsTheRun(s, p, k);
      Some(p + k + 1)
    else
      NoTagWithoutNewline(s, p, k);
      None
  }

  /** Any tag line beginning at `p` ends right after the run of word characters. */
  lemma TagIsTheRun(s: string, p: nat, k: nat)
    requires p + k <= |s| && forall j :: p <= j < p + k ==> IsWordChar(s[j])
    requires p + k == |s| || !IsWordChar(s[p + k])
    ensures forall b :: IsTag(s, p, b) ==> b == p + k + 1
  {
    forall b | IsTag(s, p, b) ensures b == p + k + 1 {
      assert !IsWordChar(s[b - 1]);
      assert forall j :: p <= j < b - 1 ==> IsWordChar(s[j]);
    }
  }

  lemma NoTagWithoutNewline(s: string, p: nat, k: nat)
    requires p + k <= |s| && forall j :: p <= j < p + k ==> IsWordChar(s[j])
    requires p + k == |s| || !IsWordChar(s[p + k])
    requires !(k >= 1 && p + k < |s| && s[p + k] == '\n')
    ensures forall b :: !IsTag(s, p, b)
  {
    TagIsTheRun(s, p, k);
  }

  /** The first fence at or after `from`. */
  function FenceFrom(s: string, from: nat): (r: Option<nat>)
    ensures r.Some? ==> from <= r.value && OccursAt(s, Fence, r.value)
    ensures forall e :: from <= e && (r.None? || e < r.value) ==> !OccursAt(s, Fence, e)
    decreases |s| - from
  {
    if from + |Fence| > |s| then None
    else if OccursAt(s, Fence, from) then Some(from)
    else FenceFrom(s, from + 1)
  }

  /** The body the lazy `([\s\S]+?)` captures when it starts at `b`: up to the first
      closing fence that leaves it at least one character. */
  function LazyBody(s: string, b: nat): (r: Option<(nat, nat)>)
    ensures r.Some? ==> r.value.0 == b < r.value.1 && OccursAt(s, Fence, r.value.1)
    ensures r.Some? ==> forall e :: b < e < r.value.1 ==> !OccursAt(s, Fence, e)
    ensures r.None? ==> forall e :: b < e ==> !OccursAt(s, Fence, e)
  {
    match FenceFrom(s, b + 1)
    case Some(e) => Some((b, e))
    case None => None
  }

  /** The match whose opening fence is at `i`, if there is one: with a tag line when
      that succeeds, otherwise without. */
  function MatchAt(s: string, i: nat): (r: Option<(nat, nat)>)
    requires OccursAt(s, Fence, i)
    ensures r.Some? ==> Matches(s, i, r.value.0, r.value.1)
    ensures r.Some? ==> forall e :: r.value.0 < e < r.value.1 ==> !OccursAt(s, Fence, e)
    ensures r.None? ==> forall b, e :: !Matches(s, i, b, e)
    ensures r.Some? && r.value.0 == i + 3 ==> forall b, e :: b != i + 3 ==> !Matches(s, i, b, e)
  {
    var tag := TagAt(s, i + 3);
    var tagged := if tag.Some? then LazyBody(s, tag.value) else None;
    if tagged.Some? then tagged
    else
      NoTaggedMatch(s, i, tag, tagged);
      LazyBody(s, i + 3)
  }

  lemma NoTaggedMatch(s: string, i: nat, tag: Option<nat>, tagged: Option<(nat, nat)>)
    requires OccursAt(s, Fence, i)
    requires tag == TagAt(s, i + 3)
    requires tagged == (if tag.Some? then LazyBody(s, tag.value) else None)
    requires tagged.None?
    ensures forall b, e :: b != i + 3 ==> !Matches(s, i, b, e)
  {
    forall b, e | b != i + 3 ensures !Matches(s, i, b, e) {
      if IsTag(s, i + 3, b) {
        assert tag == Some(b);
      }
    }
  }

  /** A located block: opening fence at `open`, body `s[body..close]`. */
  datatype Block = Block(open: nat, body: nat, close: nat)

  /** The leftmost match starting at or after `from`. */
  function FindBlock(s: string, from: nat): (r: Option<Block>)
    ensures r.Some? ==> from <= r.value.open && Matches(s, r.value.open, r.value.body, r.value.close)
    ensures r.Some? ==> forall j, b, e :: from <= j < r.value.open ==> !Matches(s, j, b, e)
    ensures r.Some? ==> forall e :: r.value.body < e < r.value.close ==> !OccursAt(s, Fence, e)
    ensures r.Some? && r.value.body == r.value.open + 3 ==>
      forall b, e :: b != r.value.open + 3 ==> !Matches(s, r.value.open, b, e)
    ensures r.None? ==> forall j, b, e :: from <= j ==> !Matches(s, j, b, e)
    decreases |s| - from
  {
    if from + |Fence| > |s| then None
    else if OccursAt(s, Fence, from) && MatchAt(s, from).Some? then
      var m := MatchAt(s, from).value;
      Some(Block(from, m.0, m.1))
    else
      assert forall b, e :: !Matches(s, from, b, e);
      FindBlock(s, from + 1)
  }

  // ---------------------------------------------------------------------------
  // What is shown
  // ---------------------------------------------------------------------------

  /** A `<pre><code>` block, or the text as a plain paragraph. */
  datatype Shown = CodeBlock(code: string) | Paragraph(text: string)

  /** `formatExample`: the trimmed body of the first fenced block, or the example
      unchanged when no fenced block matches. */
  function FormatExample(example: string): (r: Shown)
    ensures r.Paragraph? <==> forall i, b, e :: !Matches(example, i, b, e)
    ensures r.Paragraph? ==> r.text == example
    ensures r.CodeBlock? ==> exists b, e :: 0 <= b <= e <= |example| && r.code == Trim(example[b..e])
  {
    match FindBlock(example, 0)
    case Some(blk) => CodeBlock(Trim(example[blk.body..blk.close]))
    case None => Paragraph(example)
  }

  /** An example without any fence is shown unchanged. */
  lemma {:induction false} NoFenceIsParagraph(example: string)
    requires !Contains(example, Fence)
    ensures FormatExample(example) == Paragraph(example)
  {
    assert forall i :: !OccursAt(example, Fence, i);
  }

  /** A block opening the example with a language tag shows exactly its body,
      trimmed, whatever follows it. */
  lemma {:induction false} TaggedBlockAtStart(tag: string, code: string, rest: string)
    requires |tag| >= 1 && forall k :: 0 <= k < |tag| ==> IsWordChar(tag[k])
    requires |code| >= 1 && '`' !in code
    ensures FormatExample(Fence + tag + "\n" + code + Fence + rest) == CodeBlock(Trim(code))
  {
    var s := Fence + tag + "\n" + code + Fence + rest;
    var b := 3 + |tag| + 1;
    var e := b + |code|;
    assert s[..3] == Fence;
    assert OccursAt(s, Fence, 0);
    assert IsTag(s, 3, b) by {
      forall k | 3 <= k < b - 1 ensures IsWordChar(s[k]) {
        assert s[k] == tag[k - 3];
      }
      assert s[b - 1] == '\n';
    }
    assert s[b..e] == code;
    assert s[e..e + 3] == Fence;
    assert OccursAt(s, Fence, e);
    forall j | b < j < e ensures !OccursAt(s, Fence, j) {
      assert s[j] == code[j - b] != '`';
      assert s[j..j + 3][0] == s[j];
      assert Fence[0] == '`';
    }
    var r := FindBlock(s, 0);
    assert Matches(s, 0, b, e);
    assert r.Some? && r.value.open == 0;
    assert r.value.body != 3;
    assert IsTag(s, 3, r.value.body);
    assert TagAt(s, 3) == Some(b);
    assert r.value.body == b;
    assert !(b < r.value.close < e);
    assert r.value.close == e;
  }
}

=== FILE: file_tree_view.dfy ===
/** The file tree panel: folders before files and names in collation order at every
    level, folders that open and close, files that are selected on click.

    Each rendered folder keeps its own `isOpen` flag, and React keys the rendered
    nodes by path, so the flags of a whole tree are modelled as the set of paths of
    the open folders. A closed folder does not render its children, so their flags
    are discarded with them: closing a folder closes every folder below it, whose
    paths extend the folder's path by `/` and a name. The name collation (`localeCompare`) is a parameter `nameLe`,
    assumed to be a total preorder. */
module FileTreeView {
  import opened Common
  import opened Types
  import Sorting

  // ---------------------------------------------------------------------------
  // Ordering one level
  // ---------------------------------------------------------------------------

  /** The sort comparator as the relation "`a` may come before `b`": within one
      kind the names' collation order, otherwise a folder before a file. */
  function FolderFirst(nameLe: (string, string) -> bool): (TreeNode, TreeNode) -> bool {
    (a: TreeNode, b: TreeNode) => if a.kind == b.kind then nameLe(a.name, b.name) else a.kind == Tree
  }

  /** The comparator is consistent whenever the collation is, so the sort is well defined. */
  lemma FolderFirstIsPreorder(nameLe: (string, string) -> bool)
    requires Sorting.TotalPreorder(nameLe)
    ensures Sorting.TotalPreorder(FolderFirst(nameLe))
  {
    var le := FolderFirst(nameLe);
    forall a, b ensures le(a, b) || le(b, a) {
      assert nameLe(a.name, b.name) || nameLe(b.name, a.name);
    }
    forall a, b, c | le(a, b) && le(b, c) ensures le(a, c) {
      if a.kind == b.kind && b.kind == c.kind {
        assert nameLe(a.name, b.name) && nameLe(b.name, c.name);
      }
    }
  }

  /** Every folder precedes every file, and nodes of one kind are in name order. */
  predicate LevelOrdered(ns: seq<TreeNode>, nameLe: (string, string) -> bool) {
    (forall i, j :: 0 <= i < j < |ns| ==> !(ns[i].kind == Blob && ns[j].kind == Tree))
    && (forall i, j :: 0 <= i < j < |ns| && ns[i].kind == ns[j].kind ==> nameLe(ns[i].name, ns[j].name))
  }

  /** `nodes.sort(comparator)`: a stable rearrangement of the nodes into folder-first,
      name order. */
  function SortLevel(ns: seq<TreeNode>, nameLe: (string, string) -> bool): (r: seq<TreeNode>)
    requires Sorting.TotalPreorder(nameLe)
    ensures multiset(r) == multiset(ns)
    ensures LevelOrdered(r, nameLe)
  {
    FolderFirstIsPreorder(nameLe);
    var r := Sorting.Sort(ns, FolderFirst(nameLe));
    assert forall i, j :: 0 <= i < j < |r| ==> FolderFirst(nameLe)(r[i], r[j]);
    r
  }

  /** Nodes the comparator cannot tell apart (same kind, names equal under the
      collation) keep their input order. */
  lemma SortLevelStable(ns: seq<TreeNode>, nameLe: (string, string) -> bool, x: TreeNode)
    requires Sorting.TotalPreorder(nameLe)
    ensures Sorting.Class(SortLevel(ns, nameLe), FolderFirst(nameLe), x)
         == Sorting.Class(ns, FolderFirst(nameLe), x)
  {
    FolderFirstIsPreorder(nameLe);
    Sorting.SortStable(ns, FolderFirst(nameLe), x);
  }

  // ---------------------------------------------------------------------------
  // Ordering every level
  // ---------------------------------------------------------------------------

  /** The same node, seen without its children: what the comparator and the row show. */
  function Label(n: TreeNode): (string, string, NodeKind) {
    (n.name, n.path, n.kind)
  }

  /** Every level of the forest is ordered. */
  predicate DeepOrdered(ns: seq<TreeNode>, nameLe: (string, string) -> bool)
    decreases ns, 1
  {
    LevelOrdered(ns, nameLe) && forall n | n in ns :: SubtreeOrdered(n, nameLe)
  }

  predicate SubtreeOrdered(n: TreeNode, nameLe: (string, string) -> bool)
    decreases n, 0
  {
    n.children.Kids? ==> DeepOrdered(n.children.nodes, nameLe)
  }

  /** A node with every level below it ordered. */
  function SortNode(n: TreeNode, nameLe: (string, string) -> bool): (r: TreeNode)
    requires Sorting.TotalPreorder(nameLe)
    ensures Label(r) == Label(n)
    ensures r.children.Kids? <==> n.children.Kids?
    ensures r.children.Kids? ==> |r.children.nodes| == |n.children.nodes|
    ensures r.children.Kids? ==> multiset(Labels(r.children.nodes)) == multiset(Labels(n.children.nodes))
    ensures SubtreeOrdered(r, nameLe)
    decreases n, 0
  {
    match n.children
    case NoChildren => n
    case Kids(cs) => n.(children := Kids(SortForest(cs, nameLe)))
  }

  /** `SortNode` applied to each node in turn. */
  function SortEach(ns: seq<TreeNode>, nameLe: (string, string) -> bool): (r: seq<TreeNode>)
    requires Sorting.TotalPreorder(nameLe)
    ensures |r| == |ns|
    ensures forall i :: 0 <= i < |r| ==> Label(r[i]) == Label(ns[i]) && r[i] == SortNode(ns[i], nameLe)
    ensures forall n | n in r :: SubtreeOrdered(n, nameLe)
    decreases ns, 1
  {
    if |ns| == 0 then [] else [SortNode(ns[0], nameLe)] + SortEach(ns[1..], nameLe)
  }

  /** The forest as the tree view orders it: each level sorted by the folder-first
      comparator, the same rule applied to the children of every node. Every level
      shows the same nodes (name, path, type), each as often, as the input; through
      `SortNode` this holds for the children of every node too. */
  function SortForest(ns: seq<TreeNode>, nameLe: (string, string) -> bool): (r: seq<TreeNode>)
    requires Sorting.TotalPreorder(nameLe)
    ensures |r| == |ns|
    ensures multiset(r) == multiset(SortEach(ns, nameLe))
    ensures multiset(Labels(r)) == multiset(Labels(ns))
    ensures DeepOrdered(r, nameLe)
    decreases ns, 2
  {
    var each := SortEach(ns, nameLe);
    var r := SortLevel(each, nameLe);
    assert forall n | n in r :: n in multiset(each);
    LabelsOfPermutation(r, each);
    LabelsPointwise(each, ns);
    r
  }

  function Labels(ns: seq<TreeNode>): (r: seq<(string, string, NodeKind)>)
    ensures |r| == |ns|
    ensures forall i :: 0 <= i < |ns| ==> r[i] == Label(ns[i])
  {
    seq(|ns|, i requires 0 <= i < |ns| => Label(ns[i]))
  }

  lemma LabelsPointwise(a: seq<TreeNode>, b: seq<TreeNode>)
    requires |a| == |b|
    requires forall i :: 0 <= i < |a| ==> Label(a[i]) == Label(b[i])
    ensures Labels(a) == Labels(b)
  {
  }

  /** Relabelling preserves being a permutation. */
  lemma {:induction false} LabelsOfPermutation(a: seq<TreeNode>, b: seq<TreeNode>)
    requires multiset(a) == multiset(b)
    ensures multiset(Labels(a)) == multiset(Labels(b))
    decreases |a|
  {
    if |a| > 0 {
      assert a[0] in multiset(b);
      var k :| 0 <= k < |b| && b[k] == a[0];
      var b' := b[..k] + b[k + 1..];
      RemoveOne(a, b, k);
      LabelsOfPermutation(a[1..], b');
      LabelsRemoveOne(b, k);
      assert Labels(a) == [Label(a[0])] + Labels(a[1..]);
    }
  }

  lemma RemoveOne(a: seq<TreeNode>, b: seq<TreeNode>, k: nat)
    requires multiset(a) == multiset(b)
    requires 0 < |a| && k < |b| && b[k] == a[0]
    ensures multiset(a[1..]) == multiset(b[..k] + b[k + 1..])
  {
    var x := a[0];
    var p, q := b[..k], b[k + 1..];
    assert a == [x] + a[1..];
    assert b == p + [x] + q;
    assert multiset(a) == multiset{x} + multiset(a[1..]);
    assert multiset(b) == multiset(p) + multiset{x} + multiset(q);
    assert multiset(p + q) == multiset(p) + multiset(q);
    forall y ensures multiset(a[1..])[y] == multiset(p + q)[y] {
      assert multiset(a)[y] == multiset(b)[y];
    }
  }

  lemma LabelsRemoveOne(b: seq<TreeNode>, k: nat)
    requires k < |b|
    ensures multiset(Labels(b)) == multiset(Labels(b[..k] + b[k + 1..])) + multiset{Label(b[k])}
  {
    assert Labels(b) == Labels(b[..k]) + [Label(b[k])] + Labels(b[k + 1..]);
    assert Labels(b[..k] + b[k + 1..]) == Labels(b[..k]) + Labels(b[k + 1..]);
  }

  // ---------------------------------------------------------------------------
  // Rendering
  // ---------------------------------------------------------------------------

  /** One rendered line: the node's name at its indentation level, the open-folder
      icon state and the selection highlight. */
  datatype Row = Row(name: string, path: string, kind: NodeKind, level: nat, isOpen: bool, isSelected: bool)

  /** A node is open when it is a folder whose flag is set; files never open. */
  predicate IsOpen(n: TreeNode, open: set<string>) {
    n.kind == Tree && n.path in open
  }

  /** The line for the node itself. */
  function RowOf(n: TreeNode, open: set<string>, selected: Option<string>, level: nat): Row {
    Row(n.name, n.path, n.kind, level, IsOpen(n, open), selected == Some(n.path))
  }

  /** The lines of one node: its own, then (only for an open folder that has a
      children array) those of its children one level deeper. */
  function NodeRows(n: TreeNode, open: set<string>, selected: Option<string>, level: nat): (r: seq<Row>)
    ensures |r| >= 1 && r[0] == RowOf(n, open, selected, level)
    ensures !(IsOpen(n, open) && n.children.Kids?) ==> |r| == 1
    ensures forall k :: 1 <= k < |r| ==> r[k].level > level
    decreases n, 0
  {
    var head := RowOf(n, open, selected, level);
    if IsOpen(n, open) && n.children.Kids? then [head] + ForestRows(n.children.nodes, open, selected, level + 1)
    else [head]
  }

  /** The lines of a list of sibling nodes, in list order. */
  function ForestRows(ns: seq<TreeNode>, open: set<string>, selected: Option<string>, level: nat): (r: seq<Row>)
    ensures |r| >= |ns|
    ensures forall k :: 0 <= k < |r| ==> r[k].level >= level
    decreases ns
  {
    if |ns| == 0 then [] else NodeRows(ns[0], open, selected, level) + ForestRows(ns[1..], open, selected, level)
  }

  /** What the tree panel shows. */
  datatype View = NoFiles | Lines(rows: seq<Row>)

  /** `FileTree`: a notice for an empty repository, otherwise the rows of the forest
      ordered at every level. */
  function FileTree(tree: seq<TreeNode>, open: set<string>, selected: Option<string>,
                    nameLe: (string, string) -> bool): (v: View)
    requires Sorting.TotalPreorder(nameLe)
    ensures v.NoFiles? <==> |tree| == 0
    ensures v.Lines? ==> |v.rows| >= |tree|
  {
    if |tree| == 0 then NoFiles else Lines(ForestRows(SortForest(tree, nameLe), open, selected, 0))
  }

  /** With every folder closed only the top level is shown, one line per node, in
      the given order: children are shown only under an open folder. */
  lemma {:induction false} ClosedForestShowsTopLevel(ns: seq<TreeNode>, selected: Option<string>, level: nat)
    ensures var r := ForestRows(ns, {}, selected, level);
      |r| == |ns| && forall k :: 0 <= k < |ns| ==> r[k] == RowOf(ns[k], {}, selected, level)
    decreases ns
  {
    if |ns| > 0 {
      ClosedForestShowsTopLevel(ns[1..], selected, level);
      var r := ForestRows(ns, {}, selected, level);
      assert r == [RowOf(ns[0], {}, selected, level)] + ForestRows(ns[1..], {}, selected, level);
    }
  }

  /** Exactly the line of the selected path is highlighted. */
  lemma SelectedRowIsSelectedPath(r: seq<Row>, ns: seq<TreeNode>, open: set<string>, selected: Option<string>, level: nat, k: nat)
    requires r == ForestRows(ns, open, selected, level)
    requires k < |r|
    ensures r[k].isSelected <==> selected == Some(r[k].path)
  {
    RowsAreRowOf(ns, open, selected, level, k);
  }

  /** Every line is the line of some node: its flags agree with its own path. */
  lemma {:induction false} RowsAreRowOf(ns: seq<TreeNode>, open: set<string>, selected: Option<string>, level: nat, k: nat)
    requires k < |ForestRows(ns, open, selected, level)|
    ensures var row := ForestRows(ns, open, selected, level)[k];
      row.isSelected == (selected == Some(row.path)) && row.isOpen == (row.kind == Tree && row.path in open)
    decreases ns, 1
  {
    var first := NodeRows(ns[0], open, selected, level);
    var rest := ForestRows(ns[1..], open, selected, level);
    assert ForestRows(ns, open, selected, level) == first + rest;
    if k < |first| {
      NodeRowsAreRowOf(ns[0], open, selected, level, k);
    } else {
      RowsAreRowOf(ns[1..], open, selected, level, k - |first|);
    }
  }

  lemma {:induction false} NodeRowsAreRowOf(n: TreeNode, open: set<string>, selected: Option<string>, level: nat, k: nat)
    requires k < |NodeRows(n, open, selected, level)|
    ensures var row := NodeRows(n, open, selected, level)[k];
      row.isSelected == (selected == Some(row.path)) && row.isOpen == (row.kind == Tree && row.path in open)
    decreases n, 0
  {
    if k > 0 {
      RowsAreRowOf(n.children.nodes, open, selected, level + 1, k - 1);
    }
  }

  // ---------------------------------------------------------------------------
  // Clicking a line
  // ---------------------------------------------------------------------------

  /** The effect of `handleToggle`: the new open flags, and the file passed to
      `onFileSelect` if any. */
  datatype Toggled = Toggled(open: set<string>, fileSelected: Option<string>)

  /** Whether `p` names something inside the folder at `folder`: a descendant's path
      extends its folder's path by a `/` and a name. */
  predicate Below(p: string, folder: string) {
    StartsWith(p, folder + "/")
  }

  /** A folder flips its own flag and selects nothing; a file keeps every flag and is
      selected. Closing a folder unmounts the nodes below it, which lose their own
      flags: every folder below it is closed too. */
  function Toggle(open: set<string>, n: TreeNode): (t: Toggled)
    ensures n.kind == Tree ==> t.fileSelected == None && (n.path in t.open <==> n.path !in open)
    ensures n.kind == Tree && n.path !in open ==> forall p :: p != n.path ==> (p in t.open <==> p in open)
    ensures n.kind == Tree && n.path in open ==>
      forall p :: p in t.open <==> p in open && p != n.path && !Below(p, n.path)
    ensures n.kind == Blob ==> t.open == open && t.fileSelected == Some(n.path)
  {
    if n.kind == Tree then
      if n.path in open then Toggled((set p | p in open && p != n.path && !Below(p, n.path)), None)
      else Toggled(open + {n.path}, None)
    else
      Toggled(open, Some(n.path))
  }

  /** Clicking an open folder twice leaves it open with every folder below it closed
      and every other flag as it was; clicking a closed folder twice restores every
      flag when nothing below it was open. */
  lemma ToggleTwice(open: set<string>, n: TreeNode)
    requires n.kind == Tree
    ensures var t := Toggle(Toggle(open, n).open, n).open;
      (n.path in open ==> n.path in t && (forall p :: Below(p, n.path) ==> p !in t)
                          && forall p :: p != n.path && !Below(p, n.path) ==> (p in t <==> p in open))
      && (n.path !in open && (forall p :: p in open ==> !Below(p, n.path)) ==> t == open)
  {
  }

  /** With no open path under a prefix, a forest whose nodes all lie under it shows
      each node as one closed line, whatever else is open. */
  lemma {:induction false} ForestRowsClosedBelow(ns: seq<TreeNode>, open: set<string>, selected: Option<string>,
                                                 level: nat, folder: string)
    requires forall m | m in ns :: Below(m.path, folder)
    requires forall p | p in open :: !Below(p, folder)
    ensures ForestRows(ns, open, selected, level) == ForestRows(ns, {}, selected, level)
    decreases ns
  {
    if |ns| > 0 {
      assert ns[0] in ns;
      ForestRowsClosedBelow(ns[1..], open, selected, level, folder);
      assert NodeRows(ns[0], open, selected, level) == NodeRows(ns[0], {}, selected, level);
    }
  }

  /** Closing and reopening a folder shows its children again, one line each, every
      one of them closed: the state of the folders below was lost on closing. */
  lemma ReopenShowsChildrenClosed(open: set<string>, n: TreeNode, selected: Option<string>, level: nat)
    requires n.kind == Tree && n.path in open && n.children.Kids?
    requires forall c | c in n.children.nodes :: Below(c.path, n.path)
    ensures var t := Toggle(Toggle(open, n).open, n).open;
      var rows := NodeRows(n, t, selected, level);
      var cs := n.children.nodes;
      |rows| == 1 + |cs| && rows[0].isOpen
      && forall k :: 0 <= k < |cs| ==> rows[k + 1] == RowOf(cs[k], {}, selected, level + 1)
  {
    var t := Toggle(Toggle(open, n).open, n).open;
    var cs := n.children.nodes;
    ToggleTwice(open, n);
    ForestRowsClosedBelow(cs, t, selected, level + 1, n.path);
    ClosedForestShowsTopLevel(cs, selected, level + 1);
  }
}

=== FILE: fuzzy_search.dfy ===
/** The quick-open file matcher: greedy case-insensitive subsequence matching
    with an integer score, ranking of a candidate list, highlighting of the
    matched characters, and the arrow-key selection of the results list. */
module FuzzySearch {
  import opened Common
  import Sorting

  /** What `fuzzyMatch` returns on success. */
  datatype Match = Match(score: int, indices: seq<int>)

  /** One row of the results list. */
  datatype FuzzyResult = FuzzyResult(path: string, score: int, indices: seq<int>)

  const MatchBase := 100
  const ConsecutiveBonus := 70
  const SeparatorBonus := 80
  const CaseBonus := 80
  const FileNameBonus := 50
  const EmptyQueryScore := 1
  const DefaultMaxResults := 20

  /** The characters `/ . _ -` that earn the separator bonus. */
  predicate IsSeparator(c: char) {
    c == '/' || c == '.' || c == '_' || c == '-'
  }

  /** `c === c.toUpperCase()`: true of capitals, and of digits and punctuation too. */
  predicate IsOwnUpper(c: char) {
    Upper(c) == c
  }

  // ---------------------------------------------------------------------------
  // Reference definitions: embeddings and their score
  // ---------------------------------------------------------------------------

  predicate Increasing(idx: seq<int>) {
    forall k, m :: 0 <= k < m < |idx| ==> idx[k] < idx[m]
  }

  predicate InRange(idx: seq<int>, n: int) {
    forall k :: 0 <= k < |idx| ==> 0 <= idx[k] < n
  }

  /** `idx` picks positions of `b`, left to right, that spell out `a`. */
  predicate Embeds(a: string, b: string, idx: seq<int>) {
    && |idx| == |a|
    && Increasing(idx)
    && InRange(idx, |b|)
    && (forall k :: 0 <= k < |idx| ==> b[idx[k]] == a[k])
  }

  /** `a` is a subsequence of `b`. */
  ghost predicate Embeddable(a: string, b: string) {
    exists idx :: Embeds(a, b, idx)
  }

  /** The position of the match before the `k`-th, or -1 for the first. */
  function PrevOr(idx: seq<int>, k: int): int
    requires 0 <= k <= |idx|
  {
    if k == 0 then -1 else idx[k - 1]
  }

  /** No position of `b` between the previous pick and the `k`-th pick spells `a[k]`. */
  predicate NoEarlier(a: string, b: string, idx: seq<int>, k: int)
    requires 0 <= k < |idx|
  {
    forall j :: PrevOr(idx, k) < j < idx[k] && 0 <= j < |b| && k < |a| ==> b[j] != a[k]
  }

  /** Each pick is the first position after the previous one where the characters agree:
      the embedding a left-to-right scan finds. */
  predicate Leftmost(a: string, b: string, idx: seq<int>) {
    forall k :: 0 <= k < |idx| ==> NoEarlier(a, b, idx, k)
  }

  /** There is only one leftmost embedding, so the scan's indices are fully determined. */
  lemma LeftmostUnique(a: string, b: string, i1: seq<int>, i2: seq<int>)
    requires Embeds(a, b, i1) && Leftmost(a, b, i1)
    requires Embeds(a, b, i2) && Leftmost(a, b, i2)
    ensures i1 == i2
  {
    LeftmostAgree(a, b, i1, i2, |a|);
  }

  lemma {:induction false} LeftmostAgree(a: string, b: string, i1: seq<int>, i2: seq<int>, n: nat)
    requires Embeds(a, b, i1) && Leftmost(a, b, i1)
    requires Embeds(a, b, i2) && Leftmost(a, b, i2)
    requires n <= |a|
    ensures i1[..n] == i2[..n]
  {
    if n > 0 {
      var k := n - 1;
      LeftmostAgree(a, b, i1, i2, k);
      assert PrevOr(i1, k) == PrevOr(i2, k) by {
        if k > 0 { assert i1[k - 1] == i1[..k][k - 1] == i2[..k][k - 1] == i2[k - 1]; }
      }
      assert NoEarlier(a, b, i1, k) && NoEarlier(a, b, i2, k);
      assert i1[k] == i2[k];
      assert i1[..n] == i1[..k] + [i1[k]] && i2[..n] == i2[..k] + [i2[k]];
    }
  }

  /** Points for matching `path[i]` when the previous match was at `last` (-1: none). */
  function MatchPoints(path: string, i: int, last: int): (p: int)
    requires -1 <= last < i < |path|
    ensures MatchBase <= p <= MatchBase + ConsecutiveBonus + SeparatorBonus + CaseBonus
  {
    MatchBase
    + (if last != -1 && i == last + 1 then ConsecutiveBonus else 0)
    + (if last != -1 && IsSeparator(path[i - 1]) then SeparatorBonus else 0)
    + (if IsOwnUpper(path[i]) && i > 0 && path[i - 1] != '/' then CaseBonus else 0)
  }

  /** The points an increasing list of matched positions earns, match by match. */
  function Points(path: string, idx: seq<int>): int
    requires Increasing(idx) && InRange(idx, |path|)
  {
    if |idx| == 0 then 0
    else
      Points(path, idx[..|idx| - 1])
      + MatchPoints(path, idx[|idx| - 1], if |idx| == 1 then -1 else idx[|idx| - 2])
  }

  /** The final score of a non-empty match at positions `idx`. */
  function ScoreOf(path: string, idx: seq<int>): int
    requires |idx| > 0 && Increasing(idx) && InRange(idx, |path|)
  {
    Points(path, idx) - |path| + (if idx[0] > LastIndexOf(path, '/') then FileNameBonus else 0)
  }

  // ---------------------------------------------------------------------------
  // fuzzyMatch
  // ---------------------------------------------------------------------------

  /** The state the matching loop leaves behind: `queryIndex`, `score`, `indices`. */
  datatype Walked = Walked(matched: nat, score: int, indices: seq<int>)

  /** The matching loop from `pathIndex = pi`, `queryIndex = qi`; `lp`, `lq` are the lower-cased strings. */
  function Walk(path: string, lp: string, lq: string, pi: nat, qi: nat,
                score: int, last: int, indices: seq<int>): (w: Walked)
    requires |lp| == |path| && pi <= |path| && qi <= |lq|
    requires -1 <= last < pi && |indices| == qi
    ensures w.matched <= |lq| && |w.indices| == w.matched
    decreases |path| - pi
  {
    if pi < |path| && qi < |lq| then
      if lp[pi] == lq[qi] then
        Walk(path, lp, lq, pi + 1, qi + 1, score + MatchPoints(path, pi, last), pi, indices + [pi])
      else
        Walk(path, lp, lq, pi + 1, qi, score, last, indices)
    else
      Walked(qi, score, indices)
  }

  function LastOr(idx: seq<int>): int {
    if |idx| == 0 then -1 else idx[|idx| - 1]
  }

  /** A position whose character agrees is taken, and the loop goes on after it. */
  lemma WalkTakes(path: string, lp: string, lq: string, pi: nat, qi: nat, score: int, last: int, indices: seq<int>)
    requires |lp| == |path| && pi < |path| && qi < |lq| && lp[pi] == lq[qi]
    requires -1 <= last < pi && |indices| == qi
    ensures Walk(path, lp, lq, pi, qi, score, last, indices)
         == Walk(path, lp, lq, pi + 1, qi + 1, score + MatchPoints(path, pi, last), pi, indices + [pi])
  {
  }

  /** One matching step of the loop extends the embedding by `pi` and the points by its bonus. */
  lemma MatchStep(path: string, lp: string, lq: string, pi: nat, qi: nat, last: int, indices: seq<int>)
    requires |lp| == |path| && pi < |path| && qi < |lq| && lp[pi] == lq[qi]
    requires -1 <= last < pi && |indices| == qi
    requires Embeds(lq[..qi], lp, indices)
    requires forall k :: 0 <= k < |indices| ==> indices[k] < pi
    requires last == LastOr(indices)
    ensures Embeds(lq[..qi + 1], lp, indices + [pi])
    ensures Points(path, indices + [pi]) == Points(path, indices) + MatchPoints(path, pi, last)
    ensures LastOr(indices + [pi]) == pi
    ensures forall k :: 0 <= k < |indices| + 1 ==> (indices + [pi])[k] < pi + 1
  {
    var indices' := indices + [pi];
    assert indices'[..|indices'| - 1] == indices;
    assert lq[..qi + 1] == lq[..qi] + [lq[qi]];
    assert Embeds(lq[..qi + 1], lp, indices');
  }

  /** The loop keeps the matched positions an embedding of the consumed query and the score their points. */
  lemma {:induction false} WalkInvariant(path: string, lp: string, lq: string, pi: nat, qi: nat,
                                         score: int, last: int, indices: seq<int>)
    requires |lp| == |path| && pi <= |path| && qi <= |lq|
    requires -1 <= last < pi && |indices| == qi
    requires Embeds(lq[..qi], lp, indices)
    requires forall k :: 0 <= k < |indices| ==> indices[k] < pi
    requires last == LastOr(indices)
    requires score == Points(path, indices)
    ensures var w := Walk(path, lp, lq, pi, qi, score, last, indices);
      Embeds(lq[..w.matched], lp, w.indices) && w.score == Points(path, w.indices)
    decreases |path| - pi, 1
  {
    if pi < |path| && qi < |lq| {
      if lp[pi] == lq[qi] {
        WalkAfterMatch(path, lp, lq, pi, qi, score, last, indices);
      } else {
        assert Walk(path, lp, lq, pi, qi, score, last, indices)
            == Walk(path, lp, lq, pi + 1, qi, score, last, indices);
        WalkInvariant(path, lp, lq, pi + 1, qi, score, last, indices);
      }
    }
  }

  /** The invariant across a step of the loop that matches `path[pi]`. */
  lemma {:induction false} WalkAfterMatch(path: string, lp: string, lq: string, pi: nat, qi: nat,
                                          score: int, last: int, indices: seq<int>)
    requires |lp| == |path| && pi < |path| && qi < |lq| && lp[pi] == lq[qi]
    requires -1 <= last < pi && |indices| == qi
    requires Embeds(lq[..qi], lp, indices)
    requires forall k :: 0 <= k < |indices| ==> indices[k] < pi
    requires last == LastOr(indices)
    requires score == Points(path, indices)
    ensures var w := Walk(path, lp, lq, pi, qi, score, last, indices);
      Embeds(lq[..w.matched], lp, w.indices) && w.score == Points(path, w.indices)
    decreases |path| - pi, 0
  {
    var indices' := indices + [pi];
    var score' := score + MatchPoints(path, pi, last);
    MatchStep(path, lp, lq, pi, qi, last, indices);
    WalkTakes(path, lp, lq, pi, qi, score, last, indices);
    WalkInvariant(path, lp, lq, pi + 1, qi + 1, score', pi, indices');
  }

  /** The loop picks, for each query character, the first agreeing position after the
      previous pick: no position it skips over would have matched. */
  lemma {:induction false} WalkLeftmost(path: string, lp: string, lq: string, pi: nat, qi: nat,
                                        score: int, last: int, indices: seq<int>)
    requires |lp| == |path| && pi <= |path| && qi <= |lq|
    requires -1 <= last < pi && |indices| == qi
    requires last == LastOr(indices)
    requires Leftmost(lq, lp, indices)
    requires qi < |lq| ==> forall j :: last < j < pi ==> lp[j] != lq[qi]
    ensures Leftmost(lq, lp, Walk(path, lp, lq, pi, qi, score, last, indices).indices)
    decreases |path| - pi
  {
    if pi < |path| && qi < |lq| {
      if lp[pi] == lq[qi] {
        var indices' := indices + [pi];
        LeftmostExtend(lq, lp, indices, pi);
        WalkTakes(path, lp, lq, pi, qi, score, last, indices);
        WalkLeftmost(path, lp, lq, pi + 1, qi + 1, score + MatchPoints(path, pi, last), pi, indices');
      } else {
        assert Walk(path, lp, lq, pi, qi, score, last, indices)
            == Walk(path, lp, lq, pi + 1, qi, score, last, indices);
        WalkLeftmost(path, lp, lq, pi + 1, qi, score, last, indices);
      }
    }
  }

  /** Picking `p` for the next character keeps the embedding leftmost when nothing between
      the last pick and `p` agrees with it. */
  lemma LeftmostExtend(a: string, b: string, idx: seq<int>, p: int)
    requires |idx| < |a| && Leftmost(a, b, idx)
    requires forall j :: LastOr(idx) < j < p ==> 0 <= j < |b| ==> b[j] != a[|idx|]
    ensures Leftmost(a, b, idx + [p])
  {
    var idx' := idx + [p];
    forall k | 0 <= k < |idx'| ensures NoEarlier(a, b, idx', k) {
      if k < |idx| {
        assert idx'[k] == idx[k];
        assert PrevOr(idx', k) == PrevOr(idx, k);
        assert NoEarlier(a, b, idx, k);
      } else {
        assert PrevOr(idx', k) == LastOr(idx);
      }
    }
  }

  /** Greedy leftmost matching misses no subsequence: if the rest of the query embeds
      at or after `pi`, the loop consumes the whole query. */
  lemma {:induction false} WalkComplete(path: string, lp: string, lq: string, pi: nat, qi: nat,
                                        score: int, last: int, indices: seq<int>, rest: seq<int>)
    requires |lp| == |path| && pi <= |path| && qi <= |lq|
    requires -1 <= last < pi && |indices| == qi
    requires Embeds(lq[qi..], lp, rest)
    requires forall k :: 0 <= k < |rest| ==> pi <= rest[k]
    ensures Walk(path, lp, lq, pi, qi, score, last, indices).matched == |lq|
    decreases |path| - pi
  {
    if qi < |lq| {
      assert lp[rest[0]] == lq[qi];
      if lp[pi] == lq[qi] {
        assert lq[qi + 1..] == lq[qi..][1..];
        WalkComplete(path, lp, lq, pi + 1, qi + 1, score + MatchPoints(path, pi, last), pi,
                     indices + [pi], rest[1..]);
      } else {
        WalkComplete(path, lp, lq, pi + 1, qi, score, last, indices, rest);
      }
    }
  }

  /** `fuzzyMatch(query, path)`. On success the indices spell the lower-cased query
      out of the lower-cased path, and the score is their points less the length
      penalty plus the file-name bonus; an empty query scores 1 with no indices. */
  function FuzzyMatch(query: string, path: string): (r: Option<Match>)
    ensures |query| == 0 ==> r == Some(Match(EmptyQueryScore, []))
    ensures r.Some? ==> Embeds(LowerStr(query), LowerStr(path), r.value.indices)
    ensures r.Some? ==> Leftmost(LowerStr(query), LowerStr(path), r.value.indices)
    ensures r.Some? && |query| > 0 ==> r.value.score == ScoreOf(path, r.value.indices)
  {
    var lq := LowerStr(query);
    var lp := LowerStr(path);
    if |lq| == 0 then Some(Match(EmptyQueryScore, []))
    else
      var w := Walk(path, lp, lq, 0, 0, 0, -1, []);
      if w.matched != |lq| then None
      else
        WalkInvariant(path, lp, lq, 0, 0, 0, -1, []);
        WalkLeftmost(path, lp, lq, 0, 0, 0, -1, []);
        assert lq[..w.matched] == lq;
        var penalised := w.score - |path|;
        Some(Match(if w.indices[0] > LastIndexOf(path, '/') then penalised + FileNameBonus else penalised,
                   w.indices))
  }

  /** A path matches exactly when the lower-cased query is a subsequence of the lower-cased path. */
  lemma MatchIffSubsequence(query: string, path: string)
    ensures FuzzyMatch(query, path).Some? <==> Embeddable(LowerStr(query), LowerStr(path))
  {
    var lq := LowerStr(query);
    var lp := LowerStr(path);
    if FuzzyMatch(query, path).Some? {
      assert Embeds(lq, lp, FuzzyMatch(query, path).value.indices);
    }
    if Embeddable(lq, lp) && |lq| > 0 {
      var idx :| Embeds(lq, lp, idx);
      assert lq[0..] == lq;
      WalkComplete(path, lp, lq, 0, 0, 0, -1, [], idx);
    }
  }

  /** The result is pinned: given the leftmost embedding of a non-empty query, the match
      has exactly those indices and their score. */
  lemma MatchIsLeftmostEmbedding(query: string, path: string, idx: seq<int>)
    requires |query| > 0
    requires Embeds(LowerStr(query), LowerStr(path), idx) && Leftmost(LowerStr(query), LowerStr(path), idx)
    ensures FuzzyMatch(query, path).Some?
    ensures FuzzyMatch(query, path).value.indices == idx
    ensures FuzzyMatch(query, path).value.score == ScoreOf(path, idx)
  {
    MatchIffSubsequence(query, path);
    var m := FuzzyMatch(query, path).value;
    LeftmostUnique(LowerStr(query), LowerStr(path), m.indices, idx);
  }

  /** Only the lower-cased query matters: the query's own case never changes the result. */
  lemma QueryCaseIrrelevant(q1: string, q2: string, path: string)
    requires LowerStr(q1) == LowerStr(q2)
    ensures FuzzyMatch(q1, path) == FuzzyMatch(q2, path)
  {
  }

  lemma {:induction false} PointsBounds(path: string, idx: seq<int>)
    requires Increasing(idx) && InRange(idx, |path|)
    ensures MatchBase * |idx| <= Points(path, idx)
    ensures Points(path, idx) <= (MatchBase + ConsecutiveBonus + SeparatorBonus + CaseBonus) * |idx|
  {
    if |idx| > 0 {
      PointsBounds(path, idx[..|idx| - 1]);
    }
  }

  /** A non-empty match scores between 100|q| - |p| and 330|q| - |p| + 50. */
  lemma ScoreBounds(query: string, path: string)
    requires |query| > 0 && FuzzyMatch(query, path).Some?
    ensures var s := FuzzyMatch(query, path).value.score;
      100 * |query| - |path| <= s <= 330 * |query| - |path| + 50
  {
    PointsBounds(path, FuzzyMatch(query, path).value.indices);
  }

  // ---------------------------------------------------------------------------
  // performFuzzySearch
  // ---------------------------------------------------------------------------

  /** The matching paths with their matches, in input order (the `map` and `filter` steps). */
  function Candidates(query: string, paths: seq<string>): (r: seq<FuzzyResult>)
    ensures forall c :: c in r ==> c.path in paths && FuzzyMatch(query, c.path) == Some(Match(c.score, c.indices))
    ensures forall i :: 0 <= i < |paths| && FuzzyMatch(query, paths[i]).Some? ==>
      var m := FuzzyMatch(query, paths[i]).value; FuzzyResult(paths[i], m.score, m.indices) in r
  {
    if |paths| == 0 then []
    else
      var head := Candidate(query, paths[0]);
      var tail := Candidates(query, paths[1..]);
      assert forall i :: 1 <= i < |paths| ==> paths[i] == paths[1..][i - 1];
      head + tail
  }

  /** The result for one path: one entry when it matches, none otherwise. */
  function Candidate(query: string, path: string): (r: seq<FuzzyResult>)
    ensures |r| <= 1 && (|r| == 1 <==> FuzzyMatch(query, path).Some?)
    ensures forall c :: c in r ==> c.path == path && FuzzyMatch(query, path) == Some(Match(c.score, c.indices))
    ensures FuzzyMatch(query, path).Some? ==>
      var m := FuzzyMatch(query, path).value; FuzzyResult(path, m.score, m.indices) in r
  {
    match FuzzyMatch(query, path)
    case None => []
    case Some(m) => [FuzzyResult(path, m.score, m.indices)]
  }

  /** The filter works path by path: the candidates of a concatenation are those of each
      part, in order, so each matching path appears once, at its input position. */
  lemma {:induction false} CandidatesAppend(query: string, a: seq<string>, b: seq<string>)
    ensures Candidates(query, a + b) == Candidates(query, a) + Candidates(query, b)
    decreases |a|
  {
    if |a| == 0 {
      assert a + b == b;
    } else {
      assert (a + b)[1..] == a[1..] + b;
      CandidatesAppend(query, a[1..], b);
    }
  }

  /** A single path contributes exactly its own candidate entry. */
  lemma CandidatesOne(query: string, path: string)
    ensures Candidates(query, [path]) == Candidate(query, path)
  {
    assert [path][1..] == [];
  }

  /** The comparator `b.score - a.score` read as "`a` may come before `b`". */
  predicate ScoreAtLeast(a: FuzzyResult, b: FuzzyResult) {
    a.score >= b.score
  }

  lemma ScoreAtLeastIsPreorder()
    ensures Sorting.TotalPreorder(ScoreAtLeast)
  {
  }

  /** The candidates stably sorted by descending score. */
  function Ranked(query: string, paths: seq<string>): (r: seq<FuzzyResult>)
    ensures multiset(r) == multiset(Candidates(query, paths))
    ensures Sorting.Sorted(r, ScoreAtLeast)
  {
    ScoreAtLeastIsPreorder();
    Sorting.Sort(Candidates(query, paths), ScoreAtLeast)
  }

  /** Where `slice(0, end)` stops on an array of length `len`. */
  function SliceEnd(len: nat, end: int): (k: nat)
    ensures k <= len
    ensures end >= 0 ==> k == Min(end, len)
  {
    if end < 0 then Max(0, len + end) else Min(end, len)
  }

  /** `performFuzzySearch(query, paths, maxResults)`. */
  function PerformFuzzySearch(query: string, paths: seq<string>, maxResults: int): (r: seq<FuzzyResult>)
    ensures query == "" ==> r == []
  {
    if query == "" then []
    else
      var ranked := Ranked(query, paths);
      ranked[..SliceEnd(|ranked|, maxResults)]
  }

  /** The default call `performFuzzySearch(query, paths)`. */
  function Search(query: string, paths: seq<string>): (r: seq<FuzzyResult>)
    ensures |r| <= DefaultMaxResults
  {
    PerformFuzzySearch(query, paths, DefaultMaxResults)
  }

  /** Results are matching paths carrying their own match, ordered by non-increasing score;
      for a non-negative maximum there are min(maxResults, number of matches) of them. */
  lemma SearchResults(query: string, paths: seq<string>, maxResults: int)
    ensures var out := PerformFuzzySearch(query, paths, maxResults);
      && (forall i :: 0 <= i < |out| ==>
            out[i].path in paths && FuzzyMatch(query, out[i].path) == Some(Match(out[i].score, out[i].indices)))
      && (forall i, j :: 0 <= i < j < |out| ==> out[i].score >= out[j].score)
      && (query != "" && maxResults >= 0 ==> |out| == Min(maxResults, |Candidates(query, paths)|))
  {
    if query != "" {
      var ranked := Ranked(query, paths);
      var out := PerformFuzzySearch(query, paths, maxResults);
      assert out == ranked[..SliceEnd(|ranked|, maxResults)];
      forall i | 0 <= i < |out|
        ensures out[i].path in paths && FuzzyMatch(query, out[i].path) == Some(Match(out[i].score, out[i].indices))
      {
        assert out[i] in multiset(ranked);
      }
      assert |ranked| == |multiset(ranked)| == |Candidates(query, paths)|;
    }
  }

  /** Every matching path is ranked, and nothing ranked below the cut outscores what is kept. */
  lemma SearchKeepsTheBest(query: string, paths: seq<string>, maxResults: int, i: nat)
    requires query != "" && i < |paths| && FuzzyMatch(query, paths[i]).Some?
    ensures var m := FuzzyMatch(query, paths[i]).value;
      var out := PerformFuzzySearch(query, paths, maxResults);
      FuzzyResult(paths[i], m.score, m.indices) in out
      || forall j :: 0 <= j < |out| ==> out[j].score >= m.score
  {
    var m := FuzzyMatch(query, paths[i]).value;
    var c := FuzzyResult(paths[i], m.score, m.indices);
    var ranked := Ranked(query, paths);
    var k := SliceEnd(|ranked|, maxResults);
    assert c in multiset(ranked);
    var p :| 0 <= p < |ranked| && ranked[p] == c;
    if p >= k {
      assert forall j :: 0 <= j < k ==> ranked[j].score >= ranked[p].score;
    }
  }

  /** Ties keep input order: among results of equal score, the list is a prefix of those
      candidates in the order their paths were given. */
  lemma SearchStable(query: string, paths: seq<string>, maxResults: int, x: FuzzyResult)
    requires query != ""
    ensures Sorting.Class(PerformFuzzySearch(query, paths, maxResults), ScoreAtLeast, x)
         <= Sorting.Class(Candidates(query, paths), ScoreAtLeast, x)
  {
    var ranked := Ranked(query, paths);
    ScoreAtLeastIsPreorder();
    Sorting.SortStable(Candidates(query, paths), ScoreAtLeast, x);
    Sorting.ClassOfPrefix(ranked, SliceEnd(|ranked|, maxResults), ScoreAtLeast, x);
  }

  // ---------------------------------------------------------------------------
  // renderHighlightedPath
  // ---------------------------------------------------------------------------

  /** One displayed character, emphasised or not. */
  datatype Glyph = Glyph(ch: char, strong: bool)

  datatype Highlighted = Highlighted(directory: seq<Glyph>, fileName: seq<Glyph>)

  function Chars(g: seq<Glyph>): (s: string)
    ensures |s| == |g| && forall i :: 0 <= i < |g| ==> s[i] == g[i].ch
  {
    seq(|g|, i requires 0 <= i < |g| => g[i].ch)
  }

  /** `highlight(text, offset)`: character `i` is emphasised when `i + offset` is a matched index. */
  function Mark(text: string, offset: int, indices: seq<int>): (g: seq<Glyph>)
    ensures |g| == |text| && Chars(g) == text
    ensures forall i :: 0 <= i < |g| ==> (g[i].strong <==> i + offset in indices)
  {
    seq(|text|, i requires 0 <= i < |text| => Glyph(text[i], i + offset in indices))
  }

  /** `renderHighlightedPath(path, indices)`: the directory part up to and including the last
      '/', then the file name, with the matched characters emphasised. */
  function Highlight(path: string, indices: seq<int>): (h: Highlighted)
    ensures Chars(h.directory) + Chars(h.fileName) == path
    ensures '/' !in Chars(h.fileName)
    ensures |h.directory| == 0 || h.directory[|h.directory| - 1].ch == '/'
    ensures forall i :: 0 <= i < |path| ==> ((h.directory + h.fileName)[i].strong <==> i in indices)
  {
    var cut := LastIndexOf(path, '/') + 1;
    var h := Highlighted(Mark(path[..cut], 0, indices), Mark(path[cut..], cut, indices));
    assert Chars(h.directory) + Chars(h.fileName) == path[..cut] + path[cut..];
    assert path[..cut] + path[cut..] == path;
    forall i | 0 <= i < |path| ensures (h.directory + h.fileName)[i].strong <==> i in indices {
      if i >= cut {
        assert (h.directory + h.fileName)[i] == h.fileName[i - cut];
      }
    }
    h
  }

  // ---------------------------------------------------------------------------
  // Keyboard selection in the results list
  // ---------------------------------------------------------------------------

  /** ArrowUp: `prev > 0 ? prev - 1 : results.length - 1`. */
  function ArrowUp(prev: int, count: nat): int {
    if prev > 0 then prev - 1 else count - 1
  }

  /** ArrowDown: `prev < results.length - 1 ? prev + 1 : 0`. */
  function ArrowDown(prev: int, count: nat): int {
    if prev < count - 1 then prev + 1 else 0
  }

  /** Both arrows keep a selection inside a non-empty list, wrapping at the ends, and undo each other. */
  lemma ArrowsWrap(prev: int, count: nat)
    requires 0 <= prev < count
    ensures 0 <= ArrowUp(prev, count) < count && 0 <= ArrowDown(prev, count) < count
    ensures prev == 0 ==> ArrowUp(prev, count) == count - 1
    ensures prev == count - 1 ==> ArrowDown(prev, count) == 0
    ensures ArrowUp(ArrowDown(prev, count), count) == prev
    ensures ArrowDown(ArrowUp(prev, count), count) == prev
  {
  }

  /** Keys the open search box handles. */
  datatype Key = Escape | Up | Down | Enter | OtherKey

  /** What a key press asks of the caller. */
  datatype Outcome = Stay | Close | Open(path: string)

  datatype SearchBox = SearchBox(query: string, selected: int)

  /** Typing a new query produces a new result list, which resets the selection to the top. */
  function Type(box: SearchBox, query: string): (b: SearchBox)
    ensures b.query == query && b.selected == 0
  {
    SearchBox(query, 0)
  }

  /** The key handler of the open search box over `results`. */
  function Press(box: SearchBox, key: Key, results: seq<FuzzyResult>): (r: (SearchBox, Outcome))
    ensures r.0.query == box.query
    ensures key == Enter && 0 <= box.selected < |results| ==> r.1 == Open(results[box.selected].path)
    ensures r.1.Open? ==> key == Enter && exists k :: 0 <= k < |results| && results[k].path == r.1.path
    ensures key != Up && key != Down ==> r.0 == box
  {
    match key
    case Escape => (box, Close)
    case Up => (box.(selected := ArrowUp(box.selected, |results|)), Stay)
    case Down => (box.(selected := ArrowDown(box.selected, |results|)), Stay)
    case Enter =>
      if 0 <= box.selected < |results| then (box, Open(results[box.selected].path)) else (box, Stay)
    case OtherKey => (box, Stay)
  }

  /** After typing, Enter opens the best-ranked result when there is one and does nothing
      otherwise; the reset selection is in range for the arrows. */
  lemma TypeThenEnter(box: SearchBox, query: string, paths: seq<string>)
    ensures var results := Search(query, paths);
      |results| > 0 ==> Press(Type(box, query), Enter, results).1 == Open(results[0].path)
    ensures var results := Search(query, paths);
      |results| == 0 ==> Press(Type(box, query), Enter, results).1 == Stay
    ensures var results := Search(query, paths);
      |results| > 0 ==> 0 <= Type(box, query).selected < |results|
  {
  }

  /** Once there are results, no key sequence moves the selection off the list. */
  lemma PressKeepsSelection(box: SearchBox, key: Key, results: seq<FuzzyResult>)
    requires 0 <= box.selected < |results|
    ensures 0 <= Press(box, key, results).0.selected < |results|
  {
    ArrowsWrap(box.selected, |results|);
  }
}

=== FILE: github.dfy ===
/** The pure parts of the GitHub service: recognising a repository URL, and
    assembling the flat recursive tree listing into nested file-tree nodes. */
module GitHub {
  import opened Common
  import opened Types
  import Sorting

  // ---------------------------------------------------------------------------
  // parseGitHubUrl
  // ---------------------------------------------------------------------------

  const Host := "github.com/"

  /** Length of the run of non-'/' characters starting at `i` (the greedy `[^/]+`). */
  function Segment(s: string, i: nat): (n: nat)
    requires i <= |s|
    ensures i + n <= |s|
    ensures forall j :: i <= j < i + n ==> s[j] != '/'
    ensures i + n == |s| || s[i + n] == '/'
    decreases |s| - i
  {
    if i == |s| || s[i] == '/' then 0 else 1 + Segment(s, i + 1)
  }

  /** `([^/]+)\/([^/]+)` matches at `a` with these two groups: the owner, a '/', and
      the repository part, each non-empty and '/'-free, the second one followed by a
      '/' or the end (the greedy groups can then take no more). */
  predicate GroupsAt(url: string, a: nat, owner: string, raw: string) {
    var slash := a + |owner|;
    var end := slash + 1 + |raw|;
    && end <= |url|
    && url[a..slash] == owner && url[slash] == '/' && url[slash + 1..end] == raw
    && |owner| > 0 && '/' !in owner
    && |raw| > 0 && '/' !in raw
    && (end == |url| || url[end] == '/')
  }

  /** `github\.com\/([^/]+)\/([^/]+)` matches at `i` with these two groups. */
  predicate RegexMatchAt(url: string, i: nat, owner: string, raw: string) {
    OccursAt(url, Host, i) && GroupsAt(url, i + |Host|, owner, raw)
  }

  /** The two groups of the match at position `i`, if the pattern matches there. */
  function MatchAt(url: string, i: nat): (m: Option<(string, string)>)
    requires i <= |url|
    ensures m.Some? ==> RegexMatchAt(url, i, m.value.0, m.value.1)
    ensures m.None? ==> forall owner, raw :: !RegexMatchAt(url, i, owner, raw)
  {
    if !OccursAt(url, Host, i) then
      None
    else
      var o := Segment(url, i + |Host|);
      var slash := i + |Host| + o;
      if o == 0 || slash == |url| then
        NoMatchAt(url, i, o);
        None
      else
        var r := Segment(url, slash + 1);
        if r == 0 then
          NoMatchAt(url, i, o);
          None
        else
          Some(Groups(url, i + |Host|, o, r))
  }

  /** The maximal '/'-free runs on either side of a '/' are groups that match there. */
  function Groups(url: string, a: nat, o: nat, r: nat): (g: (string, string))
    requires o > 0 && a <= |url| && o == Segment(url, a)
    requires a + o < |url|
    requires r > 0 && r == Segment(url, a + o + 1)
    ensures GroupsAt(url, a, g.0, g.1)
  {
    SegmentIsFree(url, a, o);
    SegmentIsFree(url, a + o + 1, r);
    (url[a..a + o], url[a + o + 1..a + o + 1 + r])
  }

  /** The run `[^/]+` takes holds no '/'. */
  lemma SegmentIsFree(s: string, i: nat, n: nat)
    requires i <= |s| && n == Segment(s, i)
    ensures '/' !in s[i..i + n]
  {
    var t := s[i..i + n];
    forall j | 0 <= j < |t| ensures t[j] != '/' { assert t[j] == s[i + j]; }
  }

  /** Any groups that match at `a` are the maximal '/'-free runs. */
  lemma MatchGroups(url: string, a: nat, owner: string, raw: string)
    requires GroupsAt(url, a, owner, raw)
    ensures Segment(url, a) == |owner|
    ensures Segment(url, a + |owner| + 1) == |raw|
    ensures owner == url[a..a + |owner|]
    ensures raw == url[a + |owner| + 1..a + |owner| + 1 + |raw|]
  {
    var slash := a + |owner|;
    assert forall j :: a <= j < slash ==> url[j] != '/' by {
      forall j | a <= j < slash ensures url[j] != '/' {
        assert url[j] == owner[j - a];
      }
    }
    assert forall j :: slash + 1 <= j < slash + 1 + |raw| ==> url[j] != '/' by {
      forall j | slash + 1 <= j < slash + 1 + |raw| ensures url[j] != '/' {
        assert url[j] == raw[j - slash - 1];
      }
    }
    SegmentIs(url, a, |owner|);
    SegmentIs(url, slash + 1, |raw|);
  }

  lemma SegmentIs(s: string, i: nat, n: nat)
    requires i + n <= |s|
    requires forall j :: i <= j < i + n ==> s[j] != '/'
    requires i + n == |s| || s[i + n] == '/'
    ensures Segment(s, i) == n
    decreases n
  {
    if n > 0 {
      SegmentIs(s, i + 1, n - 1);
    }
  }

  lemma NoMatchAt(url: string, i: nat, o: nat)
    requires i + |Host| <= |url|
    requires o == Segment(url, i + |Host|)
    requires o == 0 || i + |Host| + o == |url| || Segment(url, i + |Host| + o + 1) == 0
    ensures forall owner, raw :: !RegexMatchAt(url, i, owner, raw)
  {
    forall owner, raw | RegexMatchAt(url, i, owner, raw) ensures false {
      MatchGroups(url, i + |Host|, owner, raw);
    }
  }

  /** `s.replace(/\.git$/, '')`: one trailing ".git" removed. */
  function StripGit(s: string): (r: string)
    ensures EndsWith(s, ".git") ==> r + ".git" == s
    ensures !EndsWith(s, ".git") ==> r == s
  {
    if EndsWith(s, ".git") then s[..|s| - 4] else s
  }

  lemma StripGitOnce()
    ensures StripGit("x.git.git") == "x.git"
    ensures StripGit(".git") == ""
    ensures StripGit("x.gitx") == "x.gitx"
  {
    assert EndsWith("x.git.git", ".git");
    assert EndsWith(".git", ".git");
    assert !EndsWith("x.gitx", ".git") by { assert "x.gitx"[2..] != ".git"; }
  }

  /** The leftmost match at or after `i`. */
  function FirstMatch(url: string, i: nat): (m: Option<(nat, string, string)>)
    requires i <= |url|
    ensures m.Some? ==> i <= m.value.0 <= |url| && RegexMatchAt(url, m.value.0, m.value.1, m.value.2)
    ensures m.Some? ==> forall j, owner, raw :: i <= j < m.value.0 ==> !RegexMatchAt(url, j, owner, raw)
    ensures m.None? ==> forall j, owner, raw :: i <= j <= |url| ==> !RegexMatchAt(url, j, owner, raw)
    decreases |url| - i
  {
    match MatchAt(url, i)
    case Some((owner, raw)) => Some((i, owner, raw))
    case None => if i == |url| then None else FirstMatch(url, i + 1)
  }

  /** `parseGitHubUrl`: owner and repository from the leftmost match, with one trailing
      ".git" removed from the repository name. */
  function ParseGitHubUrl(url: string): (r: Option<RepoInfo>)
    ensures r.None? <==> forall j, owner, raw :: 0 <= j <= |url| ==> !RegexMatchAt(url, j, owner, raw)
    ensures r.Some? ==> |r.value.owner| > 0 && '/' !in r.value.owner
    ensures r.Some? ==> exists j, raw :: RegexMatchAt(url, j, r.value.owner, raw) && r.value.repo == StripGit(raw)
  {
    match FirstMatch(url, 0)
    case None => None
    case Some((_, owner, raw)) => Some(RepoInfo(owner, StripGit(raw)))
  }

  /** The match used is the leftmost one: no match starts earlier. */
  lemma ParseUsesLeftmostMatch(url: string, j: nat, owner: string, raw: string)
    requires RegexMatchAt(url, j, owner, raw)
    requires forall k, o, r :: 0 <= k < j ==> !RegexMatchAt(url, k, o, r)
    ensures ParseGitHubUrl(url) == Some(RepoInfo(owner, StripGit(raw)))
  {
    LeftmostStart(url, j, owner, raw);
    var m := FirstMatch(url, 0).value;
    MatchUnique(url, j, owner, raw, m.1, m.2);
  }

  lemma LeftmostStart(url: string, j: nat, owner: string, raw: string)
    requires RegexMatchAt(url, j, owner, raw)
    requires forall k, o, r :: 0 <= k < j ==> !RegexMatchAt(url, k, o, r)
    ensures FirstMatch(url, 0).Some? && FirstMatch(url, 0).value.0 == j
  {
    assert FirstMatch(url, 0).Some?;
  }

  /** At one position the pattern matches with at most one pair of groups. */
  lemma MatchUnique(url: string, i: nat, o1: string, r1: string, o2: string, r2: string)
    requires RegexMatchAt(url, i, o1, r1) && RegexMatchAt(url, i, o2, r2)
    ensures o1 == o2 && r1 == r2
  {
    GroupsUnique(url, i + |Host|, o1, r1, o2, r2);
  }

  lemma GroupsUnique(url: string, a: nat, o1: string, r1: string, o2: string, r2: string)
    requires GroupsAt(url, a, o1, r1) && GroupsAt(url, a, o2, r2)
    ensures o1 == o2 && r1 == r2
  {
    MatchGroups(url, a, o1, r1);
    MatchGroups(url, a, o2, r2);
    assert |o1| == |o2|;
  }

  // ---------------------------------------------------------------------------
  // buildFileTree
  // ---------------------------------------------------------------------------

  /** One node under construction: `hasKids` distinguishes `children: []` from an absent
      `children`, and `kids` lists the children's paths in insertion order. */
  datatype Entry = Entry(name: string, kind: NodeKind, hasKids: bool, kids: seq<string>)

  /** The node map and the root list of `buildFileTree`. */
  datatype Builder = Builder(nodes: map<string, Entry>, roots: seq<string>)

  /** `c` is listed under `k`: its path extends `k`'s by '/' and its own name. */
  predicate ChildOf(b: Builder, k: string, c: string) {
    c in b.nodes && k != "" && c == k + "/" + b.nodes[c].name
  }

  predicate WellFormed(b: Builder) {
    && (forall k :: k in b.nodes ==> '/' !in b.nodes[k].name)
    && (forall k :: k in b.nodes ==> (b.nodes[k].hasKids <==> b.nodes[k].kind == Tree))
    && (forall k :: k in b.nodes && !b.nodes[k].hasKids ==> b.nodes[k].kids == [])
    && (forall k, i :: k in b.nodes && 0 <= i < |b.nodes[k].kids| ==> ChildOf(b, k, b.nodes[k].kids[i]))
    && (forall i :: 0 <= i < |b.roots| ==> b.roots[i] in b.nodes && b.roots[i] == b.nodes[b.roots[i]].name)
  }

  /** `k` occurs in some child list or in the root list. */
  predicate Attached(b: Builder, c: string) {
    c in b.roots || exists k :: k in b.nodes && c in b.nodes[k].kids
  }

  /** An existing entry keeps its name, type and child flag; its child list only grows. */
  predicate Extends(b: Builder, b': Builder) {
    && b.nodes.Keys <= b'.nodes.Keys
    && b.roots <= b'.roots
    && forall k :: k in b.nodes ==>
         var e, e' := b.nodes[k], b'.nodes[k];
         e'.name == e.name && e'.kind == e.kind && e'.hasKids == e.hasKids && e.kids <= e'.kids
  }

  /** `currentPath ? currentPath + '/' + part : part`. */
  function ExtendPath(parent: string, part: string): string {
    if parent == "" then part else parent + "/" + part
  }

  lemma ExtendsTransitive(a: Builder, b: Builder, c: Builder)
    requires Extends(a, b) && Extends(b, c)
    ensures Extends(a, c)
  {
  }

  /** Adding a fresh entry with no children, and possibly listing it as a root. */
  lemma AddEntryKeepsWellFormed(b: Builder, cur: string, e: Entry, roots: seq<string>)
    requires WellFormed(b) && cur !in b.nodes
    requires '/' !in e.name && (e.hasKids <==> e.kind == Tree) && e.kids == []
    requires roots == b.roots || (roots == b.roots + [cur] && cur == e.name)
    ensures WellFormed(Builder(b.nodes[cur := e], roots))
    ensures Extends(b, Builder(b.nodes[cur := e], roots))
  {
    var r := Builder(b.nodes[cur := e], roots);
    forall k, i | k in r.nodes && 0 <= i < |r.nodes[k].kids| ensures ChildOf(r, k, r.nodes[k].kids[i]) {
      assert k != cur;
      assert ChildOf(b, k, b.nodes[k].kids[i]);
    }
  }

  /** Appending an existing entry to a folder's child list. */
  lemma AttachKeepsWellFormed(b: Builder, parent: string, cur: string)
    requires WellFormed(b) && parent in b.nodes && b.nodes[parent].hasKids
    requires cur in b.nodes && ChildOf(b, parent, cur)
    ensures var p := b.nodes[parent];
      var r := Builder(b.nodes[parent := p.(kids := p.kids + [cur])], b.roots);
      WellFormed(r) && Extends(b, r)
  {
    var p := b.nodes[parent];
    var r := Builder(b.nodes[parent := p.(kids := p.kids + [cur])], b.roots);
    assert parent != cur;
    forall k, i | k in r.nodes && 0 <= i < |r.nodes[k].kids| ensures ChildOf(r, k, r.nodes[k].kids[i]) {
      if k == parent && i == |p.kids| {
        assert r.nodes[k].kids[i] == cur;
      } else {
        assert r.nodes[k].kids[i] == b.nodes[k].kids[i];
        assert ChildOf(b, k, b.nodes[k].kids[i]);
      }
    }
  }

  /** A path absent from the node map is listed nowhere. */
  lemma AbsentNotAttached(b: Builder, cur: string)
    requires WellFormed(b) && cur !in b.nodes
    ensures !Attached(b, cur)
  {
    forall k | k in b.nodes ensures cur !in b.nodes[k].kids {
      forall i | 0 <= i < |b.nodes[k].kids| ensures b.nodes[k].kids[i] != cur {
        assert ChildOf(b, k, b.nodes[k].kids[i]);
      }
    }
  }

  /** One step of the inner loop: create the node for `ExtendPath(parent, part)` unless it
      exists, and push it onto its parent's children, or onto the roots at top level. A
      node whose parent is a file is created but listed nowhere. */
  function AddStep(b: Builder, parent: string, part: string, isLast: bool, kind: NodeKind): (r: Builder)
    requires WellFormed(b) && '/' !in part
    ensures WellFormed(r) && Extends(b, r)
    ensures r.nodes.Keys == b.nodes.Keys + {ExtendPath(parent, part)}
    ensures var cur := ExtendPath(parent, part);
      cur !in b.nodes ==>
        && r.nodes[cur].name == part
        && r.nodes[cur].kind == (if isLast then kind else Tree)
        && r.nodes[cur].kids == []
        && (parent == "" ==> r.roots == b.roots + [cur])
        && (parent != "" && parent in b.nodes && b.nodes[parent].hasKids ==>
              r.nodes[parent].kids == b.nodes[parent].kids + [cur])
        && (parent != "" && parent in b.nodes && !b.nodes[parent].hasKids ==> !Attached(r, cur))
    ensures ExtendPath(parent, part) in b.nodes ==> r == b
  {
    var cur := ExtendPath(parent, part);
    if cur in b.nodes then b
    else
      var k := if isLast then kind else Tree;
      var e := Entry(part, k, k == Tree, []);
      if parent == "" then
        AddEntryKeepsWellFormed(b, cur, e, b.roots + [cur]);
        Builder(b.nodes[cur := e], b.roots + [cur])
      else
        AddEntryKeepsWellFormed(b, cur, e, b.roots);
        var b1 := Builder(b.nodes[cur := e], b.roots);
        if parent in b.nodes && b.nodes[parent].hasKids then
          assert ChildOf(b1, parent, cur);
          AttachKeepsWellFormed(b1, parent, cur);
          var p := b1.nodes[parent];
          var r := Builder(b1.nodes[parent := p.(kids := p.kids + [cur])], b.roots);
          ExtendsTransitive(b, b1, r);
          r
        else
          AbsentNotAttached(b, cur);
          assert !Attached(b1, cur) by {
            forall k | k in b1.nodes ensures cur !in b1.nodes[k].kids {
              if k != cur { assert b1.nodes[k] == b.nodes[k]; }
            }
          }
          b1
  }

  /** The path prefixes the inner loop visits below `parent`. */
  function Prefixes(parent: string, parts: seq<string>): seq<string>
    decreases |parts|
  {
    if |parts| == 0 then [] else
      var cur := ExtendPath(parent, parts[0]);
      [cur] + Prefixes(cur, parts[1..])
  }

  /** The inner loop over the parts of one path. */
  function AddParts(b: Builder, parent: string, parts: seq<string>, kind: NodeKind): (r: Builder)
    requires WellFormed(b)
    requires forall k :: 0 <= k < |parts| ==> '/' !in parts[k]
    ensures WellFormed(r) && Extends(b, r)
    ensures r.nodes.Keys == b.nodes.Keys + set p | p in Prefixes(parent, parts)
    decreases |parts|
  {
    if |parts| == 0 then b
    else
      var b1 := AddStep(b, parent, parts[0], |parts| == 1, kind);
      var cur := ExtendPath(parent, parts[0]);
      var r := AddParts(b1, cur, parts[1..], kind);
      assert Prefixes(parent, parts) == [cur] + Prefixes(cur, parts[1..]);
      ExtendsTransitive(b, b1, r);
      r
  }

  /** All the path prefixes of one file path. */
  function PathPrefixes(path: string): set<string> {
    set p | p in Prefixes("", Split(path, '/'))
  }

  function AddFile(b: Builder, f: GithubFile): (r: Builder)
    requires WellFormed(b)
    ensures WellFormed(r) && Extends(b, r)
    ensures r.nodes.Keys == b.nodes.Keys + PathPrefixes(f.path)
  {
    SplitPiecesFree(f.path, '/');
    AddParts(b, "", Split(f.path, '/'), f.kind)
  }

  /** Every path prefix of every listed file. */
  function AllPrefixes(files: seq<GithubFile>): set<string>
  {
    if |files| == 0 then {} else PathPrefixes(files[0].path) + AllPrefixes(files[1..])
  }

  lemma {:induction false} AllPrefixesMember(files: seq<GithubFile>, p: string)
    ensures p in AllPrefixes(files) <==> exists f :: f in files && p in PathPrefixes(f.path)
  {
    if |files| > 0 {
      AllPrefixesMember(files[1..], p);
      assert files == [files[0]] + files[1..];
    }
  }

  /** The prefixes do not depend on the order of the files. */
  lemma AllPrefixesPermutation(a: seq<GithubFile>, b: seq<GithubFile>)
    requires multiset(a) == multiset(b)
    ensures AllPrefixes(a) == AllPrefixes(b)
  {
    forall p ensures p in AllPrefixes(a) <==> p in AllPrefixes(b) {
      AllPrefixesMember(a, p);
      AllPrefixesMember(b, p);
      assert forall f :: f in a <==> f in multiset(a);
      assert forall f :: f in b <==> f in multiset(b);
    }
  }

  function AddFiles(b: Builder, files: seq<GithubFile>): (r: Builder)
    requires WellFormed(b)
    ensures WellFormed(r) && Extends(b, r)
    ensures r.nodes.Keys == b.nodes.Keys + AllPrefixes(files)
    decreases |files|
  {
    if |files| == 0 then b
    else
      var b1 := AddFile(b, files[0]);
      var r := AddFiles(b1, files[1..]);
      ExtendsTransitive(b, b1, r);
      r
  }

  /** The order `a.path.localeCompare(b.path) <= 0`, given the string collation. */
  function ByPath(le: (string, string) -> bool): (GithubFile, GithubFile) -> bool {
    (a: GithubFile, b: GithubFile) => le(a.path, b.path)
  }

  lemma ByPathIsPreorder(le: (string, string) -> bool)
    requires Sorting.TotalPreorder(le)
    ensures Sorting.TotalPreorder(ByPath(le))
  {
    var cmp := ByPath(le);
    forall a, b ensures cmp(a, b) || cmp(b, a) {
      assert le(a.path, b.path) || le(b.path, a.path);
    }
    forall a, b, c | cmp(a, b) && cmp(b, c) ensures cmp(a, c) {
      assert le(a.path, b.path) && le(b.path, c.path);
    }
  }

  /** The set of keys at least as long as `n + 1` characters (the termination measure
      of the tree materialisation: a child's path is longer than its parent's). */
  function Above(b: Builder, n: int): set<string> {
    set k | k in b.nodes && |k| > n
  }

  /** A displayed node is well formed: a file has no children, a folder has a list, and
      every child's path is its parent's path, '/', and the child's name. */
  predicate TreeWellFormed(n: TreeNode)
    decreases n
  {
    && '/' !in n.name
    && (n.kind == Blob <==> n.children.NoChildren?)
    && (n.children.Kids? ==> forall i :: 0 <= i < |n.children.nodes| ==>
          && n.children.nodes[i].path == n.path + "/" + n.children.nodes[i].name
          && TreeWellFormed(n.children.nodes[i]))
  }

  /** The node object stored under `p`, with its children resolved. */
  function Node(b: Builder, p: string): (r: TreeNode)
    requires WellFormed(b) && p in b.nodes
    ensures r.path == p && r.name == b.nodes[p].name && r.kind == b.nodes[p].kind
    ensures TreeWellFormed(r)
    decreases Above(b, |p| - 1), 0
  {
    var e := b.nodes[p];
    if !e.hasKids then TreeNode(e.name, p, e.kind, NoChildren)
    else
      assert p in Above(b, |p| - 1) && p !in Above(b, |p|);
      assert forall i :: 0 <= i < |e.kids| ==> ChildOf(b, p, e.kids[i]);
      var cs := Nodes(b, e.kids, |p|);
      assert forall i :: 0 <= i < |cs| ==> cs[i].name == b.nodes[e.kids[i]].name;
      TreeNode(e.name, p, e.kind, Kids(cs))
  }

  function Nodes(b: Builder, ks: seq<string>, bound: int): (r: seq<TreeNode>)
    requires WellFormed(b)
    requires forall i :: 0 <= i < |ks| ==> ks[i] in b.nodes && |ks[i]| > bound
    ensures |r| == |ks|
    ensures forall i :: 0 <= i < |ks| ==>
      r[i].path == ks[i] && r[i].name == b.nodes[ks[i]].name && TreeWellFormed(r[i])
    decreases Above(b, bound), 1, |ks|
  {
    if |ks| == 0 then []
    else
      assert Above(b, |ks[0]| - 1) <= Above(b, bound);
      [Node(b, ks[0])] + Nodes(b, ks[1..], bound)
  }

  function Empty(): (b: Builder)
    ensures WellFormed(b) && b.nodes == map[] && b.roots == []
  {
    Builder(map[], [])
  }

  /** `buildFileTree(files)`: the files in collation order of their paths, assembled into
      the root nodes. Every node is well formed and every root's path is its name. */
  function BuildFileTree(files: seq<GithubFile>, le: (string, string) -> bool): (r: seq<TreeNode>)
    requires Sorting.TotalPreorder(le)
    ensures forall i :: 0 <= i < |r| ==> TreeWellFormed(r[i]) && r[i].path == r[i].name && '/' !in r[i].path
  {
    var b := Built(files, le);
    Nodes(b, b.roots, -1)
  }

  /** The node map and roots after every file has been added. */
  function Built(files: seq<GithubFile>, le: (string, string) -> bool): (b: Builder)
    requires Sorting.TotalPreorder(le)
    ensures WellFormed(b)
  {
    ByPathIsPreorder(le);
    AddFiles(Empty(), Sorting.Sort(files, ByPath(le)))
  }

  /** Exactly one node map entry per distinct path prefix of the listed files. */
  lemma BuildCreatesOneNodePerPrefix(files: seq<GithubFile>, le: (string, string) -> bool)
    requires Sorting.TotalPreorder(le)
    ensures Built(files, le).nodes.Keys == AllPrefixes(files)
  {
    ByPathIsPreorder(le);
    AllPrefixesPermutation(Sorting.Sort(files, ByPath(le)), files);
  }
}

=== FILE: history_navigator.dfy ===
/** The recently-opened-files overlay shown while Ctrl is held after Ctrl+Tab: one
    row per file, its name and its directory, with the row under the cursor marked. */
module HistoryNavigator {
  import opened Common
  import Workspace

  /** One list item: the file name, the directory shown beside it, the highlight. */
  datatype NavRow = NavRow(fileName: string, directory: string, isSelected: bool)

  /** The row for `files[index]`. */
  function RowOf(path: string, index: int, selectedIndex: int): NavRow {
    NavRow(BaseName(path), DirName(path), index == selectedIndex)
  }

  /** `FileHistoryNavigator`: nothing when closed, otherwise one row per file in
      the given order. */
  function Render(isOpen: bool, files: seq<string>, selectedIndex: int): (r: Option<seq<NavRow>>)
    ensures r.None? <==> !isOpen
    ensures r.Some? ==> |r.value| == |files|
    ensures r.Some? ==> forall k :: 0 <= k < |files| ==> r.value[k] == RowOf(files[k], k, selectedIndex)
  {
    if !isOpen then None
    else Some(seq(|files|, k requires 0 <= k < |files| => RowOf(files[k], k, selectedIndex)))
  }

  /** The positions of the highlighted rows. */
  function Highlighted(rows: seq<NavRow>): set<int> {
    set k | 0 <= k < |rows| && rows[k].isSelected
  }

  /** Exactly the row at `selectedIndex` is highlighted when that index is in range,
      and no row otherwise. */
  lemma {:induction false} ExactlyOneHighlighted(files: seq<string>, selectedIndex: int)
    ensures 0 <= selectedIndex < |files| ==> Highlighted(Render(true, files, selectedIndex).value) == {selectedIndex}
    ensures !(0 <= selectedIndex < |files|) ==> Highlighted(Render(true, files, selectedIndex).value) == {}
  {
    var rows := Render(true, files, selectedIndex).value;
    if 0 <= selectedIndex < |files| {
      assert rows[selectedIndex].isSelected;
      assert selectedIndex in Highlighted(rows);
    }
  }

  /** Each row shows the whole path: the directory, a '/', and the file name when the
      path has a '/'; no directory and the whole path as the name when it has none.
      The name never holds a '/'. */
  lemma RowShowsPath(path: string, index: int, selectedIndex: int)
    ensures '/' !in RowOf(path, index, selectedIndex).fileName
    ensures var row := RowOf(path, index, selectedIndex);
      '/' in path ==> row.directory + "/" + row.fileName == path
    ensures var row := RowOf(path, index, selectedIndex);
      '/' !in path ==> row.directory == "" && row.fileName == path
  {
    DirNameBaseName(path);
  }

  /** Opening the overlay with Ctrl+Tab over at least two visited files highlights
      exactly one row, and it is the file visited just before the current one. */
  lemma {:induction false} FirstTabHighlightsPrevious(visited: seq<string>, nav: Workspace.Navigator)
    requires |visited| >= 2 && !nav.open
    ensures var n := Workspace.CtrlTab(nav, |visited|, false);
      var rows := Render(n.open, Workspace.NavigatorFiles(visited), n.index);
      rows.Some? && Highlighted(rows.value) == {1}
      && rows.value[1] == RowOf(visited[|visited| - 2], 1, 1)
  {
    var files := Workspace.NavigatorFiles(visited);
    assert |files| >= 2;
    ExactlyOneHighlighted(files, 1);
  }
}

=== FILE: path_resolution.dfy ===
/** Resolution of a relative import to a repository file path: the import is
    resolved against the importing file's directory by the merge and dot-segment
    removal of section 5.2 of RFC 3986, and the result is looked up with an ordered
    list of suffixes. */
module PathResolution {
  import opened Common

  // ---------------------------------------------------------------------------
  // Dot-segment removal (section 5.2.4 of RFC 3986), on '/'-separated segments
  // ---------------------------------------------------------------------------

  predicate IsDotSegment(seg: string) {
    seg == "." || seg == ".."
  }

  predicate DotFree(segs: seq<string>) {
    forall k :: 0 <= k < |segs| ==> !IsDotSegment(segs[k])
  }

  predicate SlashFree(segs: seq<string>) {
    forall k :: 0 <= k < |segs| ==> '/' !in segs[k]
  }

  /** Processes the remaining segments of an absolute path onto the output `stack`:
      "." is dropped, ".." removes the last output segment (nothing at the root), and a
      final "." or ".." leaves a trailing empty segment, i.e. a trailing '/'. */
  function RemoveDotsFrom(stack: seq<string>, segs: seq<string>): (out: seq<string>)
    ensures DotFree(stack) ==> DotFree(out)
    ensures SlashFree(stack) && SlashFree(segs) ==> SlashFree(out)
    decreases |segs|
  {
    if |segs| == 0 then stack
    else
      var seg := segs[0];
      var next :=
        if seg == "." then stack
        else if seg == ".." then (if |stack| == 0 then [] else stack[..|stack| - 1])
        else stack + [seg];
      var next' := if |segs| == 1 && IsDotSegment(seg) then next + [""] else next;
      assert SlashFree(segs) ==> SlashFree(segs[1..]) by {
        if SlashFree(segs) { assert forall k :: 0 <= k < |segs| - 1 ==> segs[1..][k] == segs[k + 1]; }
      }
      RemoveDotsFrom(next', segs[1..])
  }

  function RemoveDots(segs: seq<string>): seq<string> {
    RemoveDotsFrom([], segs)
  }

  /** Segments without dots pass through unchanged. */
  lemma {:induction false} DotFreeUnchanged(stack: seq<string>, segs: seq<string>)
    requires DotFree(segs)
    ensures RemoveDotsFrom(stack, segs) == stack + segs
    decreases |segs|
  {
    if |segs| > 0 {
      assert !IsDotSegment(segs[0]);
      assert DotFree(segs[1..]) by {
        forall k | 0 <= k < |segs| - 1 ensures !IsDotSegment(segs[1..][k]) { assert segs[1..][k] == segs[k + 1]; }
      }
      DotFreeUnchanged(stack + [segs[0]], segs[1..]);
      assert stack + [segs[0]] + segs[1..] == stack + segs;
    }
  }

  /** Removing dot segments twice is the same as once. */
  lemma RemoveDotsIdempotent(segs: seq<string>)
    ensures RemoveDots(RemoveDots(segs)) == RemoveDots(segs)
  {
    DotFreeUnchanged([], RemoveDots(segs));
  }

  /** "x/.." cancels: a segment followed by ".." (not at the end) leaves no trace. */
  lemma ParentCancels(stack: seq<string>, x: string, rest: seq<string>)
    requires !IsDotSegment(x) && |rest| > 0
    ensures RemoveDotsFrom(stack, [x, ".."] + rest) == RemoveDotsFrom(stack, rest)
  {
    var s := [x, ".."] + rest;
    assert s[1..] == [".."] + rest;
    assert ([".."] + rest)[1..] == rest;
    assert (stack + [x])[..|stack|] == stack;
  }

  /** ".." at the root is clamped: it stays at the root. */
  lemma ParentAtRootClamped(rest: seq<string>)
    requires |rest| > 0
    ensures RemoveDots([".."] + rest) == RemoveDots(rest)
  {
    assert ([".."] + rest)[1..] == rest;
  }

  // ---------------------------------------------------------------------------
  // The resolved path
  // ---------------------------------------------------------------------------

  /** Dot-segment removal leaves no "." or ".." segment in the joined path. */
  lemma ResolvedIsDotFree(merged: string)
    ensures DotFree(Split(Join(RemoveDots(Split(merged, '/')), "/"), '/'))
  {
    SplitPiecesFree(merged, '/');
    var out := RemoveDots(Split(merged, '/'));
    if |out| > 0 {
      SplitOfJoin(out, '/');
    }
  }

  /** The path, without its leading '/', of `new URL(importPath, 'file:///' + dir + '/')`
      for a relative `importPath`: the base path "/dir/" merged with the import, then
      dot segments removed. When `dir` is "" the base is "file:////", whose path "//"
      holds an empty segment, and that segment survives into the result. */
  function ResolvedPathAsWritten(importPath: string, currentFilePath: string): (r: string)
    ensures DotFree(Split(r, '/'))
  {
    var merged := DirName(currentFilePath) + "/" + importPath;
    ResolvedIsDotFree(merged);
    Join(RemoveDots(Split(merged, '/')), "/")
  }

  /** As above, with the base "file:///" when the importing file sits at the root, so that
      the base path is "/" and a root-level file resolves imports of its siblings. */
  function ResolvedPath(importPath: string, currentFilePath: string): (r: string)
    ensures DotFree(Split(r, '/'))
    ensures DirName(currentFilePath) != "" ==> r == ResolvedPathAsWritten(importPath, currentFilePath)
  {
    var dir := DirName(currentFilePath);
    var merged := if dir == "" then importPath else dir + "/" + importPath;
    ResolvedIsDotFree(merged);
    Join(RemoveDots(Split(merged, '/')), "/")
  }

  /** A plain file name: no '/', not empty, not a dot segment. */
  predicate PlainName(f: string) {
    |f| > 0 && '/' !in f && !IsDotSegment(f)
  }

  /** As written, "./f" imported from a root-level file resolves to "/f", which names no
      repository file. */
  lemma RootImportAsWritten(f: string, currentFilePath: string)
    requires PlainName(f) && '/' !in currentFilePath
    ensures ResolvedPathAsWritten("./" + f, currentFilePath) == "/" + f
  {
    assert DirName(currentFilePath) + "/" + ("./" + f) == "" + ['/'] + ("." + ['/'] + f);
    SplitFirst("", "." + ['/'] + f, '/');
    SplitFirst(".", f, '/');
    SplitNoSeparator(f, '/');
    assert Split("" + ['/'] + ("." + ['/'] + f), '/') == ["", ".", f];
    assert RemoveDots(["", ".", f]) == ["", f] by {
      assert ["", ".", f][1..] == [".", f];
      assert [".", f][1..] == [f];
      var empty: seq<string> := [];
      assert empty + [""] == [""];
      assert RemoveDotsFrom(empty, ["", ".", f]) == RemoveDotsFrom([""], [".", f]);
      assert RemoveDotsFrom([""], [".", f]) == RemoveDotsFrom([""], [f]);
      assert RemoveDotsFrom([""], [f]) == RemoveDotsFrom(["", f], []);
    }
    assert Join(["", f], "/") == "" + "/" + Join([f], "/");
  }

  /** Corrected, "./f" imported from a root-level file resolves to "f". */
  lemma RootImportResolves(f: string, currentFilePath: string)
    requires PlainName(f) && '/' !in currentFilePath
    ensures ResolvedPath("./" + f, currentFilePath) == f
  {
    assert "./" + f == "." + ['/'] + f;
    SplitFirst(".", f, '/');
    SplitNoSeparator(f, '/');
    assert Split("./" + f, '/') == [".", f];
    assert RemoveDots([".", f]) == [f] by {
      assert [".", f][1..] == [f];
      assert RemoveDotsFrom([], [".", f]) == RemoveDotsFrom([], [f]);
      assert RemoveDotsFrom([], [f]) == RemoveDotsFrom([f], []);
    }
  }

  // ---------------------------------------------------------------------------
  // Lookup
  // ---------------------------------------------------------------------------

  /** The suffixes tried in order: the path itself, then the script and JSON extensions,
      then an index file of a directory. */
  const Suffixes: seq<string> := ["", ".ts", ".tsx", ".js", ".jsx", ".json", "/index.ts", "/index.tsx", "/index.js", "/index.jsx"]

  /** Number of suffixes that name the file directly rather than a directory index. */
  const DirectSuffixes := 6

  /** The first suffix, in list order, that makes `base` a known file, or -1. */
  function FirstExisting(base: string, suffixes: seq<string>, files: seq<string>): (k: int)
    ensures -1 <= k < |suffixes|
    ensures k >= 0 ==> base + suffixes[k] in files
    ensures forall j :: 0 <= j < |suffixes| && (k < 0 || j < k) ==> base + suffixes[j] !in files
  {
    if |suffixes| == 0 then -1
    else if base + suffixes[0] in files then 0
    else
      var k := FirstExisting(base, suffixes[1..], files);
      assert forall j :: 1 <= j < |suffixes| ==> suffixes[j] == suffixes[1..][j - 1];
      if k < 0 then -1 else k + 1
  }

  /** The lookup shared by both resolutions: nothing for a non-relative import, else the
      first suffixed candidate that is a repository file. */
  function Lookup(importPath: string, resolved: string, files: seq<string>): (r: Option<string>)
    ensures !StartsWith(importPath, ".") ==> r.None?
    ensures r.Some? ==> r.value in files
    ensures r.Some? ==>
      exists k :: 0 <= k < |Suffixes| && r.value == resolved + Suffixes[k]
        && (forall j :: 0 <= j < k ==> resolved + Suffixes[j] !in files)
    ensures StartsWith(importPath, ".") && r.None? ==> forall k :: 0 <= k < |Suffixes| ==> resolved + Suffixes[k] !in files
  {
    if !StartsWith(importPath, ".") then None
    else
      var k := FirstExisting(resolved, Suffixes, files);
      if k < 0 then None else Some(resolved + Suffixes[k])
  }

  /** `resolveImportPath` as written. */
  function ResolveImportPathAsWritten(importPath: string, currentFilePath: string, files: seq<string>): (r: Option<string>)
    ensures !StartsWith(importPath, ".") ==> r.None?
    ensures r.Some? ==> r.value in files
  {
    Lookup(importPath, ResolvedPathAsWritten(importPath, currentFilePath), files)
  }

  /** `resolveImportPath` with root-level importing files handled. */
  function ResolveImportPath(importPath: string, currentFilePath: string, files: seq<string>): (r: Option<string>)
    ensures !StartsWith(importPath, ".") ==> r.None?
    ensures r.Some? ==> r.value in files
  {
    Lookup(importPath, ResolvedPath(importPath, currentFilePath), files)
  }

  /** When some direct suffix names a file, an index file is never chosen. */
  lemma DirectBeatsIndex(importPath: string, resolved: string, files: seq<string>, k: nat)
    requires StartsWith(importPath, ".")
    requires k < DirectSuffixes && resolved + Suffixes[k] in files
    ensures var r := Lookup(importPath, resolved, files);
      r.Some? && exists j :: 0 <= j <= k && r.value == resolved + Suffixes[j]
  {
  }

  /** The corrected resolution finds a sibling module `f.ts` of a root-level file, where
      the written one finds nothing (as no repository path starts with '/'). */
  lemma RootSiblingImport(f: string, currentFilePath: string, files: seq<string>)
    requires PlainName(f) && '/' !in currentFilePath
    requires f + ".ts" in files
    requires forall k :: 0 <= k < |files| ==> |files[k]| > 0 && files[k][0] != '/'
    ensures ResolveImportPath("./" + f, currentFilePath, files).Some?
    ensures ResolveImportPathAsWritten("./" + f, currentFilePath, files).None?
  {
    var importPath := "./" + f;
    assert StartsWith(importPath, ".") by {
      assert importPath[..1] == ".";
    }
    var r := ResolvedPath(importPath, currentFilePath);
    RootImportResolves(f, currentFilePath);
    DirectBeatsIndex(importPath, r, files, 1);
    var w := ResolvedPathAsWritten(importPath, currentFilePath);
    RootImportAsWritten(f, currentFilePath);
    forall k | 0 <= k < |Suffixes| ensures w + Suffixes[k] !in files {
      assert (w + Suffixes[k])[0] == '/';
    }
  }
}

=== FILE: sorting.dfy ===
/** Stable sorting by a total preorder, the contract of `Array.prototype.sort`
    with a consistent comparator (ECMAScript 2019 and later require stability).

    A comparator `cmp` is represented by the relation `le(a, b) == (cmp(a, b) <= 0)`.
    Stability is stated class by class: for every element `x`, the elements
    equivalent to `x` appear in the output in exactly their input order. */
module Sorting {

  ghost predicate Total<T(!new)>(le: (T, T) -> bool) {
    forall a, b :: le(a, b) || le(b, a)
  }

  ghost predicate Transitive<T(!new)>(le: (T, T) -> bool) {
    forall a, b, c :: le(a, b) && le(b, c) ==> le(a, c)
  }

  ghost predicate TotalPreorder<T(!new)>(le: (T, T) -> bool) {
    Total(le) && Transitive(le)
  }

  predicate Sorted<T>(s: seq<T>, le: (T, T) -> bool) {
    forall i, j :: 0 <= i < j < |s| ==> le(s[i], s[j])
  }

  /** Neither element sorts strictly before the other. */
  predicate Equivalent<T>(le: (T, T) -> bool, a: T, b: T) {
    le(a, b) && le(b, a)
  }

  /** The elements of `s` equivalent to `x`, in their order in `s`. */
  function Class<T>(s: seq<T>, le: (T, T) -> bool, x: T): seq<T>
  {
    if |s| == 0 then []
    else (if Equivalent(le, s[0], x) then [s[0]] else []) + Class(s[1..], le, x)
  }

  lemma {:induction false} ClassAppend<T>(a: seq<T>, b: seq<T>, le: (T, T) -> bool, x: T)
    ensures Class(a + b, le, x) == Class(a, le, x) + Class(b, le, x)
  {
    if |a| == 0 {
      assert a + b == b;
    } else {
      var head := if Equivalent(le, a[0], x) then [a[0]] else [];
      var ca, cb := Class(a[1..], le, x), Class(b, le, x);
      assert (a + b)[0] == a[0];
      assert (a + b)[1..] == a[1..] + b;
      assert Class(a, le, x) == head + ca;
      assert Class(a + b, le, x) == head + Class(a[1..] + b, le, x);
      ClassAppend(a[1..], b, le, x);
      assert head + (ca + cb) == (head + ca) + cb;
    }
  }

  /** The equivalence class of a prefix is a prefix of the class. */
  lemma ClassOfPrefix<T>(s: seq<T>, k: nat, le: (T, T) -> bool, x: T)
    requires k <= |s|
    ensures Class(s[..k], le, x) <= Class(s, le, x)
  {
    assert s == s[..k] + s[k..];
    ClassAppend(s[..k], s[k..], le, x);
  }

  /** Inserts `x` before the first element it does not sort after. */
  function Insert<T>(x: T, s: seq<T>, le: (T, T) -> bool): (r: seq<T>)
    ensures multiset(r) == multiset(s) + multiset{x}
  {
    if |s| == 0 || le(x, s[0]) then [x] + s
    else
      assert s == [s[0]] + s[1..];
      [s[0]] + Insert(x, s[1..], le)
  }

  lemma {:induction false} InsertSorted<T(!new)>(x: T, s: seq<T>, le: (T, T) -> bool)
    requires TotalPreorder(le)
    requires Sorted(s, le)
    ensures Sorted(Insert(x, s, le), le)
  {
    if |s| == 0 || le(x, s[0]) {
    } else {
      var tail := Insert(x, s[1..], le);
      InsertSorted(x, s[1..], le);
      forall y | y in tail ensures le(s[0], y) {
        assert y in multiset(tail);
        assert y == x || y in s[1..];
      }
    }
  }

  /** Two members of one class are related both ways. */
  lemma ClassMembersRelated<T(!new)>(le: (T, T) -> bool, a: T, b: T, x: T)
    requires Transitive(le)
    ensures Equivalent(le, a, x) && Equivalent(le, b, x) ==> le(a, b)
  {
    if Equivalent(le, a, x) && Equivalent(le, b, x) {
      assert le(a, x) && le(x, b);
    }
  }

  lemma SwapAroundEmpty<T>(a: seq<T>, b: seq<T>, rest: seq<T>)
    requires a == [] || b == []
    ensures a + (b + rest) == b + (a + rest)
  {
  }

  /** An inserted element keeps its place before the elements of its class that follow it. */
  lemma {:induction false} InsertClass<T(!new)>(y: T, s: seq<T>, le: (T, T) -> bool, x: T)
    requires Transitive(le)
    ensures Class(Insert(y, s, le), le, x) == Class([y], le, x) + Class(s, le, x)
  {
    if |s| == 0 || le(y, s[0]) {
      ClassAppend([y], s, le, x);
    } else {
      var rest := Insert(y, s[1..], le);
      InsertClass(y, s[1..], le, x);
      ClassMembersRelated(le, y, s[0], x);
      assert Insert(y, s, le) == [s[0]] + rest;
      ClassAppend([s[0]], rest, le, x);
      assert s == [s[0]] + s[1..];
      ClassAppend([s[0]], s[1..], le, x);
      SwapAroundEmpty(Class([s[0]], le, x), Class([y], le, x), Class(s[1..], le, x));
    }
  }

  /** Insertion sort; the result is an ordered permutation of the input. */
  function Sort<T(!new)>(s: seq<T>, le: (T, T) -> bool): (r: seq<T>)
    requires TotalPreorder(le)
    ensures multiset(r) == multiset(s)
    ensures |r| == |s|
    ensures Sorted(r, le)
  {
    if |s| == 0 then []
    else
      var t := Sort(s[1..], le);
      InsertSorted(s[0], t, le);
      assert s == [s[0]] + s[1..];
      Insert(s[0], t, le)
  }

  /** Stability: every class of equivalent elements keeps its input order. */
  lemma {:induction false} SortStable<T(!new)>(s: seq<T>, le: (T, T) -> bool, x: T)
    requires TotalPreorder(le)
    ensures Class(Sort(s, le), le, x) == Class(s, le, x)
  {
    if |s| > 0 {
      var t := Sort(s[1..], le);
      SortStable(s[1..], le, x);
      assert Sort(s, le) == Insert(s[0], t, le);
      InsertClass(s[0], t, le, x);
      assert s == [s[0]] + s[1..];
      ClassAppend([s[0]], s[1..], le, x);
    }
  }
}

=== FILE: storage.dfy ===
/** The persisted settings: the search history of repository URLs and the
    explanation-context preference, over a key-to-string store. JSON encoding and
    decoding are parameters; only their round trip is assumed of them. */
module Storage {
  import opened Common
  import opened Types

  const SearchHistoryKey := "githubRepoViewer_searchHistory"
  const ExplanationContextKey := "githubRepoViewer_explanationContext"
  const MaxHistoryItems := 10

  /** The browser's key-value storage. */
  type Store = map<string, string>

  /** What `JSON.parse` makes of a stored text, as far as `Array.isArray` looks. */
  datatype Parsed = Invalid | NotArray | Array(items: seq<string>)

  /** `JSON.parse` (returning `Invalid` where it throws) and `JSON.stringify` on string arrays. */
  datatype Codec = Codec(parse: string -> Parsed, stringify: seq<string> -> string)

  /** Parsing what was stringified gives the array back; a stringified array is never "". */
  ghost predicate RoundTrips(c: Codec) {
    forall h :: c.parse(c.stringify(h)) == Array(h) && c.stringify(h) != ""
  }

  /** `getSearchHistory`: the stored array, or [] when nothing usable is stored. */
  function GetSearchHistory(store: Store, c: Codec): (h: seq<string>)
    ensures SearchHistoryKey !in store || store[SearchHistoryKey] == "" ==> h == []
    ensures SearchHistoryKey in store && !c.parse(store[SearchHistoryKey]).Array? ==> h == []
    ensures h != [] ==> SearchHistoryKey in store && c.parse(store[SearchHistoryKey]) == Array(h)
    ensures SearchHistoryKey in store && store[SearchHistoryKey] != "" && c.parse(store[SearchHistoryKey]).Array? ==>
      h == c.parse(store[SearchHistoryKey]).items
  {
    if SearchHistoryKey !in store || store[SearchHistoryKey] == "" then []
    else match c.parse(store[SearchHistoryKey])
      case Array(items) => items
      case _ => []
  }

  /** The new history list: `url` first, without other copies, at most ten entries. */
  function MoveToFront(history: seq<string>, url: string): (r: seq<string>)
    ensures |r| > 0 && r[0] == url
    ensures Count(r, url) == 1
    ensures |r| == Min(|RemoveAll(history, url)| + 1, MaxHistoryItems)
    ensures r[1..] <= RemoveAll(history, url)
  {
    var others := RemoveAll(history, url);
    var s := [url] + others;
    CountAbsent(others, url);
    CountAppend([url], others, url);
    var r := s[..Min(|s|, MaxHistoryItems)];
    assert s == r + s[|r|..];
    CountAppend(r, s[|r|..], url);
    assert r[1..] == others[..|r| - 1];
    r
  }

  /** `addSearchHistoryItem(url)`: an empty URL is ignored; otherwise the history becomes
      `MoveToFront` of the stored one. */
  function AddSearchHistoryItem(store: Store, url: string, c: Codec): (s: Store)
    ensures url == "" ==> s == store
    ensures url != "" ==> SearchHistoryKey in s && s.Keys == store.Keys + {SearchHistoryKey}
    ensures forall k :: k in store && k != SearchHistoryKey ==> k in s && s[k] == store[k]
  {
    if url == "" then store
    else store[SearchHistoryKey := c.stringify(MoveToFront(GetSearchHistory(store, c), url))]
  }

  /** `clearSearchHistory`. */
  function ClearSearchHistory(store: Store): (s: Store)
    ensures SearchHistoryKey !in s
    ensures forall k :: k in store && k != SearchHistoryKey ==> k in s && s[k] == store[k]
    ensures s.Keys <= store.Keys
  {
    store - {SearchHistoryKey}
  }

  /** After an add the history reads back as the moved-to-front list. */
  lemma AddThenGet(store: Store, url: string, c: Codec)
    requires RoundTrips(c)
    ensures url != "" ==>
      GetSearchHistory(AddSearchHistoryItem(store, url, c), c) == MoveToFront(GetSearchHistory(store, c), url)
  {
    if url != "" {
      var h := MoveToFront(GetSearchHistory(store, c), url);
      assert c.parse(c.stringify(h)) == Array(h) && c.stringify(h) != "";
    }
  }

  /** The history never holds more than ten entries once an item has been added. */
  lemma AddBoundsHistory(store: Store, url: string, c: Codec)
    requires RoundTrips(c)
    requires url != ""
    ensures var h := GetSearchHistory(AddSearchHistoryItem(store, url, c), c);
      |h| <= MaxHistoryItems && h[0] == url && Count(h, url) == 1
  {
    AddThenGet(store, url, c);
  }

  /** After clearing, the history reads as empty. */
  lemma ClearThenGet(store: Store, c: Codec)
    ensures GetSearchHistory(ClearSearchHistory(store), c) == []
  {
  }

  /** The text stored for each setting value. */
  function ContextName(x: ExplanationContext): string {
    match x
    case Full => "full"
    case Partial => "partial"
  }

  /** `getExplanationContext`: a value only when exactly "full" or "partial" is stored. */
  function GetExplanationContext(store: Store): (r: Option<ExplanationContext>)
    ensures r == Some(Full) <==> ExplanationContextKey in store && store[ExplanationContextKey] == "full"
    ensures r == Some(Partial) <==> ExplanationContextKey in store && store[ExplanationContextKey] == "partial"
    ensures r.Some? ==> ExplanationContextKey in store && ContextName(r.value) == store[ExplanationContextKey]
  {
    if ExplanationContextKey !in store then None
    else if store[ExplanationContextKey] == "full" then Some(Full)
    else if store[ExplanationContextKey] == "partial" then Some(Partial)
    else None
  }

  /** `setExplanationContext(x)`. */
  function SetExplanationContext(store: Store, x: ExplanationContext): (s: Store)
    ensures ExplanationContextKey in s && s[ExplanationContextKey] == ContextName(x)
    ensures forall k :: k in store && k != ExplanationContextKey ==> k in s && s[k] == store[k]
  {
    store[ExplanationContextKey := ContextName(x)]
  }

  /** Setting then getting returns the value set, and leaves the search history alone. */
  lemma SetThenGetContext(store: Store, x: ExplanationContext, c: Codec)
    ensures GetExplanationContext(SetExplanationContext(store, x)) == Some(x)
    ensures GetSearchHistory(SetExplanationContext(store, x), c) == GetSearchHistory(store, c)
  {
    assert SearchHistoryKey != ExplanationContextKey;
  }
}

=== FILE: types.dfy ===
/** The shapes of the records the application passes around. */
module Types {

  /** `'blob' | 'tree'`: a file or a folder. */
  datatype NodeKind = Blob | Tree

  /** `children?: TreeNode[]`: absent, or an array (possibly empty). */
  datatype Children = NoChildren | Kids(nodes: seq<TreeNode>)

  /** A node of the displayed file tree. */
  datatype TreeNode = TreeNode(name: string, path: string, kind: NodeKind, children: Children)

  /** One entry of the repository tree as the GitHub API lists it. */
  datatype GithubFile = GithubFile(path: string, mode: string, kind: NodeKind, sha: string, url: string)

  /** The repository a URL points at. */
  datatype RepoInfo = RepoInfo(owner: string, repo: string)

  /** `'user' | 'model' | 'system-info'`. */
  datatype Role = User | Model | SystemInfo

  datatype Message = Message(role: Role, text: string)

  /** `'full' | 'partial'`: how much of a file accompanies an explanation request. */
  datatype ExplanationContext = Full | Partial
}

=== FILE: workspace.dfy ===
/** The pure state rules of the main application component: flattening the
    file tree into the quick-open path list, the stack of visited files, the
    Ctrl+Tab recent-files navigator, and the partial code context sent with an
    explanation request. */
module Workspace {
  import opened Common
  import opened Types
  import GitHub

  // ---------------------------------------------------------------------------
  // flattenTree
  // ---------------------------------------------------------------------------

  /** `flattenTree(nodes)`: each node's own path when it is a file, then its children's. */
  function FlattenForest(ns: seq<TreeNode>): seq<string>
    decreases ns
  {
    if |ns| == 0 then [] else FlattenNode(ns[0]) + FlattenForest(ns[1..])
  }

  function FlattenNode(n: TreeNode): seq<string>
    decreases n
  {
    (if n.kind == Blob then [n.path] else [])
    + (match n.children case NoChildren => [] case Kids(cs) => FlattenForest(cs))
  }

  /** Every node of a forest in pre-order: a node, then its subtrees left to right. */
  function PreOrderForest(ns: seq<TreeNode>): seq<TreeNode>
    decreases ns
  {
    if |ns| == 0 then [] else PreOrderNode(ns[0]) + PreOrderForest(ns[1..])
  }

  function PreOrderNode(n: TreeNode): seq<TreeNode>
    decreases n
  {
    [n] + (match n.children case NoChildren => [] case Kids(cs) => PreOrderForest(cs))
  }

  /** The paths of the file ('blob') nodes of a node list, in order. */
  function BlobPaths(s: seq<TreeNode>): seq<string>
  {
    if |s| == 0 then [] else (if s[0].kind == Blob then [s[0].path] else []) + BlobPaths(s[1..])
  }

  lemma {:induction false} BlobPathsAppend(a: seq<TreeNode>, b: seq<TreeNode>)
    ensures BlobPaths(a + b) == BlobPaths(a) + BlobPaths(b)
  {
    if |a| == 0 {
      assert a + b == b;
    } else {
      assert (a + b)[1..] == a[1..] + b;
      BlobPathsAppend(a[1..], b);
    }
  }

  /** `flattenTree` lists exactly the paths of the file nodes, in pre-order. */
  lemma {:induction false} FlattenIsBlobPreOrder(ns: seq<TreeNode>)
    ensures FlattenForest(ns) == BlobPaths(PreOrderForest(ns))
    decreases ns
  {
    if |ns| > 0 {
      FlattenNodeIsBlobPreOrder(ns[0]);
      FlattenIsBlobPreOrder(ns[1..]);
      BlobPathsAppend(PreOrderNode(ns[0]), PreOrderForest(ns[1..]));
    }
  }

  lemma {:induction false} FlattenNodeIsBlobPreOrder(n: TreeNode)
    ensures FlattenNode(n) == BlobPaths(PreOrderNode(n))
    decreases n
  {
    var below := match n.children case NoChildren => [] case Kids(cs) => PreOrderForest(cs);
    match n.children {
      case NoChildren =>
      case Kids(cs) => FlattenIsBlobPreOrder(cs);
    }
    BlobPathsAppend([n], below);
  }

  // ---------------------------------------------------------------------------
  // The visited-file stack
  // ---------------------------------------------------------------------------

  const MaxVisited := 15

  predicate IsSuffix<T(==)>(a: seq<T>, b: seq<T>) {
    |a| <= |b| && b[|b| - |a|..] == a
  }

  /** Drops the oldest entry once the stack has grown past its bound. */
  function DropOldest(s: seq<string>): seq<string> {
    if |s| > MaxVisited then s[1..] else s
  }

  /** The stack update of `handleFileSelect`: move `path` to the top, then drop the
      oldest entry when the stack grows past 15. */
  function PushVisited(stack: seq<string>, path: string): (r: seq<string>)
    ensures |r| > 0 && r[|r| - 1] == path
    ensures Count(r, path) == 1
    ensures IsSuffix(r[..|r| - 1], RemoveAll(stack, path))
    ensures |RemoveAll(stack, path)| < MaxVisited ==> r == RemoveAll(stack, path) + [path]
    ensures |RemoveAll(stack, path)| >= MaxVisited ==> r == RemoveAll(stack, path)[1..] + [path]
    ensures |stack| <= MaxVisited ==> |r| <= MaxVisited
    ensures NoDuplicates(stack) ==> NoDuplicates(r)
  {
    var others := RemoveAll(stack, path);
    RemoveAllNoDuplicates(stack, path);
    PushOnto(others, path);
    DropOldest(others + [path])
  }

  lemma PushOnto(others: seq<string>, path: string)
    requires path !in others
    ensures var r := DropOldest(others + [path]);
      && |r| > 0 && r[|r| - 1] == path
      && Count(r, path) == 1
      && IsSuffix(r[..|r| - 1], others)
      && |r| <= Max(|others|, MaxVisited)
      && (NoDuplicates(others) ==> NoDuplicates(r))
  {
    var s := others + [path];
    CountAbsent(others, path);
    CountAppend(others, [path], path);
    assert s[..|s| - 1] == others;
    if |s| > MaxVisited {
      assert s[0] != path;
      assert s[1..][..|s| - 2] == others[1..];
    }
  }

  /** The part of the application state the file-selection rules touch. */
  datatype AppState = AppState(repo: Option<RepoInfo>, selected: Option<string>, visited: seq<string>)

  /** The visited stack ends with the open file, is short and repeats nothing. */
  predicate Consistent(app: AppState) {
    && |app.visited| <= MaxVisited
    && NoDuplicates(app.visited)
    && (app.selected.Some? ==> |app.visited| > 0 && app.visited[|app.visited| - 1] == app.selected.value)
  }

  /** `handleFileSelect(path)`: ignored without a repository or for the file already open. */
  function SelectFile(app: AppState, path: string): (a: AppState)
    ensures app.repo.None? || app.selected == Some(path) ==> a == app
    ensures app.repo.Some? && app.selected != Some(path) ==>
      a.selected == Some(path) && a.repo == app.repo && a.visited == PushVisited(app.visited, path)
  {
    if app.repo.None? || app.selected == Some(path) then app
    else AppState(app.repo, Some(path), PushVisited(app.visited, path))
  }

  /** `loadRepo(url)`: an unparsable URL changes nothing here; otherwise nothing is open
      and the visited stack is emptied for the new repository. */
  function LoadRepo(app: AppState, url: string): (a: AppState)
    ensures GitHub.ParseGitHubUrl(url).None? ==> a == app
    ensures GitHub.ParseGitHubUrl(url).Some? ==>
      a.visited == [] && a.selected.None? && a.repo == GitHub.ParseGitHubUrl(url)
  {
    match GitHub.ParseGitHubUrl(url)
    case None => app
    case Some(info) => AppState(Some(info), None, [])
  }

  /** Selecting files and loading repositories keep the visited stack consistent. */
  lemma TransitionsKeepConsistent(app: AppState, path: string, url: string)
    requires Consistent(app)
    ensures Consistent(SelectFile(app, path))
    ensures Consistent(LoadRepo(app, url))
  {
    if app.repo.Some? && app.selected != Some(path) {
      var r := PushVisited(app.visited, path);
      assert |r| <= MaxVisited && NoDuplicates(r) && r[|r| - 1] == path;
      assert SelectFile(app, path) == AppState(app.repo, Some(path), r);
    }
  }

  // ---------------------------------------------------------------------------
  // The Ctrl+Tab navigator
  // ---------------------------------------------------------------------------

  const NavigatorSize := 10

  /** `navigatorFiles`: most recent first, at most ten. */
  function NavigatorFiles(stack: seq<string>): (r: seq<string>)
    ensures |r| == Min(|stack|, NavigatorSize)
    ensures forall k :: 0 <= k < |r| ==> r[k] == stack[|stack| - 1 - k]
  {
    ReverseIndex(stack);
    Reverse(stack)[..Min(|stack|, NavigatorSize)]
  }

  datatype Navigator = Navigator(open: bool, index: int)

  /** `Math.min(visitedFileStack.length - 1, 9)`. */
  function MaxIndex(stackLength: nat): int {
    Min(stackLength - 1, NavigatorSize - 1)
  }

  /** One step of the navigator index, forwards or (with Shift) backwards, wrapping at both ends. */
  function Cycle(prev: int, backwards: bool, maxIndex: int): int {
    var next := prev + (if backwards then -1 else 1);
    var next' := if next > maxIndex then 0 else next;
    if next' < 0 then maxIndex else next'
  }

  /** Ctrl+Tab (Ctrl+Shift+Tab when `shift`): nothing with fewer than two visited files,
      open at index 1 on the first press, cycle afterwards. */
  function CtrlTab(nav: Navigator, stackLength: nat, shift: bool): Navigator {
    if stackLength < 2 then nav
    else if !nav.open then Navigator(true, 1)
    else Navigator(true, Cycle(nav.index, shift, MaxIndex(stackLength)))
  }

  /** Whatever the previous index, a press with two or more visited files leaves the
      navigator open on an index of the list it shows. */
  lemma CtrlTabInRange(nav: Navigator, stackLength: nat, shift: bool)
    requires stackLength >= 2
    ensures var n := CtrlTab(nav, stackLength, shift);
      n.open && 0 <= n.index <= MaxIndex(stackLength) && n.index < Min(stackLength, NavigatorSize)
  {
  }

  /** Cycling wraps at both ends and Shift undoes a plain press. */
  lemma CycleWraps(i: int, maxIndex: int)
    requires 0 <= i <= maxIndex
    ensures Cycle(maxIndex, false, maxIndex) == 0
    ensures Cycle(0, true, maxIndex) == maxIndex
    ensures Cycle(Cycle(i, false, maxIndex), true, maxIndex) == i
    ensures Cycle(Cycle(i, true, maxIndex), false, maxIndex) == i
  {
  }

  /** Releasing Ctrl closes the navigator and opens the highlighted file. */
  function CtrlRelease(app: AppState, nav: Navigator): (r: (AppState, Navigator))
    ensures !r.1.open && r.1.index == nav.index
    ensures !nav.open ==> r == (app, nav)
    ensures var files := NavigatorFiles(app.visited);
      nav.open && 0 <= nav.index < |files| && files[nav.index] != "" && Some(files[nav.index]) != app.selected ==>
        r.0 == SelectFile(app, files[nav.index])
    ensures var files := NavigatorFiles(app.visited);
      !(0 <= nav.index < |files| && files[nav.index] != "" && Some(files[nav.index]) != app.selected) ==>
        r.0 == app
  {
    if !nav.open then (app, nav)
    else
      var files := NavigatorFiles(app.visited);
      var closed := nav.(open := false);
      if 0 <= nav.index < |files| && files[nav.index] != "" && Some(files[nav.index]) != app.selected then
        (SelectFile(app, files[nav.index]), closed)
      else (app, closed)
  }

  /** Losing window focus closes the navigator without opening anything. */
  function Blur(nav: Navigator): (n: Navigator)
    ensures !n.open && n.index == nav.index
  {
    nav.(open := false)
  }

  /** Ctrl+Tab then release switches to the previously opened file. */
  lemma TabSwitchesToPrevious(app: AppState, nav: Navigator)
    requires Consistent(app) && app.repo.Some? && app.selected.Some?
    requires |app.visited| >= 2 && !nav.open
    requires app.visited[|app.visited| - 2] != ""
    ensures CtrlRelease(app, CtrlTab(nav, |app.visited|, false)).0.selected
         == Some(app.visited[|app.visited| - 2])
  {
    var files := NavigatorFiles(app.visited);
    assert files[1] == app.visited[|app.visited| - 2];
  }

  // ---------------------------------------------------------------------------
  // The partial code context of an explanation request
  // ---------------------------------------------------------------------------

  const LinesAround := 3
  const SnippetBanner := "... (code snippet) ..."

  /** `lines.findIndex(line => line.includes(text))`. */
  function FindLine(lines: seq<string>, text: string): (i: int)
    ensures -1 <= i < |lines|
    ensures i >= 0 ==> Contains(lines[i], text)
    ensures forall j :: 0 <= j < |lines| && (i < 0 || j < i) ==> !Contains(lines[j], text)
  {
    if |lines| == 0 then -1
    else if Contains(lines[0], text) then 0
    else var k := FindLine(lines[1..], text); if k < 0 then -1 else k + 1
  }

  /** The lines `[start, end)` shown around line `i` of `n`. */
  function Window(n: nat, i: nat): (w: (nat, nat))
    requires i < n
    ensures w.0 <= i < w.1 <= n
    ensures w.1 - w.0 <= 2 * LinesAround + 1
    ensures w.0 == 0 || w.0 <= i - LinesAround
    ensures w.1 == n || w.1 >= i + LinesAround + 1
    ensures i - LinesAround <= w.0 && w.1 <= i + LinesAround + 1
  {
    (Max(0, i - LinesAround), Min(n, i + LinesAround + 1))
  }

  /** The code that accompanies an explanation of `selected`: the whole file, or in
      partial mode up to three lines either side of the first line containing it. */
  function CodeContext(content: string, selected: string, mode: ExplanationContext): (r: string)
    ensures mode == Full ==> r == content
    ensures FindLine(Split(content, '\n'), selected) < 0 ==> r == content
  {
    if mode == Full then content
    else
      var lines := Split(content, '\n');
      var i := FindLine(lines, selected);
      if i < 0 then content
      else
        var (start, end) := Window(|lines|, i);
        SnippetBanner + "\n" + Join(lines[start..end], "\n") + "\n" + SnippetBanner
  }

  /** In partial mode the snippet between the banners is a run of at most seven whole
      lines of the file that includes the first line mentioning the selection. */
  lemma SnippetIsLineWindow(content: string, selected: string) returns (start: nat, end: nat)
    requires FindLine(Split(content, '\n'), selected) >= 0
    ensures var lines := Split(content, '\n');
      var i := FindLine(lines, selected);
      && (start, end) == Window(|lines|, i)
      && start <= i < end <= |lines| && end - start <= 2 * LinesAround + 1
      && CodeContext(content, selected, Partial)
         == SnippetBanner + "\n" + Join(lines[start..end], "\n") + "\n" + SnippetBanner
      && Split(Join(lines[start..end], "\n"), '\n') == lines[start..end]
  {
    var lines := Split(content, '\n');
    var i := FindLine(lines, selected);
    var w := Window(|lines|, i);
    start, end := w.0, w.1;
    LinesAreNewlineFree(content, start, end);
    SplitOfJoin(lines[start..end], '\n');
  }

  /** No line of a run of lines holds a newline. */
  lemma LinesAreNewlineFree(content: string, start: nat, end: nat)
    requires start <= end <= |Split(content, '\n')|
    ensures var run := Split(content, '\n')[start..end];
      forall k :: 0 <= k < |run| ==> '\n' !in run[k]
  {
    var lines := Split(content, '\n');
    SplitPiecesFree(content, '\n');
    var run := lines[start..end];
    forall k | 0 <= k < |run| ensures '\n' !in run[k] {
      assert run[k] == lines[start + k];
    }
  }
}
